=== FILE: README.md ===
# Scuttlebutt core in Dafny

This project models the core of Scuttlebutt, a Google App Engine application
that collects news articles about topics of interest from RSS feeds. It has
two parts:

- **Ingestion.** `RssService.Download` matches every entry of a feed against
  every topic and upserts an article per matching entry. `Dispatch` queues one
  download per feed. `ComputeTopicStats` stores per-topic counts and the
  week-on-week change.
- **Reporting.** `ScuttlebuttService.GetArticles` returns one topic's articles
  inside a date window, ranked by readership and paged. The weekly and daily
  aggregators count a topic's articles per period, zero-fill the gaps and
  report the periods newest first.

The model also covers the request-parameter helpers (`StringToInt`,
`GetStringParam`, `GetDateParam`, `GetIntParam`) and the `ToDict` projections
of the `Feed`, `Topic` and `Article` records.

Conventions:

- **Time.** A `datetime` is an `Instant`: whole seconds since
  0001-01-01T00:00:00, up to 9999-12-31T23:59:59.
- **Calendar.** Python's proleptic Gregorian calendar is modelled in full
  (`Calendar`), including `toordinal`, `fromordinal` and `weekday`.
- **Text.** `strftime('%Y-%m-%dT%H:%M:%S')` and `isoformat()` are written out
  digit by digit (`DateText`).
- **Datastore.** The datastore is a sequence of records. A query returns
  the matching records in sequence order, each as often as it is stored.
- **Errors.** An exception the code raises, or that Python raises inside it,
  becomes the `Failure` arm of a `Result`.

Modules:

| module | file | models |
|---|---|---|
| `Wrappers` | wrappers.dfy | `Option` and `Result` |
| `Text` | text.dfy | decimal digits, zero padding and Python's string order |
| `Calendar` | calendar.dfy | ordinals, instants and weekdays of `datetime` |
| `DateText` | date_text.dfy | `strftime`/`isoformat` text and `StringToDatetime` (`strptime`) |
| `Model` | model.dfy | `Feed`, `Topic`, `Article`, their `ToDict` and the queries the services issue |
| `Helpers` | helpers.dfy | `helpers.py`, and `StringToInt` as the service has it too |
| `RssService` | rss_service.dfy | `_Match`, `Download`, `Dispatch`, `ComputeTopicStats` |
| `ArticleQuery` | article_query.dfy | `GetArticles` |
| `TopicStats` | topic_stats.dfy | the two aggregators, `GetWeeklyTopicStats` and `GetDailyTopicStats` |

Choices the model makes where the code's own text or behaviour could be
read two ways:

- `GetArticles` ranks by readership (scuttlebutt_service.py:50-52), although
  its docstring (scuttlebutt_service.py:22-23) says results are ordered by
  update time. The model follows the code.
- `ArticleToDict` builds exactly the six fields of model.py:54-63.
- `max_date` is compared as given (scuttlebutt_service.py:40-46): a bound at
  midnight excludes the rest of that day.
- `GetArticles` and the aggregators fail on an unknown topic id
  (scuttlebutt_service.py:43, 101, 119). The code dereferences `None` there.
- An aggregation over zero articles is `Failure(NoArticles)`. The code
  crashes on `None.strftime` (scuttlebutt_service.py:177-183), and the model
  keeps that as an error rather than inventing a default window.

## Model

| member | source | states |
|---|---|---|
| RssService.Upper | scuttlebutt/rss_service.py:119 | upper-casing keeps the length and maps every character through the ASCII upper-case map |
| RssService.Find | scuttlebutt/rss_service.py:119 | `string.find`: -1 exactly when the pattern occurs at no position from `start` on; otherwise the leftmost occurrence |
| RssService.Match | scuttlebutt/rss_service.py:109-119 | a match holds exactly when the upper-cased term occurs in the upper-cased text; an empty term matches every text |
| RssService.MatchedStepsMembership | scuttlebutt/rss_service.py:62-65 | a (topic, entry) pair is processed by the download loop exactly when the entry's title or summary matches the topic's name |
| RssService.FindByUrl | scuttlebutt/rss_service.py:68-70 | the lookup by URL finds the first article with that URL, or reports that none has it |
| RssService.FindByUrlFirst | scuttlebutt/rss_service.py:68-70 | the first index holding a URL is the one the lookup returns |
| RssService.NextKey | scuttlebutt/rss_service.py:72 | a new article gets a key no stored article has |
| RssService.Upsert | scuttlebutt/rss_service.py:66-84 | an existing URL is updated in place and a new one appended; the article afterwards carries the feed, the topic and the entry's fields; every other article is unchanged and no association is lost |
| RssService.UpsertWellFormed | scuttlebutt/rss_service.py:66-84 | one upsert keeps URLs and keys unique and association lists free of duplicates |
| RssService.Download | scuttlebutt/rss_service.py:44-60 | a feed that cannot be fetched fails with the feed's name and URL before anything is written; any other content succeeds |
| RssService.DownloadIdempotent | scuttlebutt/rss_service.py:62-84 | downloading the same content twice leaves the store as one download did |
| RssService.ApplyIdempotent | scuttlebutt/rss_service.py:62-84 | replaying the loop's upserts on its own result changes nothing |
| RssService.DownloadWellFormed | scuttlebutt/rss_service.py:66-84 | a download keeps at most one article per URL and per key, and no duplicate feed or topic keys on an article |
| RssService.DownloadTagsMatches | scuttlebutt/rss_service.py:62-84 | every matching (topic, entry) pair leaves an article with the entry's URL tagged with the topic and the feed |
| RssService.DownloadTopicsOrigin | scuttlebutt/rss_service.py:62-77 | conversely, a topic a download adds to an article comes from a topic that matched an entry with the article's URL |
| RssService.ApplyTopicsOrigin | scuttlebutt/rss_service.py:76-77 | a topic key on an article after the loop was there before or was added by a step for that URL and topic |
| RssService.ApplyFeedsOrigin | scuttlebutt/rss_service.py:74-75 | a feed key on an article after the loop was there before or is the downloaded feed on a step for that URL |
| RssService.ApplyAbsorbsAll | scuttlebutt/rss_service.py:62-77 | after the loop every processed pair's article carries its feed and topic |
| RssService.ApplyLastWrite | scuttlebutt/rss_service.py:79-84 | an article's title, summary, readership and update time are those of the last matching entry with its URL |
| RssService.ApplyUntouched | scuttlebutt/rss_service.py:62-84 | an article whose URL no matching entry has is left unchanged |
| RssService.ApplyNewArticles | scuttlebutt/rss_service.py:67-72 | every article the loop creates has the URL of a matching entry |
| RssService.ApplyOnlyFeed | scuttlebutt/rss_service.py:74-75 | a store whose articles all come from one feed still does after downloading that feed |
| RssService.DownloadTwoTopicsTwice | scuttlebutt/rss_service.py:62-84 | one entry matching two topics, downloaded twice, gives one article with both topics and the feed once |
| RssService.DownloadTwoEntriesTwice | scuttlebutt/tests/tests.py:107-128 | two entries, each matching one of two topics, downloaded twice into an empty store give two articles that each list the feed once |
| RssService.Dispatch | scuttlebutt/rss_service.py:33-36 | one download is queued per stored feed, in store order |
| RssService.WeekOnWeekChange | scuttlebutt/rss_service.py:100-105 | the change is 0.0 when both weeks are empty and undefined when only last week is; otherwise it is the ratio (this - last) / last |
| RssService.TopicStats | scuttlebutt/rss_service.py:91-107 | a topic keeps its key and name and gets both counts, the last day's no larger than the last week's |
| RssService.ComputeTopicStats | scuttlebutt/rss_service.py:87-107 | the window arithmetic overflows exactly when `now` is within two weeks of `datetime.min`; otherwise every topic is recomputed, in order |
| RssService.ComputeTopicStatsCounts | scuttlebutt/rss_service.py:92-105 | the stored counts are the numbers of the topic's articles in the closed windows of the last seven days and the last day, and the change compares with the week before |
| Model.TopicToDict | scuttlebutt/model.py:33-41 | the view carries the topic's name, id and statistics |
| Model.TopicToDictId | scuttlebutt/model.py:33-41 | looking a view's id up among topics with unique keys gives back the topic it was made from |
| Model.ArticleToDict | scuttlebutt/model.py:54-63 | the view carries the article's URL, title, summary, id and readership |
| Model.ArticleToDictUpdated | scuttlebutt/model.py:60 | the view's `updated` text parses back to the article's update time |
| Model.SelectInWindow | scuttlebutt/rss_service.py:92-99 | the query keeps exactly the stored articles with the topic updated inside the closed window, each as often as the store holds it |
| Model.SelectInWindowAll | scuttlebutt/rss_service.py:92-99 | a window that holds every article selects the whole store |
| Model.SelectInWindowNested | scuttlebutt/rss_service.py:94-97 | a window inside another selects no more articles |
| Model.SelectByTopic | scuttlebutt/scuttlebutt_service.py:102-103 | the query keeps exactly the stored articles tagged with the topic, each as often as the store holds it |
| Model.FeedArticles | scuttlebutt/model.py:17-19 | `Feed.articles` is exactly the stored articles tagged with the feed, each as often as the store holds it |
| Model.TopicById | scuttlebutt/scuttlebutt_service.py:43 | the lookup returns a topic with the id, or none when no topic has it |
| ArticleQuery.RankByReadership | scuttlebutt/scuttlebutt_service.py:50-51 | the sort is a permutation of its input, in descending readership with None lowest |
| ArticleQuery.RankByReadershipStable | scuttlebutt/scuttlebutt_service.py:50-51 | the sort is stable: the articles of any one readership keep their order |
| ArticleQuery.Slice | scuttlebutt/scuttlebutt_service.py:58 | Python slicing: the result is the run of the input from the clamped start |
| ArticleQuery.Page | scuttlebutt/scuttlebutt_service.py:52-58 | paging skips `offset` elements and returns the next `min(limit, n - offset)` of them, or all the rest when no limit is given |
| ArticleQuery.PageNth | scuttlebutt/scuttlebutt_service.py:52-58 | `offset=k, limit=1` picks exactly the element at index `k` |
| ArticleQuery.PageRanked | scuttlebutt/scuttlebutt_service.py:50-58 | a page of a ranked list is still ranked |
| ArticleQuery.Ranked | scuttlebutt/scuttlebutt_service.py:44-51 | before paging, the answer is ranked and is a permutation of the views of the window query |
| ArticleQuery.GetArticles | scuttlebutt/scuttlebutt_service.py:16-58 | an unknown topic id fails; otherwise the result is ranked and every view is of a stored article with the topic inside the window |
| ArticleQuery.GetArticlesComplete | scuttlebutt/scuttlebutt_service.py:37-51 | without paging the result holds every article of the topic inside the window, each once |
| ArticleQuery.GetArticlesPaged | scuttlebutt/scuttlebutt_service.py:52-58 | a paged answer is `ranked[offset:offset + limit]` of the unpaged answer |
| ArticleQuery.GetArticlesNth | scuttlebutt/scuttlebutt_service.py:52-58 | `offset=k, limit=1` returns exactly the element at index `k` of the unpaged answer |
| ArticleQuery.GetArticlesStable | scuttlebutt/scuttlebutt_service.py:44-51 | articles of equal readership come out in datastore order |
| ArticleQuery.SecondMostRead | scuttlebutt/scuttlebutt_service.py:50-58 | of readerships 1200, 12000 and 45000, `offset=1, limit=1` returns the 12000 one |
| DateText.StringToDatetime | scuttlebutt/scuttlebutt_service.py:60-73 | only a 19-character text is accepted; the round-trip lemmas below relate it to the formatter |
| DateText.StringToDatetimeFormat | scuttlebutt/scuttlebutt_service.py:60-73 | `StringToDatetime` parses the `strftime` text of any instant back to that instant |
| DateText.FormatStringToDatetime | scuttlebutt/scuttlebutt_service.py:60-73 | a string `StringToDatetime` accepts is the formatted text of the instant it yields |
| DateText.FormatOrder | scuttlebutt/scuttlebutt_service.py:189 | the formatted texts are ordered as strings exactly as the instants are ordered |
| Helpers.StringToInt | scuttlebutt/helpers.py:12-25 | a converted text holds only digits, white space and signs |
| Helpers.StringToIntRejectsLetter | scuttlebutt/helpers.py:21-24 | `'12a'` is rejected |
| Helpers.StringToIntRejectsInnerBlank | scuttlebutt/helpers.py:21-24 | `'1 2'` is rejected |
| Helpers.StringToIntRejectsDoubleSign | scuttlebutt/helpers.py:21-24 | `'--1'` is rejected |
| Helpers.StringToIntRoundTrip | scuttlebutt/helpers.py:12-25 | `StringToInt(str(n)) == n` for every integer |
| Helpers.StringToIntNeedsDigit | scuttlebutt/helpers.py:21-24 | a string without a digit, such as `''`, is not converted |
| Helpers.StringToIntDigits | scuttlebutt/scuttlebutt_service.py:84-88 | a plain run of digits converts to its decimal value |
| Helpers.StringToIntBlanks | scuttlebutt/helpers.py:22 | surrounding whitespace does not change the conversion |
| Helpers.StringToIntGrammar | scuttlebutt/helpers.py:21-25 | a text converts to `v` exactly when it is white space, an optional sign, white space only after a sign, one or more decimal digits of value `v` (negated after `-`), then white space; every other text gives None |
| Helpers.StringToIntRejectsLateSign | scuttlebutt/helpers.py:21-24 | `'5+'`, `'1-2'` and `'12-'` are rejected |
| Helpers.StringToIntAcceptsPlus | scuttlebutt/helpers.py:21-22 | `'+5'` converts to 5 |
| Helpers.StringToIntAcceptsGap | scuttlebutt/helpers.py:21-22 | `'- 5'` converts to -5 |
| Helpers.StringToIntAcceptsZeros | scuttlebutt/helpers.py:21-22 | `'-007'` converts to -7 |
| Helpers.GetStringParam | scuttlebutt/helpers.py:27-35 | a value the request carries wins; otherwise a truthy default; otherwise it fails naming the parameter |
| Helpers.FindDate | scuttlebutt/helpers.py:40 | the search finds the leftmost `dddd-dd-dd`, or none when there is none |
| Helpers.GetDateParam | scuttlebutt/helpers.py:37-48 | a successful result is a valid calendar date; a failure is a missing or impossible date |
| Helpers.GetDateParamReads | scuttlebutt/helpers.py:39-42 | a parameter holding a formatted date reads back as that date |
| Helpers.GetDateParamEmbedded | scuttlebutt/helpers.py:39-42 | the date is read from the leftmost `dddd-dd-dd`, whatever text surrounds it |
| Helpers.GetDateParamInvalid | scuttlebutt/helpers.py:38-42 | a leftmost match whose digits name no calendar date raises, whatever follows it and whatever the default |
| Helpers.GetDateParamImpossible | scuttlebutt/helpers.py:38-42 | a first match `2011-13-01` (month 13) raises, even when a valid date follows it |
| Helpers.GetDateParamFebruary30 | scuttlebutt/helpers.py:38-42 | a parameter `2011-02-30` raises |
| Helpers.GetDateParamNoMatch | scuttlebutt/helpers.py:40-47 | a present parameter with no match yields the default, or raises naming the text when there is none |
| Helpers.GetDateParamDefault | scuttlebutt/helpers.py:39-45 | an absent parameter yields the default date |
| Helpers.GetDateParamMissing | scuttlebutt/helpers.py:39-47 | an absent parameter with no default fails on the text `'None'` |
| Helpers.FirstNumber | scuttlebutt/helpers.py:53-55 | `re.search('(\d+)')` finds a number exactly when the text holds a digit |
| Helpers.GetIntParam | scuttlebutt/helpers.py:50-61 | it fails only without a default; a parameter holding a digit yields its first digit run |
| Helpers.GetIntParamFirstRun | scuttlebutt/helpers.py:52-55 | signs and text around the first maximal digit run are ignored |
| Helpers.GetIntParamMinusOne | scuttlebutt/helpers.py:52-55 | an absent `offset` with default -1 reads as 1 |
| Helpers.GetIntParamNegativeDefault | scuttlebutt/helpers.py:52-58 | an absent parameter with a negative default reads as the default's magnitude; the corrected reader returns the default |
| Helpers.GetIntParamIntended | scuttlebutt/helpers.py:56-61 | an absent parameter reads as the default, and fails when there is none |
| Helpers.GetIntParamAgrees | scuttlebutt/helpers.py:50-61 | for non-negative or absent defaults the code and the corrected reader agree |
| TopicStats.MondayOf | scuttlebutt/scuttlebutt_service.py:161-165 | the Monday midnight that starts the week holding the instant |
| TopicStats.PeriodStart | scuttlebutt/scuttlebutt_service.py:226-228 | the start of the period holding the instant, aligned to the period length |
| TopicStats.PeriodStartIs | scuttlebutt/scuttlebutt_service.py:161-165 | an aligned instant is an instant's period start exactly when the instant lies in its period |
| TopicStats.Before1900 | scuttlebutt/scuttlebutt_service.py:153-155 | an instant precedes 1900-01-01 exactly when its year is below 1900, where `strftime` raises |
| TopicStats.PeriodEnd | scuttlebutt/scuttlebutt_service.py:157-159 | a period ends one second before the next one starts |
| TopicStats.AddArticle | scuttlebutt/scuttlebutt_service.py:137-155 | the article's period count goes up by one and no other count changes; the oldest period is kept up to date; labelling a new period before 1900 or past the end of time fails |
| TopicStats.AddAll | scuttlebutt/scuttlebutt_service.py:104-105 | tallying the articles in turn fails only on a label before 1900 or past the end of time |
| TopicStats.AddAllSucceeds | scuttlebutt/scuttlebutt_service.py:201-219 | tallying fails exactly when some article opens a period that cannot be labelled |
| TopicStats.AddAllCounts | scuttlebutt/scuttlebutt_service.py:149-152 | each period's count is the number of articles whose period it is |
| TopicStats.AddAllOldest | scuttlebutt/scuttlebutt_service.py:146-148 | the oldest period is the least period of the articles tallied |
| TopicStats.AddAllConsistent | scuttlebutt/scuttlebutt_service.py:137-155 | the tally keeps its keys aligned and labelled and its oldest key least |
| TopicStats.Walk | scuttlebutt/scuttlebutt_service.py:176-188 | the walk starts at the oldest period, every period it visits ends inside the calendar, and a failure is a label before 1900 or an overflow |
| TopicStats.WalkShape | scuttlebutt/scuttlebutt_service.py:176-188 | the walk steps one period at a time, stops at the first period past `now`, and visits no later period |
| TopicStats.WalkSucceeds | scuttlebutt/scuttlebutt_service.py:176-188 | from a labelled aligned start the walk succeeds when the period holding `now` can be labelled |
| TopicStats.Periods | scuttlebutt/scuttlebutt_service.py:176-177 | with no article the report fails; otherwise it has at least one period |
| TopicStats.ToDict | scuttlebutt/scuttlebutt_service.py:167-190 | with no article the report fails; otherwise it renders one period per step, newest first, from the oldest tallied period to the one holding `now`, each one period long, consecutive ones one period apart, each counting the tally's articles of that period |
| TopicStats.PeriodsSpans | scuttlebutt/scuttlebutt_service.py:176-189 | the walked periods start at the oldest tallied period, leave no gap, end with the period holding `now`, and carry the tally's counts |
| TopicStats.SpansUnique | scuttlebutt/scuttlebutt_service.py:167-175 | the oldest period and `now` fix the periods of a report: two gap-free period lists between them are the same |
| TopicStats.Buckets | scuttlebutt/scuttlebutt_service.py:100-106 | with no article there is no report; a failure is never an unknown topic |
| TopicStats.Aggregate | scuttlebutt/scuttlebutt_service.py:118-124 | a report renders, newest first, the gap-free periods from the oldest article's period to the one holding `now`, each counting the articles inside it |
| TopicStats.BucketsReport | scuttlebutt/scuttlebutt_service.py:100-106 | the reported periods run gap-free from the least period of any article to the one holding `now` and count the articles inside each |
| TopicStats.AggregateSucceeds | scuttlebutt/scuttlebutt_service.py:137-190 | a report exists exactly when there are articles, each period can be labelled, and the walk up to `now` stays within the calendar |
| TopicStats.BucketsArePeriods | scuttlebutt/scuttlebutt_service.py:176-188 | every reported period is aligned, spans one period length and counts the articles inside it |
| TopicStats.BucketsContiguous | scuttlebutt/scuttlebutt_service.py:176-188 | consecutive reported periods leave no gap |
| TopicStats.BucketsSpan | scuttlebutt/scuttlebutt_service.py:176-188 | the report runs from the oldest article's period to the period holding `now` |
| TopicStats.BucketsTotal | scuttlebutt/scuttlebutt_service.py:176-188 | when no article is later than `now` the counts add up to the number of articles |
| TopicStats.BucketsDescending | scuttlebutt/scuttlebutt_service.py:189 | the periods are reported newest first |
| TopicStats.NewestFirstOrder | scuttlebutt/scuttlebutt_service.py:254 | the reported `to` strings are strictly descending in string order, as the sort on `to` leaves them |
| TopicStats.AggregateLabels | scuttlebutt/scuttlebutt_service.py:216-219 | every reported `from`/`to` text parses back to its period's first and last second |
| TopicStats.RenderParses | scuttlebutt/scuttlebutt_service.py:152-155 | a period's labels parse back to its bounds |
| TopicStats.GetTopicStats | scuttlebutt/scuttlebutt_service.py:90-124 | an unknown topic fails; otherwise the report aggregates exactly the topic's articles |
| TopicStats.DailyTwoDays | scuttlebutt/scuttlebutt_service.py:201-255 | two articles on each of 2011-12-01 and 2011-12-02 give two daily periods of two, newest first |

## Left out

- Feed fetching and parsing (`feedparser`, `urlfetch`) are replaced by a parameter. It holds the parsed entries, or marks a feed whose fetch raised.
- The second fetch attempt's status-code branch is not modelled separately. A non-200 response yields no entries, like an empty feed.
- `mktime`/`fromtimestamp` and time zones are left out. An entry's update time is already an instant.
- Microseconds are dropped everywhere. Every time is whole seconds.
- Logging is left out.
- App Engine's task queue is reduced to the sequence of feed keys handed to it.
- The HTTP handlers are left out.
- The datastore is a strongly consistent sequence. Eventual consistency and index lag are left out.
- `Query.count()` is taken to be uncapped.
- DateText.StringToDatetime: `strptime` leniency is left out. Only the zero-padded `YYYY-MM-DDTHH:MM:SS` form is accepted. So the model rejects texts that `strptime` accepts: unpadded fields such as `2011-1-5T1:2:3`, a lower-case `t` separator (`strptime` matches the pattern case-insensitively), and a space-padded field such as the day in `2011-01- 5T01:02:03`.
- RssService.Upper: upper-cases ASCII letters only, not the rest of Unicode.
- RssService.WeekOnWeekChange: the float ratio is an exact real; float rounding is left out.
- ArticleQuery.GetArticlesStable: ties in readership keep the store sequence's order. The datastore returns the `GetArticles` query, which has inequality filters on `updated`, in `updated` order; that order is not modelled.
- Helpers.StringToInt: ASCII digits and C-locale white space only. Python 2's `int()` on unicode text also accepts other decimal digits and Unicode white space.
- Helpers.GetStringParam: a request is a map, and a parameter it lacks reads as `None`. webapp's `request.get` returns `''` for a missing parameter instead; under that behaviour the `str(default)` path is never taken.
- The three-article ranking scenario is stated on the article views rather than on stored articles. The `isoformat` text of three stored articles is too costly for the verifier.

## Findings

| source | as written | input that shows it | evidently intended | confidence | as-written member | corrected member |
|---|---|---|---|---|---|---|
| scuttlebutt/helpers.py:50-61 | an absent parameter is read from `str(default)` with `\d+`, so a negative default loses its sign | `GetIntParam` of a request without `offset`, default -1, returns 1 | an absent parameter yields the default itself, -1 | not executed; assumes `request.get` returns `None` for an absent parameter, as the helper's `is not None` test expects | Helpers.GetIntParamMinusOne | Helpers.GetIntParamIntended |

=== FILE: article_query.dfy ===
/** `ScuttlebuttService.GetArticles`: the articles of a topic inside an
    inclusive date window, ranked by readership (most readers first, ties
    in query order), then paged with Python slice semantics. */
module ArticleQuery {
  import opened Wrappers
  import opened Calendar
  import opened Model

  datatype QueryError = TopicNotFound(id: Key)

  // ---------------------------------------------------------------- ranking

  /** Python 2 order on optional integers: None sorts below every int. */
  predicate ReadershipLe(a: Option<int>, b: Option<int>) {
    a.None? || (b.Some? && a.value <= b.value)
  }

  /** Non-increasing by readership. */
  predicate RankedDown(s: seq<ArticleView>) {
    forall i, j :: 0 <= i < j < |s| ==> ReadershipLe(s[j].readership, s[i].readership)
  }

  /** The views whose readership is `v`, in order. */
  function WithReadership(s: seq<ArticleView>, v: Option<int>): (r: seq<ArticleView>)
    ensures forall x :: x in r <==> x in s && x.readership == v
  {
    if |s| == 0 then []
    else
      var head := if s[0].readership == v then [s[0]] else [];
      head + WithReadership(s[1..], v)
  }

  lemma ReadershipLeTotal(a: Option<int>, b: Option<int>, c: Option<int>)
    ensures ReadershipLe(a, b) || ReadershipLe(b, a)
    ensures ReadershipLe(a, b) && ReadershipLe(b, c) ==> ReadershipLe(a, c)
  {
  }

  /** Places `x` before the first view whose readership is not above its own. */
  function Insert(x: ArticleView, s: seq<ArticleView>): (r: seq<ArticleView>)
    ensures multiset(r) == multiset(s) + multiset{x}
    ensures |r| == |s| + 1
  {
    if |s| == 0 then [x]
    else if ReadershipLe(s[0].readership, x.readership) then [x] + s
    else
      assert s == [s[0]] + s[1..];
      [s[0]] + Insert(x, s[1..])
  }

  lemma {:induction false} InsertRanked(x: ArticleView, s: seq<ArticleView>)
    requires RankedDown(s)
    ensures RankedDown(Insert(x, s))
  {
    if |s| == 0 {
    } else if ReadershipLe(s[0].readership, x.readership) {
      var r := [x] + s;
      forall i, j | 0 <= i < j < |r| ensures ReadershipLe(r[j].readership, r[i].readership) {
        if i == 0 {
          ReadershipLeTotal(r[j].readership, s[0].readership, x.readership);
        } else {
          assert r[i] == s[i - 1] && r[j] == s[j - 1];
        }
      }
    } else {
      var rest := Insert(x, s[1..]);
      InsertRanked(x, s[1..]);
      var r := [s[0]] + rest;
      forall i, j | 0 <= i < j < |r| ensures ReadershipLe(r[j].readership, r[i].readership) {
        if i == 0 {
          assert r[j] in multiset(rest);
          if r[j] == x {
            ReadershipLeTotal(x.readership, s[0].readership, x.readership);
          } else {
            assert r[j] in multiset(s[1..]);
            var k :| 0 <= k < |s[1..]| && s[1..][k] == r[j];
            assert s[k + 1] == r[j];
          }
        } else {
          assert r[i] == rest[i - 1] && r[j] == rest[j - 1];
        }
      }
    }
  }

  /** `sorted(views, key=readership, reverse=True)`. */
  function RankByReadership(s: seq<ArticleView>): (r: seq<ArticleView>)
    ensures multiset(r) == multiset(s)
    ensures RankedDown(r)
  {
    if |s| == 0 then []
    else
      assert s == [s[0]] + s[1..];
      InsertRanked(s[0], RankByReadership(s[1..]));
      Insert(s[0], RankByReadership(s[1..]))
  }

  lemma WithReadershipCons(x: ArticleView, s: seq<ArticleView>, v: Option<int>)
    ensures WithReadership([x] + s, v) == (if x.readership == v then [x] else []) + WithReadership(s, v)
  {
    assert ([x] + s)[1..] == s;
  }

  lemma {:induction false} WithReadershipInsert(x: ArticleView, s: seq<ArticleView>, v: Option<int>)
    ensures WithReadership(Insert(x, s), v) ==
      (if x.readership == v then [x] else []) + WithReadership(s, v)
  {
    if |s| == 0 {
      WithReadershipCons(x, [], v);
    } else if ReadershipLe(s[0].readership, x.readership) {
      WithReadershipCons(x, s, v);
    } else {
      var rest := Insert(x, s[1..]);
      assert Insert(x, s) == [s[0]] + rest;
      WithReadershipInsert(x, s[1..], v);
      WithReadershipCons(s[0], rest, v);
      WithReadershipCons(s[0], s[1..], v);
      assert s == [s[0]] + s[1..];
      assert x.readership == v ==> s[0].readership != v;
    }
  }

  /** The sort is stable: views with equal readership keep their order. */
  lemma {:induction false} RankByReadershipStable(s: seq<ArticleView>, v: Option<int>)
    ensures WithReadership(RankByReadership(s), v) == WithReadership(s, v)
  {
    if |s| > 0 {
      RankByReadershipStable(s[1..], v);
      WithReadershipInsert(s[0], RankByReadership(s[1..]), v);
    }
  }

  // ----------------------------------------------------------------- paging

  /** Python truthiness of an optional int argument: present and non-zero. */
  predicate Truthy(x: Option<int>) {
    x.Some? && x.value != 0
  }

  /** A Python slice bound resolved against length `n`. */
  function SliceBound(i: int, n: nat): (b: nat)
    ensures b <= n
    ensures 0 <= i ==> b == if i < n then i else n
  {
    if i < 0 then (if i + n < 0 then 0 else i + n)
    else if i > n then n else i
  }

  /** `s[lo:hi]` in Python. */
  function Slice<T>(s: seq<T>, lo: int, hi: int): (r: seq<T>)
    ensures |r| <= |s|
    ensures forall i :: 0 <= i < |r| ==> SliceBound(lo, |s|) + i < |s| && r[i] == s[SliceBound(lo, |s|) + i]
  {
    var a := SliceBound(lo, |s|);
    var b := SliceBound(hi, |s|);
    if a < b then s[a..b] else []
  }

  lemma SliceWithin<T>(s: seq<T>, lo: int, hi: int)
    ensures forall x :: x in Slice(s, lo, hi) ==> x in s
  {
    var r := Slice(s, lo, hi);
    forall x | x in r ensures x in s {
      var i :| 0 <= i < |r| && r[i] == x;
      assert s[SliceBound(lo, |s|) + i] == x;
    }
  }

  /** The offset/limit step: no offset or offset 0 starts at the top; no
      limit or limit 0 means no cap. */
  function Page<T>(s: seq<T>, offset: Option<int>, limit: Option<int>): (r: seq<T>)
    ensures |r| <= |s|
    ensures forall x :: x in r ==> x in s
    ensures var off := if Truthy(offset) then offset.value else 0;
      0 <= off ==> forall i :: 0 <= i < |r| ==> off + i < |s| && r[i] == s[off + i]
    ensures Truthy(limit) && limit.value > 0 && (offset.None? || offset.value >= 0) ==> |r| <= limit.value
    ensures var off := if Truthy(offset) then offset.value else 0;
      Truthy(limit) && limit.value > 0 && off >= 0 ==>
        |r| == if off >= |s| then 0 else if limit.value < |s| - off then limit.value else |s| - off
    ensures !Truthy(limit) && (offset.None? || offset.value >= 0) ==>
      |r| == if Truthy(offset) && offset.value < |s| then |s| - offset.value
             else if Truthy(offset) then 0 else |s|
  {
    var off := if Truthy(offset) then offset.value else 0;
    var lim := if Truthy(limit) then off + limit.value else |s|;
    SliceWithin(s, off, lim);
    Slice(s, off, lim)
  }

  /** `offset=k, limit=1` picks the element at index `k`. */
  lemma PageNth<T>(s: seq<T>, k: nat)
    requires k < |s|
    ensures Page(s, Some(k), Some(1)) == [s[k]]
  {
    var page := Page(s, Some(k), Some(1));
    assert |page| == 1 && page[0] == s[k];
  }

  // ------------------------------------------------------------------ query

  function Views(s: seq<Article>): (r: seq<ArticleView>)
    ensures |r| == |s| && forall i :: 0 <= i < |s| ==> r[i] == ArticleToDict(s[i])
  {
    if |s| == 0 then [] else [ArticleToDict(s[0])] + Views(s[1..])
  }

  /** The window bounds: an absent minimum means the earliest instant, an
      absent maximum the latest. */
  function Lower(minDate: Option<Instant>): Instant {
    if minDate.Some? then minDate.value else 0
  }

  function Upper(maxDate: Option<Instant>): Instant {
    if maxDate.Some? then maxDate.value else MaxInstant
  }

  /** The ranked views of every article tagged with the topic and updated
      inside the inclusive window, before paging. */
  function Ranked(store: seq<Article>, id: Key, minDate: Option<Instant>, maxDate: Option<Instant>)
    : (r: seq<ArticleView>)
    ensures RankedDown(r)
    ensures multiset(r) == multiset(Views(SelectInWindow(store, id, Lower(minDate), Upper(maxDate))))
  {
    RankByReadership(Views(SelectInWindow(store, id, Lower(minDate), Upper(maxDate))))
  }

  lemma ViewsFrom(sel: seq<Article>, v: ArticleView)
    requires v in Views(sel)
    ensures exists a :: a in sel && v == ArticleToDict(a)
  {
    var i :| 0 <= i < |sel| && Views(sel)[i] == v;
    assert sel[i] in sel;
  }

  /** A page of a ranked list is ranked. */
  lemma PageRanked(s: seq<ArticleView>, offset: Option<int>, limit: Option<int>)
    requires RankedDown(s)
    ensures RankedDown(Page(s, offset, limit))
  {
    var page := Page(s, offset, limit);
    var off := if Truthy(offset) then offset.value else 0;
    var b := SliceBound(off, |s|);
    forall i, j | 0 <= i < j < |page| ensures ReadershipLe(page[j].readership, page[i].readership) {
      assert page[i] == s[b + i] && page[j] == s[b + j];
    }
  }

  /** Every view drawn from the window's views is the view of an article
      in the window. */
  lemma RankedFromWindow(store: seq<Article>, id: Key, lo: int, hi: int, page: seq<ArticleView>)
    requires forall v :: v in page ==> v in multiset(Views(SelectInWindow(store, id, lo, hi)))
    ensures forall v :: v in page ==>
      exists a :: a in store && InWindow(a, id, lo, hi) && v == ArticleToDict(a)
  {
    var sel := SelectInWindow(store, id, lo, hi);
    forall v | v in page
      ensures exists a :: a in store && InWindow(a, id, lo, hi) && v == ArticleToDict(a)
    {
      assert v in Views(sel);
      ViewsFrom(sel, v);
    }
  }

  /** A page of the ranked window is ranked and holds only views of
      articles in the window. */
  lemma PageOfWindow(store: seq<Article>, id: Key, minDate: Option<Instant>, maxDate: Option<Instant>,
                     limit: Option<int>, offset: Option<int>)
    ensures var page := Page(Ranked(store, id, minDate, maxDate), offset, limit);
      && RankedDown(page)
      && forall v :: v in page ==>
           exists a :: a in store && InWindow(a, id, Lower(minDate), Upper(maxDate)) && v == ArticleToDict(a)
  {
    var ranked := Ranked(store, id, minDate, maxDate);
    var page := Page(ranked, offset, limit);
    assert forall v :: v in page ==> v in multiset(ranked);
    PageRanked(ranked, offset, limit);
    RankedFromWindow(store, id, Lower(minDate), Upper(maxDate), page);
  }

  /** `GetArticles`: an unknown topic id fails (the source dereferences the
      missing topic); otherwise one page of the ranked views. */
  function GetArticles(topics: seq<Topic>, store: seq<Article>, id: Key,
                       minDate: Option<Instant>, maxDate: Option<Instant>,
                       limit: Option<int>, offset: Option<int>)
    : (r: Result<seq<ArticleView>, QueryError>)
    ensures r.Failure? <==> forall t :: t in topics ==> t.key != id
    ensures r.Failure? ==> r.error == TopicNotFound(id)
    ensures r.Success? ==> RankedDown(r.value)
    ensures r.Success? ==> forall v :: v in r.value ==>
      exists a :: a in store && InWindow(a, id, Lower(minDate), Upper(maxDate)) && v == ArticleToDict(a)
  {
    match TopicById(topics, id)
    case None => Failure(TopicNotFound(id))
    case Some(_) =>
      PageOfWindow(store, id, minDate, maxDate, limit, offset);
      Success(Page(Ranked(store, id, minDate, maxDate), offset, limit))
  }

  /** Without paging, the answer holds every matching article's view
      exactly as often as the window selects it. */
  lemma GetArticlesComplete(topics: seq<Topic>, store: seq<Article>, id: Key,
                            minDate: Option<Instant>, maxDate: Option<Instant>)
    requires exists t :: t in topics && t.key == id
    ensures var r := GetArticles(topics, store, id, minDate, maxDate, None, None);
      r.Success? && multiset(r.value) == multiset(Views(SelectInWindow(store, id, Lower(minDate), Upper(maxDate))))
  {
    assert TopicById(topics, id).Some?;
    var ranked := Ranked(store, id, minDate, maxDate);
    assert Page(ranked, None, None) == ranked;
  }

  /** A paged answer is the page of the unpaged answer: `ranked[offset:offset + limit]`. */
  lemma GetArticlesPaged(topics: seq<Topic>, store: seq<Article>, id: Key,
                         minDate: Option<Instant>, maxDate: Option<Instant>,
                         limit: Option<int>, offset: Option<int>)
    requires exists t :: t in topics && t.key == id
    ensures var all := GetArticles(topics, store, id, minDate, maxDate, None, None);
      all.Success? && GetArticles(topics, store, id, minDate, maxDate, limit, offset) == Success(Page(all.value, offset, limit))
  {
    assert TopicById(topics, id).Some?;
    var ranked := Ranked(store, id, minDate, maxDate);
    assert Page(ranked, None, None) == ranked;
  }

  /** `offset=k, limit=1` returns exactly the element at index `k` of the
      unpaged answer. */
  lemma GetArticlesNth(topics: seq<Topic>, store: seq<Article>, id: Key,
                       minDate: Option<Instant>, maxDate: Option<Instant>, k: nat)
    requires exists t :: t in topics && t.key == id
    requires k < |GetArticles(topics, store, id, minDate, maxDate, None, None).value|
    ensures var all := GetArticles(topics, store, id, minDate, maxDate, None, None).value;
      GetArticles(topics, store, id, minDate, maxDate, Some(1), Some(k)) == Success([all[k]])
  {
    GetArticlesPaged(topics, store, id, minDate, maxDate, Some(1), Some(k));
    PageNth(GetArticles(topics, store, id, minDate, maxDate, None, None).value, k);
  }

  /** Among articles with the same readership, the answer keeps query order. */
  lemma GetArticlesStable(topics: seq<Topic>, store: seq<Article>, id: Key,
                          minDate: Option<Instant>, maxDate: Option<Instant>, v: Option<int>)
    requires exists t :: t in topics && t.key == id
    ensures var r := GetArticles(topics, store, id, minDate, maxDate, None, None);
      r.Success? && WithReadership(r.value, v)
        == WithReadership(Views(SelectInWindow(store, id, Lower(minDate), Upper(maxDate))), v)
  {
    assert TopicById(topics, id).Some?;
    var ranked := Ranked(store, id, minDate, maxDate);
    assert Page(ranked, None, None) == ranked;
    RankByReadershipStable(Views(SelectInWindow(store, id, Lower(minDate), Upper(maxDate))), v);
  }

  lemma RankThree(va: ArticleView, vb: ArticleView, vc: ArticleView)
    requires va.readership == Some(1200) && vb.readership == Some(12000)
    requires vc.readership == Some(45000)
    ensures RankByReadership([va, vb, vc]) == [vc, vb, va]
  {
    assert [va, vb, vc][1..] == [vb, vc] && [vb, vc][1..] == [vc] && [vc][1..] == [];
    assert RankByReadership([vc]) == [vc];
    assert Insert(vb, [vc]) == [vc, vb] by {
      assert [vc][1..] == [];
    }
    assert Insert(va, [vb]) == [vb, va];
    assert [vc, vb][1..] == [vb];
    assert Insert(va, [vc, vb]) == [vc, vb, va];
  }

  lemma SecondOfThree<T>(x: T, y: T, z: T)
    ensures Page([x, y, z], Some(1), Some(1)) == [y]
  {
    assert Slice([x, y, z], 1, 2) == [x, y, z][1..2];
  }

  /** Three views with readership 1200, 12000 and 45000: one view at
      offset one of the ranking is the 12000 one. */
  lemma SecondMostRead(va: ArticleView, vb: ArticleView, vc: ArticleView)
    requires va.readership == Some(1200) && vb.readership == Some(12000)
    requires vc.readership == Some(45000)
    ensures Page(RankByReadership([va, vb, vc]), Some(1), Some(1)) == [vb]
  {
    RankThree(va, vb, vc);
    SecondOfThree(vc, vb, va);
  }
}

=== FILE: calendar.dfy ===
/** The proleptic Gregorian calendar of Python's `datetime` module, at
    whole-second precision. Days are numbered by Python's ordinal
    (`date(1, 1, 1).toordinal() == 1`); a point in time is an `Instant`,
    the number of seconds since `datetime.min` (0001-01-01T00:00:00). */
module Calendar {

  const SecondsPerDay: int := 86400
  const SecondsPerWeek: int := 7 * 86400
  const MinYear: int := 1
  const MaxYear: int := 9999
  /** The ordinal of 9999-12-31, the last day a `datetime` can hold. */
  const MaxOrdinal: int := 3652059
  /** 9999-12-31T23:59:59, `datetime.max` without its microseconds. */
  const MaxInstant: int := MaxOrdinal * SecondsPerDay - 1

  type Instant = t: int | 0 <= t <= MaxInstant

  datatype Date = Date(year: int, month: int, day: int)

  datatype DateTime = DateTime(date: Date, hour: int, minute: int, second: int)

  predicate IsLeapYear(y: int) {
    y % 4 == 0 && (y % 100 != 0 || y % 400 == 0)
  }

  function DaysInYear(y: int): int {
    if IsLeapYear(y) then 366 else 365
  }

  function DaysInMonth(y: int, m: int): int
    requires 1 <= m <= 12
  {
    if m == 2 then (if IsLeapYear(y) then 29 else 28)
    else if m == 4 || m == 6 || m == 9 || m == 11 then 30
    else 31
  }

  /** Days of year `y` before the first day of month `m`; month 13 stands
      for the end of the year. */
  function DaysBeforeMonth(y: int, m: int): int
    requires 1 <= m <= 13
  {
    [0, 31, 59, 90, 120, 151, 181, 212, 243, 273, 304, 334, 365][m - 1]
      + (if m > 2 && IsLeapYear(y) then 1 else 0)
  }

  /** Days before January 1st of year `y`, counted from 0001-01-01. */
  function DaysBeforeYear(y: int): int
    requires y >= 1
  {
    var p := y - 1;
    p * 365 + p / 4 - p / 100 + p / 400
  }

  predicate ValidDate(d: Date) {
    && MinYear <= d.year <= MaxYear
    && 1 <= d.month <= 12
    && 1 <= d.day <= DaysInMonth(d.year, d.month)
  }

  predicate ValidDateTime(dt: DateTime) {
    && ValidDate(dt.date)
    && 0 <= dt.hour < 24
    && 0 <= dt.minute < 60
    && 0 <= dt.second < 60
  }

  lemma DaysBeforeMonthStep(y: int, m: int)
    requires 1 <= m <= 12
    ensures DaysBeforeMonth(y, m + 1) == DaysBeforeMonth(y, m) + DaysInMonth(y, m)
  {
  }

  lemma DaysBeforeMonthEnd(y: int)
    ensures DaysBeforeMonth(y, 13) == DaysInYear(y)
  {
  }

  lemma {:induction false} DaysBeforeMonthMonotone(y: int, m: int, n: int)
    requires 1 <= m < n <= 13
    ensures DaysBeforeMonth(y, m) + DaysInMonth(y, m) <= DaysBeforeMonth(y, n)
    decreases n - m
  {
    DaysBeforeMonthStep(y, m);
    if m + 1 < n {
      DaysBeforeMonthStep(y, m + 1);
      DaysBeforeMonthMonotone(y, m + 1, n);
    }
  }

  lemma DaysBeforeYearStep(y: int)
    requires y >= 1
    ensures DaysBeforeYear(y + 1) == DaysBeforeYear(y) + DaysInYear(y)
  {
    var p := y - 1;
    assert y / 4 == p / 4 + (if y % 4 == 0 then 1 else 0);
    assert y / 100 == p / 100 + (if y % 100 == 0 then 1 else 0);
    assert y / 400 == p / 400 + (if y % 400 == 0 then 1 else 0);
  }

  lemma {:induction false} DaysBeforeYearMonotone(a: int, b: int)
    requires 1 <= a < b
    ensures DaysBeforeYear(a) + DaysInYear(a) <= DaysBeforeYear(b)
    decreases b - a
  {
    DaysBeforeYearStep(a);
    if a + 1 < b {
      DaysBeforeYearMonotone(a + 1, b);
    }
  }

  lemma LastDayOrdinal()
    ensures DaysBeforeYear(MaxYear + 1) == MaxOrdinal
  {
  }

  /** Python's `date.toordinal()`. */
  function Ordinal(d: Date): (n: int)
    requires ValidDate(d)
    ensures 1 <= n <= MaxOrdinal
  {
    DaysBeforeMonthMonotone(d.year, d.month, 13);
    DaysBeforeMonthEnd(d.year);
    DaysBeforeYearStep(d.year);
    assert DaysBeforeYear(d.year + 1) <= MaxOrdinal by {
      LastDayOrdinal();
      if d.year < MaxYear {
        DaysBeforeYearMonotone(d.year + 1, MaxYear + 1);
      }
    }
    DaysBeforeYear(d.year) + DaysBeforeMonth(d.year, d.month) + d.day
  }

  /** The year holding day `n`, searched upwards from year `y`. */
  function YearContaining(y: int, n: int): (r: int)
    requires 1 <= y && DaysBeforeYear(y) < n
    ensures y <= r && DaysBeforeYear(r) < n <= DaysBeforeYear(r + 1)
    decreases n - DaysBeforeYear(y)
  {
    DaysBeforeYearStep(y);
    if n <= DaysBeforeYear(y + 1) then y else YearContaining(y + 1, n)
  }

  /** The month of year `y` holding its `k`-th day, searched upwards from `m`. */
  function MonthContaining(y: int, m: int, k: int): (r: int)
    requires 1 <= m <= 12 && DaysBeforeMonth(y, m) < k <= DaysInYear(y)
    ensures m <= r <= 12 && DaysBeforeMonth(y, r) < k <= DaysBeforeMonth(y, r + 1)
    decreases 12 - m
  {
    DaysBeforeMonthEnd(y);
    if k <= DaysBeforeMonth(y, m + 1) then m else MonthContaining(y, m + 1, k)
  }

  /** Python's `date.fromordinal(n)`: the date whose ordinal is `n`. */
  function FromOrdinal(n: int): (d: Date)
    requires 1 <= n <= MaxOrdinal
    ensures ValidDate(d) && Ordinal(d) == n
  {
    assert DaysBeforeYear(1) == 0;
    var y := YearContaining(1, n);
    assert y <= MaxYear by {
      LastDayOrdinal();
      if y > MaxYear {
        DaysBeforeYearMonotone(MaxYear + 1, y);
      }
    }
    DaysBeforeYearStep(y);
    var k := n - DaysBeforeYear(y);
    var m := MonthContaining(y, 1, k);
    DaysBeforeMonthStep(y, m);
    Date(y, m, k - DaysBeforeMonth(y, m))
  }

  /** Lexicographic order on (year, month, day). */
  predicate DateBefore(a: Date, b: Date) {
    || a.year < b.year
    || (a.year == b.year && a.month < b.month)
    || (a.year == b.year && a.month == b.month && a.day < b.day)
  }

  /** Lexicographic order on (date, hour, minute, second). */
  predicate DateTimeBefore(a: DateTime, b: DateTime) {
    || DateBefore(a.date, b.date)
    || (a.date == b.date && a.hour < b.hour)
    || (a.date == b.date && a.hour == b.hour && a.minute < b.minute)
    || (a.date == b.date && a.hour == b.hour && a.minute == b.minute && a.second < b.second)
  }

  /** Later calendar dates have larger ordinals. */
  lemma OrdinalMonotone(a: Date, b: Date)
    requires ValidDate(a) && ValidDate(b) && DateBefore(a, b)
    ensures Ordinal(a) < Ordinal(b)
  {
    DaysBeforeMonthMonotone(a.year, a.month, 13);
    DaysBeforeMonthEnd(a.year);
    if a.year < b.year {
      DaysBeforeYearMonotone(a.year, b.year);
    } else if a.month < b.month {
      DaysBeforeMonthMonotone(a.year, a.month, b.month);
    }
  }

  lemma FromOrdinalOrdinal(d: Date)
    requires ValidDate(d)
    ensures FromOrdinal(Ordinal(d)) == d
  {
    var e := FromOrdinal(Ordinal(d));
    if DateBefore(e, d) {
      OrdinalMonotone(e, d);
    } else if DateBefore(d, e) {
      OrdinalMonotone(d, e);
    }
  }

  /** The instant a valid date and time of day denote. */
  function ToInstant(dt: DateTime): Instant
    requires ValidDateTime(dt)
  {
    (Ordinal(dt.date) - 1) * SecondsPerDay + dt.hour * 3600 + dt.minute * 60 + dt.second
  }

  /** The calendar fields of an instant: `FromInstant` inverts `ToInstant`. */
  function FromInstant(t: Instant): (dt: DateTime)
    ensures ValidDateTime(dt) && ToInstant(dt) == t
  {
    var (days, secs) := DaysAndSeconds(t);
    var (h, m, sec) := ClockFields(secs);
    DateTime(FromOrdinal(days + 1), h, m, sec)
  }

  /** Whole days since `datetime.min`, and seconds into the last day. */
  function DaysAndSeconds(t: Instant): (r: (int, int))
    ensures 0 <= r.0 < MaxOrdinal && 0 <= r.1 < SecondsPerDay
    ensures t == r.0 * SecondsPerDay + r.1
  {
    (t / SecondsPerDay, t % SecondsPerDay)
  }

  /** Hours, minutes and seconds of a time of day given in seconds. */
  function ClockFields(secs: int): (r: (int, int, int))
    requires 0 <= secs < SecondsPerDay
    ensures 0 <= r.0 < 24 && 0 <= r.1 < 60 && 0 <= r.2 < 60
    ensures secs == r.0 * 3600 + r.1 * 60 + r.2
  {
    var h := secs / 3600;
    var rest := secs % 3600;
    (h, rest / 60, rest % 60)
  }

  /** Distinct valid date-times are distinct instants, ordered alike. */
  lemma ToInstantMonotone(a: DateTime, b: DateTime)
    requires ValidDateTime(a) && ValidDateTime(b) && DateTimeBefore(a, b)
    ensures ToInstant(a) < ToInstant(b)
  {
    if DateBefore(a.date, b.date) {
      OrdinalMonotone(a.date, b.date);
    }
  }

  lemma FromInstantToInstant(dt: DateTime)
    requires ValidDateTime(dt)
    ensures FromInstant(ToInstant(dt)) == dt
  {
    var e := FromInstant(ToInstant(dt));
    if DateTimeBefore(e, dt) {
      ToInstantMonotone(e, dt);
    } else if DateTimeBefore(dt, e) {
      ToInstantMonotone(dt, e);
    } else {
      assert e.date == dt.date;
    }
  }

  /** Instant order is the lexicographic order of the calendar fields. */
  lemma InstantOrderIsFieldOrder(a: Instant, b: Instant)
    ensures a < b <==> DateTimeBefore(FromInstant(a), FromInstant(b))
  {
    var x, y := FromInstant(a), FromInstant(b);
    if DateTimeBefore(x, y) {
      ToInstantMonotone(x, y);
    }
    if DateTimeBefore(y, x) {
      ToInstantMonotone(y, x);
    }
  }

  /** Python's `weekday()`: 0 for Monday through 6 for Sunday. */
  function Weekday(t: Instant): int {
    (t / SecondsPerDay + 1 + 6) % 7
  }

  /** Midnight starting the day of `t`. */
  function StartOfDay(t: Instant): (r: Instant)
    ensures r <= t < r + SecondsPerDay && r % SecondsPerDay == 0
  {
    t - t % SecondsPerDay
  }
}

=== FILE: date_text.dfy ===
/** The `%Y-%m-%dT%H:%M:%S` text form of instants: `strftime` and
    `isoformat` on whole-second datetimes, `strptime` on zero-padded input,
    and the fact that the text order is the chronological order. */
module DateText {
  import opened Wrappers
  import opened Text
  import opened Calendar

  /** `str(date)` / `date.isoformat()`: `YYYY-MM-DD`. */
  function FormatDate(d: Date): (s: string)
    requires ValidDate(d)
    ensures |s| == 10
  {
    YearMonthText(d) + "-" + Pad(d.day, 2)
  }

  function FormatDateTime(dt: DateTime): (s: string)
    requires ValidDateTime(dt)
    ensures |s| == 19
  {
    MinuteText(dt) + ":" + Pad(dt.second, 2)
  }

  /** `YYYY-MM`, the first two fields of a formatted date. */
  function YearMonthText(d: Date): (s: string)
    requires ValidDate(d)
    ensures |s| == 7
  {
    Pad(d.year, 4) + "-" + Pad(d.month, 2)
  }

  /** `YYYY-MM-DDTHH`, the first four fields of a formatted date-time. */
  function HourText(dt: DateTime): (s: string)
    requires ValidDateTime(dt)
    ensures |s| == 13
  {
    FormatDate(dt.date) + "T" + Pad(dt.hour, 2)
  }

  /** `YYYY-MM-DDTHH:MM`, the first five fields of a formatted date-time. */
  function MinuteText(dt: DateTime): (s: string)
    requires ValidDateTime(dt)
    ensures |s| == 16
  {
    HourText(dt) + ":" + Pad(dt.minute, 2)
  }

  /** `t.strftime('%Y-%m-%dT%H:%M:%S')`, which for a whole-second datetime is
      also `t.isoformat()`. */
  function Format(t: Instant): (s: string)
    ensures |s| == 19
  {
    FormatDateTime(FromInstant(t))
  }

  /** Reads `YYYY-MM-DD` at the start of `s`; None when a field is not
      digits, a separator is wrong, or the date does not exist. */
  function ParseDate(s: string): Option<Date>
    requires |s| >= 10
  {
    if AllDigits(s[0..4]) && s[4] == '-' && AllDigits(s[5..7]) && s[7] == '-' && AllDigits(s[8..10]) then
      var d := Date(DigitsValue(s[0..4]), DigitsValue(s[5..7]), DigitsValue(s[8..10]));
      if ValidDate(d) then Some(d) else None
    else None
  }

  /** `datetime.strptime(s, '%Y-%m-%dT%H:%M:%S')` on zero-padded input. */
  function ParseDateTime(s: string): Option<DateTime> {
    if |s| == 19 && s[10] == 'T' && AllDigits(s[11..13]) && s[13] == ':'
       && AllDigits(s[14..16]) && s[16] == ':' && AllDigits(s[17..19]) then
      match ParseDate(s[0..10])
      case None => None
      case Some(d) =>
        var dt := DateTime(d, DigitsValue(s[11..13]), DigitsValue(s[14..16]), DigitsValue(s[17..19]));
        if ValidDateTime(dt) then Some(dt) else None
    else None
  }

  /** `ScuttlebuttService.StringToDatetime`: the instant `s` spells, or None
      where `strptime` raises ValueError. */
  function StringToDatetime(s: string): (r: Option<Instant>)
    ensures r.Some? ==> |s| == 19
  {
    match ParseDateTime(s)
    case None => None
    case Some(dt) => Some(ToInstant(dt))
  }

  lemma ParseFormatDate(d: Date, rest: string)
    requires ValidDate(d)
    ensures ParseDate(FormatDate(d) + rest) == Some(d)
  {
    var s := FormatDate(d) + rest;
    assert s[0..4] == Pad(d.year, 4);
    assert s[5..7] == Pad(d.month, 2);
    assert s[8..10] == Pad(d.day, 2);
  }

  /** Every string the parser accepts is the formatting of what it returns. */
  lemma FormatParseDate(s: string)
    requires |s| >= 10 && ParseDate(s).Some?
    ensures FormatDate(ParseDate(s).value) == s[0..10]
  {
    var d := ParseDate(s).value;
    assert d == Date(DigitsValue(s[0..4]), DigitsValue(s[5..7]), DigitsValue(s[8..10]));
    PadDigitsValue(s[0..4]);
    PadDigitsValue(s[5..7]);
    PadDigitsValue(s[8..10]);
    assert FormatDate(d) == s[0..4] + "-" + s[5..7] + "-" + s[8..10];
    assert s[0..10] == s[0..4] + [s[4]] + s[5..7] + [s[7]] + s[8..10];
  }

  /** Parsing the formatted text of any instant gives the instant back. */
  lemma StringToDatetimeFormat(t: Instant)
    ensures StringToDatetime(Format(t)) == Some(t)
  {
    ParseFormatDateTime(FromInstant(t));
  }

  lemma ParseFormatDateTime(dt: DateTime)
    requires ValidDateTime(dt)
    ensures ParseDateTime(FormatDateTime(dt)) == Some(dt)
  {
    var s := FormatDateTime(dt);
    ParseFormatDate(dt.date, "");
    assert s[0..10] == FormatDate(dt.date) + "";
    assert s[11..13] == Pad(dt.hour, 2);
    assert s[14..16] == Pad(dt.minute, 2);
    assert s[17..19] == Pad(dt.second, 2);
  }

  lemma SplitDateTimeText(s: string)
    requires |s| == 19
    ensures s == s[0..10] + [s[10]] + s[11..13] + [s[13]] + s[14..16] + [s[16]] + s[17..19]
  {
  }

  /** The parser accepts nothing but the canonical text of its result. */
  lemma FormatStringToDatetime(s: string)
    requires StringToDatetime(s).Some?
    ensures Format(StringToDatetime(s).value) == s
  {
    assert Pow10(2) == 100;
    var dt := ParseDateTime(s).value;
    var date := s[0..10];
    var d := ParseDate(date).value;
    assert dt == DateTime(d, DigitsValue(s[11..13]), DigitsValue(s[14..16]), DigitsValue(s[17..19]));
    FormatParseDate(date);
    assert date[0..10] == date;
    PadDigitsValue(s[11..13]);
    PadDigitsValue(s[14..16]);
    PadDigitsValue(s[17..19]);
    FromInstantToInstant(dt);
    SplitDateTimeText(s);
    assert [s[10]] == "T" && [s[13]] == ":" && [s[16]] == ":";
    assert FormatDateTime(dt) == FormatDate(d) + "T" + s[11..13] + ":" + s[14..16] + ":" + s[17..19];
  }

  lemma ConcatEq(a: string, b: string, c: string, d: string)
    requires |a| == |c|
    ensures a + b == c + d <==> a == c && b == d
  {
    if a + b == c + d {
      assert a == (a + b)[..|a|] && c == (c + d)[..|c|];
      assert b == (a + b)[|a|..] && d == (c + d)[|c|..];
    }
  }

  /** Appending a separator and a zero-padded field to equal-length prefixes
      extends the string order lexicographically. */
  lemma FieldOrder(a: string, b: string, sep: string, x: nat, y: nat, w: nat)
    requires |a| == |b| && x < Pow10(w) && y < Pow10(w)
    ensures LexLess(a + sep + Pad(x, w), b + sep + Pad(y, w)) <==> LexLess(a, b) || (a == b && x < y)
    ensures a + sep + Pad(x, w) == b + sep + Pad(y, w) <==> a == b && x == y
  {
    LexLessConcat(a + sep, Pad(x, w), b + sep, Pad(y, w));
    LexLessConcat(a, sep, b, sep);
    LexLessIrreflexive(sep);
    PadOrder(x, y, w);
    PadInjective(x, y, w);
    ConcatEq(a + sep, Pad(x, w), b + sep, Pad(y, w));
    ConcatEq(a, sep, b, sep);
  }

  lemma YearMonthOrder(a: Date, b: Date)
    requires ValidDate(a) && ValidDate(b)
    ensures LexLess(YearMonthText(a), YearMonthText(b)) <==> a.year < b.year || (a.year == b.year && a.month < b.month)
    ensures YearMonthText(a) == YearMonthText(b) <==> a.year == b.year && a.month == b.month
  {
    var x, y := Pad(a.year, 4), Pad(b.year, 4);
    assert && (LexLess(YearMonthText(a), YearMonthText(b)) <==> LexLess(x, y) || (x == y && a.month < b.month))
           && (YearMonthText(a) == YearMonthText(b) <==> x == y && a.month == b.month) by {
      assert Pow10(2) == 100;
      FieldOrder(x, y, "-", a.month, b.month, 2);
    }
    assert Pow10(4) == 10000;
    PadOrder(a.year, b.year, 4);
    PadInjective(a.year, b.year, 4);
  }

  lemma FormatDateOrder(a: Date, b: Date)
    requires ValidDate(a) && ValidDate(b)
    ensures LexLess(FormatDate(a), FormatDate(b)) <==> DateBefore(a, b)
    ensures FormatDate(a) == FormatDate(b) <==> a == b
  {
    var x, y := YearMonthText(a), YearMonthText(b);
    assert && (LexLess(FormatDate(a), FormatDate(b)) <==> LexLess(x, y) || (x == y && a.day < b.day))
           && (FormatDate(a) == FormatDate(b) <==> x == y && a.day == b.day) by {
      assert Pow10(2) == 100;
      FieldOrder(x, y, "-", a.day, b.day, 2);
    }
    YearMonthOrder(a, b);
  }

  lemma HourOrder(a: DateTime, b: DateTime)
    requires ValidDateTime(a) && ValidDateTime(b)
    ensures LexLess(HourText(a), HourText(b)) <==> DateBefore(a.date, b.date) || (a.date == b.date && a.hour < b.hour)
    ensures HourText(a) == HourText(b) <==> a.date == b.date && a.hour == b.hour
  {
    var x, y := FormatDate(a.date), FormatDate(b.date);
    assert && (LexLess(HourText(a), HourText(b)) <==> LexLess(x, y) || (x == y && a.hour < b.hour))
           && (HourText(a) == HourText(b) <==> x == y && a.hour == b.hour) by {
      assert Pow10(2) == 100;
      FieldOrder(x, y, "T", a.hour, b.hour, 2);
    }
    FormatDateOrder(a.date, b.date);
  }

  lemma MinuteOrder(a: DateTime, b: DateTime)
    requires ValidDateTime(a) && ValidDateTime(b)
    ensures LexLess(MinuteText(a), MinuteText(b)) <==>
      DateBefore(a.date, b.date) || (a.date == b.date && a.hour < b.hour)
      || (a.date == b.date && a.hour == b.hour && a.minute < b.minute)
    ensures MinuteText(a) == MinuteText(b) <==> a.date == b.date && a.hour == b.hour && a.minute == b.minute
  {
    var x, y := HourText(a), HourText(b);
    assert && (LexLess(MinuteText(a), MinuteText(b)) <==> LexLess(x, y) || (x == y && a.minute < b.minute))
           && (MinuteText(a) == MinuteText(b) <==> x == y && a.minute == b.minute) by {
      assert Pow10(2) == 100;
      FieldOrder(x, y, ":", a.minute, b.minute, 2);
    }
    HourOrder(a, b);
  }

  lemma FormatDateTimeOrder(a: DateTime, b: DateTime)
    requires ValidDateTime(a) && ValidDateTime(b)
    ensures LexLess(FormatDateTime(a), FormatDateTime(b)) <==> DateTimeBefore(a, b)
  {
    var x, y := MinuteText(a), MinuteText(b);
    assert LexLess(FormatDateTime(a), FormatDateTime(b)) <==> LexLess(x, y) || (x == y && a.second < b.second) by {
      assert Pow10(2) == 100;
      FieldOrder(x, y, ":", a.second, b.second, 2);
    }
    MinuteOrder(a, b);
    var sameMinute := a.date == b.date && a.hour == b.hour && a.minute == b.minute;
    assert x == y <==> sameMinute;
    assert LexLess(x, y) <==> DateTimeBefore(a, b) && !sameMinute;
  }

  /** The zero-padded text order is the chronological order: this is what
      lets the statistics reports sort buckets by their `to` strings. */
  lemma FormatOrder(a: Instant, b: Instant)
    ensures LexLess(Format(a), Format(b)) <==> a < b
  {
    FormatDateTimeOrder(FromInstant(a), FromInstant(b));
    InstantOrderIsFieldOrder(a, b);
  }
}

=== FILE: helpers.dfy ===
/** The request-parameter helpers and the string-to-int conversion shared
    by the services: Python 2's `int(s)` with ValueError caught, and the
    `GetStringParam`, `GetDateParam` and `GetIntParam` readers over a
    request's query parameters. */
module Helpers {
  import opened Wrappers
  import opened Text
  import opened Calendar
  import opened DateText

  // -------------------------------------------------------------- int(s)

  /** C's `isspace` in the C locale: blank, tab, newline, vertical tab,
      form feed, carriage return. */
  predicate IsSpace(c: char) {
    c == ' ' || '\t' <= c <= '\r'
  }

  predicate AllSpace(s: string) {
    forall i :: 0 <= i < |s| ==> IsSpace(s[i])
  }

  /** `s` without its leading white space. */
  function TrimLeft(s: string): (r: string)
    ensures |r| <= |s| && r == s[|s| - |r|..]
    ensures forall i :: 0 <= i < |s| - |r| ==> IsSpace(s[i])
    ensures |r| > 0 ==> !IsSpace(r[0])
  {
    if |s| > 0 && IsSpace(s[0]) then TrimLeft(s[1..]) else s
  }

  /** `s` without its trailing white space. */
  function TrimRight(s: string): (r: string)
    ensures |r| <= |s| && r == s[..|r|]
    ensures forall i :: |r| <= i < |s| ==> IsSpace(s[i])
    ensures |r| > 0 ==> !IsSpace(r[|r| - 1])
  {
    if |s| > 0 && IsSpace(s[|s| - 1]) then TrimRight(s[..|s| - 1]) else s
  }

  /** The value of a stripped numeral: an optional sign, then (as Python 2
      allows) optional blanks, then at least one decimal digit. */
  function SignedValue(t: string): Option<int> {
    if |t| > 0 && (t[0] == '+' || t[0] == '-') then
      var d := TrimLeft(t[1..]);
      if |d| > 0 && AllDigits(d) then Some(if t[0] == '-' then -(DigitsValue(d) as int) else DigitsValue(d))
      else None
    else if |t| > 0 && AllDigits(t) then Some(DigitsValue(t))
    else None
  }

  /** `StringToInt` (in the helpers and in the service): `int(s)`, or None
      where `int` raises ValueError. */
  function StringToInt(s: string): (r: Option<int>)
    ensures r.Some? ==> forall i :: 0 <= i < |s| ==> NumeralChar(s[i])
  {
    StrippedChars(s);
    SignedValue(TrimRight(TrimLeft(s)))
  }

  /** Around an accepted numeral there is only white space. */
  lemma StrippedChars(s: string)
    ensures SignedValue(TrimRight(TrimLeft(s))).Some? ==> forall i :: 0 <= i < |s| ==> NumeralChar(s[i])
  {
    var left := TrimLeft(s);
    var t := TrimRight(left);
    SignedValueChars(t);
    PaddedChars(s, left, t, SignedValue(t).Some?);
  }

  /** `s` is `t` padded with white space on both sides, so a character of
      `s` is a numeral character when every character of `t` is. */
  lemma PaddedChars(s: string, left: string, t: string, numeral: bool)
    requires |left| <= |s| && left == s[|s| - |left|..]
    requires forall i :: 0 <= i < |s| - |left| ==> IsSpace(s[i])
    requires |t| <= |left| && t == left[..|t|]
    requires forall i :: |t| <= i < |left| ==> IsSpace(left[i])
    requires numeral ==> forall i :: 0 <= i < |t| ==> NumeralChar(t[i])
    ensures numeral ==> forall i :: 0 <= i < |s| ==> NumeralChar(s[i])
  {
    forall i | 0 <= i < |s| && numeral ensures NumeralChar(s[i]) {
      if i >= |s| - |left| {
        var k := i - (|s| - |left|);
        assert s[i] == left[k];
        if k < |t| { assert left[k] == t[k]; }
      }
    }
  }

  /** The characters `int` can accept: digits, white space and signs. */
  predicate NumeralChar(c: char) {
    IsDigit(c) || IsSpace(c) || c == '+' || c == '-'
  }

  lemma SignedValueChars(t: string)
    ensures SignedValue(t).Some? ==> forall i :: 0 <= i < |t| ==> NumeralChar(t[i])
  {
    if SignedValue(t).Some? && (t[0] == '+' || t[0] == '-') {
      var rest := t[1..];
      var d := TrimLeft(rest);
      forall i | 1 <= i < |t| ensures NumeralChar(t[i]) {
        assert t[i] == rest[i - 1];
        if i - 1 >= |rest| - |d| {
          assert rest[i - 1] == d[i - 1 - (|rest| - |d|)];
        }
      }
    }
  }

  /** Text around the digits that is neither white space nor a single
      leading sign makes `int` raise: a trailing letter, ... */
  lemma StringToIntRejectsLetter()
    ensures StringToInt("12a") == None
  {
    assert !NumeralChar("12a"[2]);
  }

  /** ... a blank between digits, ... */
  lemma StringToIntRejectsInnerBlank()
    ensures StringToInt("1 2") == None
  {
    var s := "1 2";
    TrimLeftNoSpace(s);
    TrimRightNoSpace(s);
    assert !IsDigit(s[1]);
    assert SignedValue(s) == None;
  }

  /** ... and a doubled sign. */
  lemma StringToIntRejectsDoubleSign()
    ensures StringToInt("--1") == None
  {
    var s := "--1";
    TrimLeftNoSpace(s);
    TrimRightNoSpace(s);
    assert s[1..] == "-1";
    TrimLeftNoSpace("-1");
    assert !IsDigit("-1"[0]);
    assert SignedValue(s) == None;
  }

  /** The grammar of an integer literal `int` accepts, spelt out part by
      part: white space, an optional sign, white space (only after a
      sign), one or more decimal digits, white space. */
  datatype Sign = Unsigned | Plus | Minus

  datatype Literal = Literal(lead: string, sign: Sign, gap: string, digits: string, trail: string)

  function SignText(sign: Sign): string {
    match sign
    case Unsigned => ""
    case Plus => "+"
    case Minus => "-"
  }

  /** The part between the outer white space: a sign, a gap that only a
      sign may be followed by, and at least one digit. */
  predicate CoreForm(sign: Sign, gap: string, digits: string) {
    && AllSpace(gap)
    && (sign.Unsigned? ==> |gap| == 0)
    && |digits| > 0 && AllDigits(digits)
  }

  predicate WellFormed(l: Literal) {
    AllSpace(l.lead) && CoreForm(l.sign, l.gap, l.digits) && AllSpace(l.trail)
  }

  function Spell(l: Literal): string {
    l.lead + SignText(l.sign) + l.gap + l.digits + l.trail
  }

  function SignedDigits(sign: Sign, digits: string): int
    requires AllDigits(digits)
  {
    if sign.Minus? then -(DigitsValue(digits) as int) else DigitsValue(digits)
  }

  function LiteralValue(l: Literal): int
    requires AllDigits(l.digits)
  {
    SignedDigits(l.sign, l.digits)
  }

  /** `s` spells an integer literal of value `v`. */
  ghost predicate IsIntLiteral(s: string, v: int) {
    exists l :: WellFormed(l) && Spell(l) == s && LiteralValue(l) == v
  }

  /** `int(s)` succeeds with `v` exactly when `s` is a literal of value
      `v`; every other string makes it raise. */
  lemma StringToIntGrammar(s: string, v: int)
    ensures StringToInt(s) == Some(v) <==> IsIntLiteral(s, v)
  {
    if StringToInt(s) == Some(v) {
      var l := ParseLiteral(s);
    }
    if IsIntLiteral(s, v) {
      var l :| WellFormed(l) && Spell(l) == s && LiteralValue(l) == v;
      LiteralParses(l);
    }
  }

  /** An accepted string splits into the parts of a literal. */
  lemma ParseLiteral(s: string) returns (l: Literal)
    requires StringToInt(s).Some?
    ensures WellFormed(l) && Spell(l) == s && LiteralValue(l) == StringToInt(s).value
  {
    var lead, t, trail := Strip(s);
    var sign, gap, d := SplitSigned(t);
    l := Literal(lead, sign, gap, d, trail);
    Spelled(s, l, t);
  }

  /** `s` is its stripped core between two runs of white space. */
  lemma Strip(s: string) returns (lead: string, t: string, trail: string)
    ensures AllSpace(lead) && AllSpace(trail)
    ensures t == TrimRight(TrimLeft(s)) && s == lead + t + trail
  {
    var left := TrimLeft(s);
    t := TrimRight(left);
    lead, trail := s[..|s| - |left|], left[|t|..];
    Rejoin(s, left, t);
  }

  lemma Spelled(s: string, l: Literal, t: string)
    requires s == l.lead + t + l.trail && t == SignText(l.sign) + l.gap + l.digits
    ensures Spell(l) == s
  {
    Associate(l.lead, SignText(l.sign), l.gap, l.digits, l.trail);
  }

  /** `s` is what precedes its suffix `left`, then the prefix `t` of
      `left`, then the rest of `left`. */
  lemma Rejoin<T>(s: seq<T>, left: seq<T>, t: seq<T>)
    requires |left| <= |s| && left == s[|s| - |left|..]
    requires |t| <= |left| && t == left[..|t|]
    ensures s == s[..|s| - |left|] + t + left[|t|..]
  {
    assert left == t + left[|t|..];
    assert s == s[..|s| - |left|] + left;
  }

  /** A stripped numeral splits into a sign, a gap and digits. */
  lemma SplitSigned(t: string) returns (sign: Sign, gap: string, d: string)
    requires SignedValue(t).Some?
    ensures CoreForm(sign, gap, d)
    ensures t == SignText(sign) + gap + d
    ensures SignedValue(t).value == SignedDigits(sign, d)
  {
    if t[0] == '+' || t[0] == '-' {
      sign := if t[0] == '+' then Plus else Minus;
      gap, d := SplitLeft(t[1..]);
      HeadRest(t, gap, d);
      assert SignText(sign) == [t[0]];
    } else {
      sign, gap, d := Unsigned, "", t;
      assert t == SignText(sign) + gap + d;
    }
  }

  /** `r` is its leading white space, then the rest. */
  lemma SplitLeft(r: string) returns (gap: string, d: string)
    ensures AllSpace(gap) && d == TrimLeft(r) && r == gap + d
  {
    d := TrimLeft(r);
    gap := r[..|r| - |d|];
    Rejoin(r, d, d);
  }

  lemma HeadRest<T>(t: seq<T>, gap: seq<T>, d: seq<T>)
    requires |t| > 0 && t[1..] == gap + d
    ensures t == [t[0]] + gap + d
  {
    assert t == [t[0]] + t[1..];
  }

  /** A literal reads as its value. */
  lemma LiteralParses(l: Literal)
    requires WellFormed(l)
    ensures StringToInt(Spell(l)) == Some(LiteralValue(l))
  {
    var core := SignText(l.sign) + l.gap + l.digits;
    assert Spell(l) == l.lead + core + l.trail by {
      Associate(l.lead, SignText(l.sign), l.gap, l.digits, l.trail);
    }
    assert StringToInt(l.lead + core + l.trail) == StringToInt(core) by {
      StringToIntBlanks(l.lead, core, l.trail);
    }
    assert StringToInt(core) == Some(LiteralValue(l)) by {
      CoreReads(l.sign, l.gap, l.digits);
    }
  }

  /** A literal without its outer white space reads as its value. */
  lemma CoreReads(sign: Sign, gap: string, digits: string)
    requires CoreForm(sign, gap, digits)
    ensures StringToInt(SignText(sign) + gap + digits) == Some(SignedDigits(sign, digits))
  {
    CoreTrimmed(sign, gap, digits);
    if sign.Unsigned? {
      UnsignedValue(sign, gap, digits);
    } else {
      SignedCoreValue(sign, gap, digits);
    }
  }

  /** A literal without its outer white space has none left to strip. */
  lemma CoreTrimmed(sign: Sign, gap: string, digits: string)
    requires CoreForm(sign, gap, digits)
    ensures TrimRight(TrimLeft(SignText(sign) + gap + digits)) == SignText(sign) + gap + digits
  {
    var core := SignText(sign) + gap + digits;
    assert core[0] == if sign.Unsigned? then digits[0] else SignText(sign)[0];
    assert core[|core| - 1] == digits[|digits| - 1];
    TrimLeftNoSpace(core);
    TrimRightNoSpace(core);
  }

  lemma UnsignedValue(sign: Sign, gap: string, digits: string)
    requires CoreForm(sign, gap, digits) && sign.Unsigned?
    ensures SignedValue(SignText(sign) + gap + digits) == Some(DigitsValue(digits))
  {
    assert SignText(sign) + gap + digits == digits;
    assert IsDigit(digits[0]);
  }

  lemma SignedCoreValue(sign: Sign, gap: string, digits: string)
    requires CoreForm(sign, gap, digits) && !sign.Unsigned?
    ensures SignedValue(SignText(sign) + gap + digits) == Some(SignedDigits(sign, digits))
  {
    var core := SignText(sign) + gap + digits;
    Behead(SignText(sign), gap, digits);
    TrimLeftGap(gap, digits);
    assert core[0] == '-' <==> sign.Minus?;
  }

  /** White space before a non-blank is all that `TrimLeft` removes. */
  lemma TrimLeftGap(gap: string, digits: string)
    requires AllSpace(gap) && |digits| > 0 && !IsSpace(digits[0])
    ensures TrimLeft(gap + digits) == digits
  {
    TrimLeftSpaces(gap, digits);
    TrimLeftNoSpace(digits);
  }

  lemma Associate(a: string, b: string, c: string, d: string, e: string)
    ensures a + b + c + d + e == a + (b + c + d) + e
  {
  }

  lemma Behead(sign: string, gap: string, digits: string)
    requires |sign| == 1
    ensures (sign + gap + digits)[0] == sign[0] && (sign + gap + digits)[1..] == gap + digits
  {
  }

  /** A sign only leads: `int('5+')`, `int('1-2')` and `int('12-')` raise. */
  lemma StringToIntRejectsLateSign()
    ensures StringToInt("5+") == None
    ensures StringToInt("1-2") == None
    ensures StringToInt("12-") == None
  {
    RejectsAt("5+", 1);
    RejectsAt("1-2", 1);
    RejectsAt("12-", 2);
  }

  /** A numeral that starts and ends with a digit and has a non-digit
      inside is refused. */
  lemma RejectsAt(s: string, k: nat)
    requires k < |s| && IsDigit(s[0]) && !IsSpace(s[|s| - 1]) && !IsDigit(s[k])
    ensures StringToInt(s) == None
  {
    TrimLeftNoSpace(s);
    TrimRightNoSpace(s);
  }

  /** A sign, with or without blanks after it, and leading zeros are
      accepted: `int('+5') == 5`, ... */
  lemma StringToIntAcceptsPlus()
    ensures StringToInt("+5") == Some(5)
  {
    Accepts(Literal("", Plus, "", "5", ""), "+5", 5);
  }

  /** ... `int('- 5') == -5`, ... */
  lemma StringToIntAcceptsGap()
    ensures StringToInt("- 5") == Some(-5)
  {
    Accepts(Literal("", Minus, " ", "5", ""), "- 5", -5);
  }

  /** ... and `int('-007') == -7`. */
  lemma StringToIntAcceptsZeros()
    ensures StringToInt("-007") == Some(-7)
  {
    assert DigitsValue("007") == 7 by {
      assert "007"[..2] == "00" && "00"[..1] == "0";
    }
    Accepts(Literal("", Minus, "", "007", ""), "-007", -7);
  }

  lemma Accepts(l: Literal, s: string, v: int)
    requires WellFormed(l) && Spell(l) == s && LiteralValue(l) == v
    ensures StringToInt(s) == Some(v)
  {
    StringToIntGrammar(s, v);
  }

  /** Only a string holding a digit is a numeral: `int('')`, `int(' ')`
      and `int('-')` raise. */
  lemma StringToIntNeedsDigit(s: string)
    requires StringToInt(s).Some?
    ensures exists i :: 0 <= i < |s| && IsDigit(s[i])
  {
    var l := ParseLiteral(s);
    DigitSpelled(l);
  }

  lemma DigitSpelled(l: Literal)
    requires WellFormed(l)
    ensures IsDigit(Spell(l)[|l.lead| + |SignText(l.sign)| + |l.gap|])
  {
    assert IsDigit(l.digits[0]);
  }

  /** Python's `str(n)` on an int. */
  function IntToString(n: int): (s: string)
    ensures |s| >= 1
  {
    if n < 0 then "-" + NatToString(-n) else NatToString(n)
  }

  lemma TrimLeftNoSpace(s: string)
    requires |s| > 0 && !IsSpace(s[0])
    ensures TrimLeft(s) == s
  {
  }

  lemma TrimRightNoSpace(s: string)
    requires |s| > 0 && !IsSpace(s[|s| - 1])
    ensures TrimRight(s) == s
  {
  }

  /** `int(str(n)) == n`. */
  lemma StringToIntRoundTrip(n: int)
    ensures StringToInt(IntToString(n)) == Some(n)
  {
    var s := IntToString(n);
    var d := NatToString(if n < 0 then -n else n);
    TrimLeftNoSpace(s);
    TrimRightNoSpace(s);
    if n < 0 {
      assert s[1..] == d;
      TrimLeftNoSpace(d);
    }
  }

  /** A plain digit string reads as its decimal value. */
  lemma StringToIntDigits(s: string)
    requires |s| > 0 && AllDigits(s)
    ensures StringToInt(s) == Some(DigitsValue(s))
  {
    TrimLeftNoSpace(s);
    TrimRightNoSpace(s);
  }

  /** Stripping leading white space that is already followed by a
      non-blank leaves the rest unchanged. */
  lemma {:induction false} TrimLeftSpaces(w: string, s: string)
    requires AllSpace(w)
    ensures TrimLeft(w + s) == TrimLeft(s)
  {
    if |w| > 0 {
      assert (w + s)[1..] == w[1..] + s;
      TrimLeftSpaces(w[1..], s);
    } else {
      assert w + s == s;
    }
  }

  lemma {:induction false} TrimRightSpaces(s: string, w: string)
    requires AllSpace(w)
    ensures TrimRight(s + w) == TrimRight(s)
  {
    if |w| > 0 {
      var init := w[..|w| - 1];
      assert (s + w)[..|s + w| - 1] == s + init;
      TrimRightSpaces(s, init);
    } else {
      assert s + w == s;
    }
  }

  /** Stripping the left end of `s + w` keeps `w` once a non-blank is met. */
  lemma {:induction false} TrimLeftAppend(s: string, w: string)
    requires |TrimLeft(s)| > 0
    ensures TrimLeft(s + w) == TrimLeft(s) + w
  {
    if IsSpace(s[0]) {
      assert (s + w)[1..] == s[1..] + w;
      TrimLeftAppend(s[1..], w);
    }
  }

  lemma {:induction false} TrimLeftAllSpace(s: string)
    requires AllSpace(s)
    ensures TrimLeft(s) == []
  {
    if |s| > 0 {
      TrimLeftAllSpace(s[1..]);
    }
  }

  /** White space around a numeral does not change what `int` reads. */
  lemma StringToIntBlanks(w: string, s: string, v: string)
    requires AllSpace(w) && AllSpace(v)
    ensures StringToInt(w + s + v) == StringToInt(s)
  {
    StripAppendSpaces(w + s, v);
    TrimLeftSpaces(w, s);
  }

  lemma StripAppendSpaces(s: string, v: string)
    requires AllSpace(v)
    ensures TrimRight(TrimLeft(s + v)) == TrimRight(TrimLeft(s))
  {
    if |TrimLeft(s)| > 0 {
      TrimLeftAppend(s, v);
      TrimRightSpaces(TrimLeft(s), v);
    } else {
      assert s == s[..|s| - |TrimLeft(s)|];
      assert AllSpace(s + v);
      TrimLeftAllSpace(s + v);
    }
  }

  // ---------------------------------------------------- request parameters

  /** A request's query parameters; `request.get(name)` is None exactly
      for a name the request does not carry. */
  type Request = map<string, string>

  datatype ParamError =
    | MissingParam(name: string)
    | NotADate(name: string, text: string)
    | InvalidDate(name: string, text: string)
    | NotAnInt(name: string, text: string)

  /** Python truthiness of an optional string: present and non-empty. */
  predicate Truthy(s: Option<string>) {
    s.Some? && s.value != ""
  }

  /** `GetStringParam`: a value the request carries wins, even an empty
      one; otherwise a truthy default; otherwise it raises. */
  function GetStringParam(req: Request, param: string, default: Option<string>): (r: Result<string, ParamError>)
    ensures r.Success? <==> param in req || Truthy(default)
    ensures r.Success? ==> r.value == (if param in req then req[param] else default.value)
    ensures r.Failure? ==> r.error == MissingParam(param)
  {
    if param in req then Success(req[param])
    else if Truthy(default) then Success(default.value)
    else Failure(MissingParam(param))
  }

  // ---------------------------------------------------------------- dates

  /** `s` holds `dddd-dd-dd` at `i`. */
  predicate DateAt(s: string, i: int) {
    && 0 <= i && i + 10 <= |s|
    && AllDigits(s[i..i + 4]) && s[i + 4] == '-'
    && AllDigits(s[i + 5..i + 7]) && s[i + 7] == '-'
    && AllDigits(s[i + 8..i + 10])
  }

  /** `re.search('(\d\d\d\d)-(\d\d)-(\d\d)', s)` from `from` on: the
      leftmost match. */
  function FindDate(s: string, from: nat): (r: Option<nat>)
    requires from <= |s|
    ensures r.Some? ==> from <= r.value && DateAt(s, r.value)
    ensures r.Some? ==> forall j :: from <= j < r.value ==> !DateAt(s, j)
    ensures r.None? ==> forall j :: from <= j <= |s| ==> !DateAt(s, j)
    decreases |s| - from
  {
    if from + 10 > |s| then None
    else if DateAt(s, from) then Some(from)
    else FindDate(s, from + 1)
  }

  /** `str(default)` for a date default: `YYYY-MM-DD`, or `'None'`. */
  function DateDefaultText(default: Option<Date>): (s: string)
    requires default.Some? ==> ValidDate(default.value)
    ensures |s| > 0
  {
    if default.Some? then FormatDate(default.value) else "None"
  }

  /** `GetDateParam`: the first `dddd-dd-dd` in the parameter (or in
      `str(default)` when the request lacks it) as a date, which raises when
      it is no calendar date; with no match, the default when there is
      one, else it raises. */
  function GetDateParam(req: Request, param: string, default: Option<Date>): (r: Result<Date, ParamError>)
    requires default.Some? ==> ValidDate(default.value)
    ensures r.Success? ==> ValidDate(r.value)
    ensures r.Failure? ==> r.error.NotADate? || r.error.InvalidDate?
  {
    var s := GetStringParam(req, param, Some(DateDefaultText(default))).value;
    match FindDate(s, 0)
    case Some(i) =>
      (match ParseDate(s[i..])
       case Some(d) => ParseDateValid(s[i..]); Success(d)
       case None => Failure(InvalidDate(param, s)))
    case None =>
      if default.Some? then Success(default.value) else Failure(NotADate(param, s))
  }

  lemma ParseDateValid(s: string)
    requires |s| >= 10 && ParseDate(s).Some?
    ensures ValidDate(ParseDate(s).value)
  {
  }

  /** A formatted date is found at its start. */
  lemma FindFormattedDate(d: Date)
    requires ValidDate(d)
    ensures FindDate(FormatDate(d), 0) == Some(0)
  {
    var s := FormatDate(d);
    assert s[0..4] == Pad(d.year, 4);
    assert s[5..7] == Pad(d.month, 2);
    assert s[8..10] == Pad(d.day, 2);
  }

  /** A parameter holding a formatted date reads back as that date. */
  lemma GetDateParamReads(req: Request, param: string, default: Option<Date>, d: Date)
    requires default.Some? ==> ValidDate(default.value)
    requires ValidDate(d) && param in req && req[param] == FormatDate(d)
    ensures GetDateParam(req, param, default) == Success(d)
  {
    FindFormattedDate(d);
    ParseFormatDate(d, "");
    assert FormatDate(d)[0..] == FormatDate(d) + "";
  }

  /** A missing parameter yields the date default: `str(default)` is read
      back as the same date. */
  lemma GetDateParamDefault(req: Request, param: string, d: Date)
    requires ValidDate(d) && param !in req
    ensures GetDateParam(req, param, Some(d)) == Success(d)
  {
    FindFormattedDate(d);
    ParseFormatDate(d, "");
    assert FormatDate(d)[0..] == FormatDate(d) + "";
  }

  /** With neither the parameter nor a default, the search runs over
      `'None'`, finds nothing and raises; it never returns None. */
  lemma GetDateParamMissing(req: Request, param: string)
    requires param !in req
    ensures GetDateParam(req, param, None) == Failure(NotADate(param, "None"))
  {
  }

  /** A formatted date inside a text is a date match at its position. */
  lemma DateAtFormatted(pre: string, d: Date, post: string)
    requires ValidDate(d)
    ensures DateAt(pre + FormatDate(d) + post, |pre|)
    ensures (pre + FormatDate(d) + post)[|pre|..] == FormatDate(d) + post
  {
    var f := FormatDate(d);
    var s := pre + f + post;
    var i := |pre|;
    FindFormattedDate(d);
    assert s[i..i + 4] == f[0..4];
    assert s[i + 5..i + 7] == f[5..7];
    assert s[i + 8..i + 10] == f[8..10];
    assert s[i + 4] == f[4] && s[i + 7] == f[7];
    assert s[i..] == f + post;
  }

  /** With a date match at `i` and none before it, the search finds `i`. */
  lemma FindDateFirst(s: string, i: nat)
    requires DateAt(s, i)
    requires forall j :: 0 <= j < i ==> !DateAt(s, j)
    ensures FindDate(s, 0) == Some(i)
  {
  }

  /** The date is read from the leftmost `dddd-dd-dd` of the parameter,
      whatever text surrounds it. */
  lemma GetDateParamEmbedded(req: Request, param: string, default: Option<Date>, pre: string, d: Date, post: string)
    requires default.Some? ==> ValidDate(default.value)
    requires ValidDate(d) && param in req && req[param] == pre + FormatDate(d) + post
    requires forall j :: 0 <= j < |pre| ==> !DateAt(req[param], j)
    ensures GetDateParam(req, param, default) == Success(d)
  {
    DateAtFormatted(pre, d, post);
    FindDateFirst(req[param], |pre|);
    ParseFormatDate(d, post);
  }

  /** The year, month and day the digits of a match at `i` name. */
  function DateDigitsAt(s: string, i: int): Date
    requires DateAt(s, i)
  {
    Date(DigitsValue(s[i..i + 4]), DigitsValue(s[i + 5..i + 7]), DigitsValue(s[i + 8..i + 10]))
  }

  /** A first match whose digits name no calendar date raises, whatever
      follows it and whatever the default. */
  lemma GetDateParamInvalid(req: Request, param: string, default: Option<Date>, i: nat)
    requires default.Some? ==> ValidDate(default.value)
    requires param in req && DateAt(req[param], i)
    requires forall j :: 0 <= j < i ==> !DateAt(req[param], j)
    requires !ValidDate(DateDigitsAt(req[param], i))
    ensures GetDateParam(req, param, default) == Failure(InvalidDate(param, req[param]))
  {
    var s := req[param];
    FindDateFirst(s, i);
    var t := s[i..];
    assert t[0..4] == s[i..i + 4];
    assert t[5..7] == s[i + 5..i + 7];
    assert t[8..10] == s[i + 8..i + 10];
  }

  /** For instance, month 13: a first match `2011-13-01` raises, even when
      a valid date follows it. */
  lemma GetDateParamImpossible(req: Request, param: string, default: Option<Date>, pre: string, post: string)
    requires default.Some? ==> ValidDate(default.value)
    requires param in req && req[param] == pre + "2011-13-01" + post
    requires forall j :: 0 <= j < |pre| ==> !DateAt(req[param], j)
    ensures GetDateParam(req, param, default) == Failure(InvalidDate(param, req[param]))
  {
    var s := req[param];
    var i := |pre|;
    var m := "2011-13-01";
    assert s[i..i + 4] == m[0..4] == "2011";
    assert s[i + 5..i + 7] == m[5..7] == "13";
    assert s[i + 8..i + 10] == m[8..10] == "01";
    assert s[i + 4] == '-' && s[i + 7] == '-';
    assert DateAt(s, i);
    assert DigitsValue("13") == 13 by {
      assert "13"[..1] == "1";
    }
    GetDateParamInvalid(req, param, default, i);
  }

  /** ... and so does a day past the end of its month, `2011-02-30`. */
  lemma GetDateParamFebruary30(req: Request, param: string, default: Option<Date>)
    requires default.Some? ==> ValidDate(default.value)
    requires param in req && req[param] == "2011-02-30"
    ensures GetDateParam(req, param, default) == Failure(InvalidDate(param, req[param]))
  {
    var s := req[param];
    assert s[0..4] == "2011" && s[5..7] == "02" && s[8..10] == "30";
    assert DateAt(s, 0);
    assert DigitsValue("02") == 2 by {
      assert "02"[..1] == "0";
    }
    assert DigitsValue("30") == 30 by {
      assert "30"[..1] == "3";
    }
    GetDateParamInvalid(req, param, default, 0);
  }

  /** A parameter holding no `dddd-dd-dd` yields the default when there is
      one, and raises naming the text otherwise. */
  lemma GetDateParamNoMatch(req: Request, param: string, default: Option<Date>)
    requires default.Some? ==> ValidDate(default.value)
    requires param in req
    requires forall j :: 0 <= j < |req[param]| ==> !DateAt(req[param], j)
    ensures GetDateParam(req, param, default)
      == if default.Some? then Success(default.value) else Failure(NotADate(param, req[param]))
  {
    assert FindDate(req[param], 0).None?;
  }

  // ----------------------------------------------------------------- ints

  /** The first index from `from` on holding a digit. */
  function FindDigit(s: string, from: nat): (r: Option<nat>)
    requires from <= |s|
    ensures r.Some? ==> from <= r.value < |s| && IsDigit(s[r.value])
    ensures r.Some? ==> forall j :: from <= j < r.value ==> !IsDigit(s[j])
    ensures r.None? ==> forall j :: from <= j < |s| ==> !IsDigit(s[j])
    decreases |s| - from
  {
    if from == |s| then None
    else if IsDigit(s[from]) then Some(from)
    else FindDigit(s, from + 1)
  }

  /** The end of the run of digits starting at `j`. */
  function DigitRunEnd(s: string, j: nat): (e: nat)
    requires j <= |s|
    ensures j <= e <= |s| && AllDigits(s[j..e])
    ensures e == |s| || !IsDigit(s[e])
    decreases |s| - j
  {
    if j < |s| && IsDigit(s[j]) then
      var e := DigitRunEnd(s, j + 1);
      assert s[j..e] == [s[j]] + s[j + 1..e];
      e
    else j
  }

  /** `re.search('(\d+)', s)` read with `int`: the value of the first
      maximal run of digits, if any. */
  function FirstNumber(s: string): (r: Option<nat>)
    ensures r.Some? <==> exists i :: 0 <= i < |s| && IsDigit(s[i])
  {
    match FindDigit(s, 0)
    case None => None
    case Some(i) => Some(DigitsValue(s[i..DigitRunEnd(s, i)]))
  }

  /** `str(default)` for an int default: its numeral, or `'None'`. */
  function IntDefaultText(default: Option<int>): (s: string)
    ensures |s| > 0
  {
    if default.Some? then IntToString(default.value) else "None"
  }

  /** `GetIntParam` as written: the first run of digits of the parameter,
      or of `str(default)` when the request lacks it; with no digits, the
      default when there is one, else it raises. */
  function GetIntParam(req: Request, param: string, default: Option<int>): (r: Result<int, ParamError>)
    ensures r.Failure? ==> default.None? && r.error.NotAnInt?
    ensures param in req && FirstNumber(req[param]).Some? ==> r == Success(FirstNumber(req[param]).value)
  {
    var s := GetStringParam(req, param, Some(IntDefaultText(default))).value;
    match FirstNumber(s)
    case Some(n) => Success(n)
    case None => if default.Some? then Success(default.value) else Failure(NotAnInt(param, s))
  }

  /** `GetIntParam` as evidently intended: a missing parameter yields the
      default itself. */
  function GetIntParamIntended(req: Request, param: string, default: Option<int>): (r: Result<int, ParamError>)
    ensures param !in req && default.Some? ==> r == Success(default.value)
    ensures param !in req && default.None? ==> r.Failure?
  {
    if param in req then
      match FirstNumber(req[param])
      case Some(n) => Success(n)
      case None => if default.Some? then Success(default.value) else Failure(NotAnInt(param, req[param]))
    else if default.Some? then Success(default.value)
    else Failure(NotAnInt(param, "None"))
  }

  /** The first number of a numeral without sign is its value. */
  lemma FirstNumberOfNumeral(n: nat)
    ensures FirstNumber(NatToString(n)) == Some(n)
  {
    var s := NatToString(n);
    assert FindDigit(s, 0) == Some(0);
    assert s[0..DigitRunEnd(s, 0)] == s;
  }

  /** The first number of a negative numeral is its magnitude. */
  lemma FirstNumberOfNegative(n: int)
    requires n > 0
    ensures FirstNumber(IntToString(-n)) == Some(n)
  {
    var s := IntToString(-n);
    var d := NatToString(n);
    assert s == "-" + d && !IsDigit(s[0]) && IsDigit(s[1]);
    assert FindDigit(s, 0) == FindDigit(s, 1) == Some(1);
    assert s[1..DigitRunEnd(s, 1)] == d;
  }

  /** With no default below zero the code behaves as intended. */
  lemma GetIntParamAgrees(req: Request, param: string, default: Option<int>)
    requires default.None? || default.value >= 0
    ensures GetIntParam(req, param, default).Success? <==> GetIntParamIntended(req, param, default).Success?
    ensures GetIntParam(req, param, default).Success? ==>
      GetIntParam(req, param, default).value == GetIntParamIntended(req, param, default).value
  {
    if param !in req && default.Some? {
      FirstNumberOfNumeral(default.value);
    }
  }

  /** A negative default `-n` for a missing parameter comes back as `n`. */
  lemma GetIntParamNegativeDefault(req: Request, param: string, n: int)
    requires param !in req && n > 0
    ensures GetIntParam(req, param, Some(-n)) == Success(n)
    ensures GetIntParamIntended(req, param, Some(-n)) == Success(-n)
  {
    FirstNumberOfNegative(n);
  }

  /** The concrete case: `GetIntParam(request, 'offset', -1)` with no
      `offset` parameter returns 1. */
  lemma GetIntParamMinusOne()
    ensures GetIntParam(map[], "offset", Some(-1)) == Success(1)
  {
    GetIntParamNegativeDefault(map[], "offset", 1);
  }

  /** A run of digits followed by a non-digit, or by the end, ends there. */
  lemma {:induction false} DigitRunEndIs(s: string, j: nat, k: nat)
    requires j <= k <= |s| && AllDigits(s[j..k])
    requires k == |s| || !IsDigit(s[k])
    ensures DigitRunEnd(s, j) == k
    decreases k - j
  {
    if j < k {
      assert s[j] == s[j..k][0];
      assert s[j + 1..k] == s[j..k][1..];
      DigitRunEndIs(s, j + 1, k);
    }
  }

  /** The first number of a text is its first run of digits. */
  lemma FirstNumberOfRun(pre: string, digits: string, post: string)
    requires forall i :: 0 <= i < |pre| ==> !IsDigit(pre[i])
    requires |digits| > 0 && AllDigits(digits)
    requires |post| == 0 || !IsDigit(post[0])
    ensures FirstNumber(pre + digits + post) == Some(DigitsValue(digits))
  {
    var s := pre + digits + post;
    assert FindDigit(s, 0) == Some(|pre|) by {
      assert IsDigit(s[|pre|]);
      assert forall j :: 0 <= j < |pre| ==> s[j] == pre[j];
    }
    var e := |pre| + |digits|;
    assert s[|pre|..e] == digits;
    assert |post| > 0 ==> s[e] == post[0];
    DigitRunEndIs(s, |pre|, e);
  }

  /** Text around the first run of digits, signs included, is ignored. */
  lemma GetIntParamFirstRun(param: string, pre: string, digits: string, post: string, default: Option<int>)
    requires forall i :: 0 <= i < |pre| ==> !IsDigit(pre[i])
    requires |digits| > 0 && AllDigits(digits)
    requires |post| == 0 || !IsDigit(post[0])
    ensures GetIntParam(map[param := pre + digits + post], param, default) == Success(DigitsValue(digits))
  {
    FirstNumberOfRun(pre, digits, post);
  }
}

=== FILE: model.dfy ===
/** The datastore records (`Feed`, `Topic`, `Article`), their `ToDict`
    projections, and the article queries the services issue. The datastore
    itself is a sequence of articles in the order queries return them. */
module Model {
  import opened Wrappers
  import opened Calendar
  import opened DateText

  /** The numeric id of a datastore key. */
  type Key = nat

  datatype Feed = Feed(key: Key, name: string, url: string, monthlyVisitors: Option<int>)

  /** A topic; the three statistics are None until ComputeTopicStats has run. */
  datatype Topic = Topic(
    key: Key,
    name: string,
    countPastSevenDays: Option<int>,
    countPastTwentyFourHours: Option<int>,
    weekOnWeekChange: Option<real>)

  datatype Article = Article(
    key: Key,
    url: string,
    title: string,
    potentialReaders: Option<int>,
    summary: string,
    updated: Instant,
    topics: seq<Key>,
    feeds: seq<Key>)

  /** The dictionary `Topic.ToDict` builds. */
  datatype TopicView = TopicView(
    name: string,
    countPastSevenDays: Option<int>,
    countPastTwentyFourHours: Option<int>,
    weekOnWeekChange: Option<real>,
    id: int)

  /** The dictionary `Article.ToDict` builds. */
  datatype ArticleView = ArticleView(
    url: string,
    title: string,
    summary: string,
    updated: string,
    id: int,
    readership: Option<int>)

  function TopicToDict(t: Topic): (v: TopicView)
    ensures v.name == t.name && v.id == t.key
    ensures v.countPastSevenDays == t.countPastSevenDays
    ensures v.countPastTwentyFourHours == t.countPastTwentyFourHours
    ensures v.weekOnWeekChange == t.weekOnWeekChange
  {
    TopicView(t.name, t.countPastSevenDays, t.countPastTwentyFourHours, t.weekOnWeekChange, t.key)
  }

  /** The view copies the article's URL, title, summary and id; its
      readership is the article's potential readers (None when the source
      feed had no monthly visitor count). */
  function ArticleToDict(a: Article): (v: ArticleView)
    ensures v.readership == a.potentialReaders && v.id == a.key
    ensures v.url == a.url && v.title == a.title && v.summary == a.summary
  {
    ArticleView(a.url, a.title, a.summary, Format(a.updated), a.key, a.potentialReaders)
  }

  /** The view's `updated` text parses back to the article's instant. */
  lemma ArticleToDictUpdated(a: Article)
    ensures StringToDatetime(ArticleToDict(a).updated) == Some(a.updated)
  {
    StringToDatetimeFormat(a.updated);
  }

  /** The GQL filter `topics = :1 AND updated >= :2 AND updated <= :3`. */
  predicate InWindow(a: Article, topic: Key, lo: int, hi: int) {
    topic in a.topics && lo <= a.updated <= hi
  }

  /** The articles of the store passing the filter, in store order. */
  function SelectInWindow(store: seq<Article>, topic: Key, lo: int, hi: int): (r: seq<Article>)
    ensures |r| <= |store|
    ensures forall a :: a in r <==> a in store && InWindow(a, topic, lo, hi)
    ensures forall a {:trigger multiset(r)[a]} :: multiset(r)[a] == if InWindow(a, topic, lo, hi) then multiset(store)[a] else 0
  {
    if |store| == 0 then []
    else
      var head := if InWindow(store[0], topic, lo, hi) then [store[0]] else [];
      assert store == [store[0]] + store[1..];
      head + SelectInWindow(store[1..], topic, lo, hi)
  }

  /** The GQL filter `topics = :1` with no date bounds, in store order. */
  function SelectByTopic(store: seq<Article>, topic: Key): (r: seq<Article>)
    ensures forall a :: a in r <==> a in store && topic in a.topics
    ensures forall a {:trigger multiset(r)[a]} :: multiset(r)[a] == if topic in a.topics then multiset(store)[a] else 0
  {
    if |store| == 0 then []
    else
      var head := if topic in store[0].topics then [store[0]] else [];
      assert store == [store[0]] + store[1..];
      head + SelectByTopic(store[1..], topic)
  }

  /** `Feed.articles`: the GQL filter `feeds = :1`, in store order. */
  function FeedArticles(store: seq<Article>, feed: Feed): (r: seq<Article>)
    ensures forall a :: a in r <==> a in store && feed.key in a.feeds
    ensures forall a {:trigger multiset(r)[a]} :: multiset(r)[a] == if feed.key in a.feeds then multiset(store)[a] else 0
  {
    if |store| == 0 then []
    else
      var head := if feed.key in store[0].feeds then [store[0]] else [];
      assert store == [store[0]] + store[1..];
      head + FeedArticles(store[1..], feed)
  }

  /** `Topic.get_by_id`: the first topic with the given id. */
  function TopicById(topics: seq<Topic>, id: Key): (r: Option<Topic>)
    ensures r.Some? ==> r.value in topics && r.value.key == id
    ensures r.None? ==> forall t :: t in topics ==> t.key != id
  {
    if |topics| == 0 then None
    else if topics[0].key == id then Some(topics[0])
    else TopicById(topics[1..], id)
  }

  /** With unique topic keys, the `id` a topic's dictionary reports fetches
      that very topic back. */
  lemma {:induction false} TopicToDictId(topics: seq<Topic>, i: nat)
    requires i < |topics|
    requires forall j, k :: 0 <= j < k < |topics| ==> topics[j].key != topics[k].key
    ensures TopicById(topics, TopicToDict(topics[i]).id) == Some(topics[i])
  {
    if i > 0 {
      assert topics[0].key != topics[i].key;
      assert topics[1..][i - 1] == topics[i];
      TopicToDictId(topics[1..], i - 1);
    }
  }

  /** A store whose every article passes the filter is selected whole. */
  lemma {:induction false} SelectInWindowAll(store: seq<Article>, topic: Key, lo: int, hi: int)
    requires forall i :: 0 <= i < |store| ==> InWindow(store[i], topic, lo, hi)
    ensures SelectInWindow(store, topic, lo, hi) == store
  {
    if |store| > 0 {
      SelectInWindowAll(store[1..], topic, lo, hi);
      assert store == [store[0]] + store[1..];
    }
  }

  /** A window nested in another selects no more articles. */
  lemma {:induction false} SelectInWindowNested(store: seq<Article>, topic: Key, lo: int, hi: int, lo': int, hi': int)
    requires lo <= lo' && hi' <= hi
    ensures |SelectInWindow(store, topic, lo', hi')| <= |SelectInWindow(store, topic, lo, hi)|
  {
    if |store| > 0 {
      SelectInWindowNested(store[1..], topic, lo, hi, lo', hi');
    }
  }
}

=== FILE: rss_service.dfy ===
/** `RssService`: matching feed entries against topics, the download pass
    that upserts articles into the store, the dispatch fan-out, and the
    per-topic counting statistics. */
module RssService {
  import opened Wrappers
  import opened Calendar
  import opened Model

  // ---------------------------------------------------------------- matching

  /** `str.upper` on one character (ASCII letters only). */
  function UpperChar(c: char): char {
    if 'a' <= c <= 'z' then (c as int - 32) as char else c
  }

  function Upper(s: string): (r: string)
    ensures |r| == |s|
    ensures forall i :: 0 <= i < |s| ==> r[i] == UpperChar(s[i])
  {
    seq(|s|, i requires 0 <= i < |s| => UpperChar(s[i]))
  }

  predicate OccursAt(s: string, p: string, i: int) {
    0 <= i && i + |p| <= |s| && s[i..i + |p|] == p
  }

  ghost predicate Contains(s: string, p: string) {
    exists i :: OccursAt(s, p, i)
  }

  /** `string.find(s, p, start)`: the lowest index at or after `start`
      where `p` occurs in `s`, or -1 when there is none. */
  function Find(s: string, p: string, start: nat): (r: int)
    ensures r == -1 || (start <= r && OccursAt(s, p, r))
    ensures r == -1 <==> forall i :: start <= i ==> !OccursAt(s, p, i)
    ensures forall i :: start <= i < r ==> !OccursAt(s, p, i)
    decreases |s| - start
  {
    if start + |p| > |s| then -1
    else if s[start..start + |p|] == p then start
    else Find(s, p, start + 1)
  }

  /** `_Match`: the upper-cased term occurs somewhere in the upper-cased
      text; an empty term therefore matches every text. */
  function Match(text: string, term: string): (r: bool)
    ensures r <==> Contains(Upper(text), Upper(term))
    ensures |term| == 0 ==> r
  {
    assert |term| == 0 ==> OccursAt(Upper(text), Upper(term), 0);
    Find(Upper(text), Upper(term), 0) > -1
  }

  // ---------------------------------------------------------------- download

  /** A parsed feed entry: its id (the article URL), title, summary and
      the time it was updated. */
  datatype Entry = Entry(id: string, title: string, summary: string, updated: Instant)

  /** What fetching and parsing a feed hands over: the entries (possibly
      none), or the exception raised when the feed URL cannot be fetched. */
  datatype FeedContent = Entries(entries: seq<Entry>) | FetchFailed

  datatype RssError = FeedUnavailable(name: string, url: string) | DateOverflow

  predicate EntryMatches(e: Entry, t: Topic) {
    Match(e.title, t.name) || Match(e.summary, t.name)
  }

  /** One matching (topic, entry) pair of the download loop. */
  datatype Step = Step(topic: Key, entry: Entry)

  function TopicSteps(t: Topic, entries: seq<Entry>): seq<Step> {
    if |entries| == 0 then []
    else
      var head := if EntryMatches(entries[0], t) then [Step(t.key, entries[0])] else [];
      head + TopicSteps(t, entries[1..])
  }

  /** The matching pairs in the order of the download loop: topics in the
      outer loop, entries in the inner one. */
  function MatchedSteps(topics: seq<Topic>, entries: seq<Entry>): seq<Step> {
    if |topics| == 0 then []
    else TopicSteps(topics[0], entries) + MatchedSteps(topics[1..], entries)
  }

  lemma {:induction false} TopicStepsMembership(t: Topic, entries: seq<Entry>, s: Step)
    ensures s in TopicSteps(t, entries) <==>
      exists j :: 0 <= j < |entries| && EntryMatches(entries[j], t) && s == Step(t.key, entries[j])
  {
    if |entries| > 0 {
      TopicStepsMembership(t, entries[1..], s);
      if s in TopicSteps(t, entries[1..]) {
        var j :| 0 <= j < |entries[1..]| && EntryMatches(entries[1..][j], t) && s == Step(t.key, entries[1..][j]);
        assert entries[j + 1] == entries[1..][j];
      }
      if exists j :: 0 <= j < |entries| && EntryMatches(entries[j], t) && s == Step(t.key, entries[j]) {
        var j :| 0 <= j < |entries| && EntryMatches(entries[j], t) && s == Step(t.key, entries[j]);
        if j > 0 {
          assert entries[1..][j - 1] == entries[j];
        }
      }
    }
  }

  /** Topic `i` and entry `j` match and make up step `s`. */
  predicate PairStep(topics: seq<Topic>, entries: seq<Entry>, i: int, j: int, s: Step) {
    0 <= i < |topics| && 0 <= j < |entries|
    && EntryMatches(entries[j], topics[i]) && s == Step(topics[i].key, entries[j])
  }

  /** A pair is processed exactly when its entry matches its topic. */
  lemma {:induction false} MatchedStepsMembership(topics: seq<Topic>, entries: seq<Entry>, s: Step)
    ensures s in MatchedSteps(topics, entries) <==> exists i, j :: PairStep(topics, entries, i, j, s)
  {
    if |topics| > 0 {
      TopicStepsMembership(topics[0], entries, s);
      MatchedStepsMembership(topics[1..], entries, s);
      if s in MatchedSteps(topics[1..], entries) {
        var i, j :| PairStep(topics[1..], entries, i, j, s);
        assert topics[i + 1] == topics[1..][i];
        assert PairStep(topics, entries, i + 1, j, s);
      }
      if s in TopicSteps(topics[0], entries) {
        var j :| 0 <= j < |entries| && EntryMatches(entries[j], topics[0]) && s == Step(topics[0].key, entries[j]);
        assert PairStep(topics, entries, 0, j, s);
      }
      if exists i, j :: PairStep(topics, entries, i, j, s) {
        var i, j :| PairStep(topics, entries, i, j, s);
        if i > 0 {
          assert topics[1..][i - 1] == topics[i];
          assert PairStep(topics[1..], entries, i - 1, j, s);
        }
      }
    }
  }

  /** The article query `url = :1`, fetching one: the first stored article
      with that URL. */
  function FindByUrl(store: seq<Article>, url: string): (r: Option<nat>)
    ensures r.Some? ==> r.value < |store| && store[r.value].url == url
    ensures r.Some? ==> forall k :: 0 <= k < r.value ==> store[k].url != url
    ensures r.None? ==> forall k :: 0 <= k < |store| ==> store[k].url != url
  {
    if |store| == 0 then None
    else if store[0].url == url then Some(0)
    else match FindByUrl(store[1..], url)
      case None => None
      case Some(k) => Some(k + 1)
  }

  /** The lookup answers with the first index holding the URL. */
  lemma FindByUrlFirst(store: seq<Article>, url: string, k: nat)
    requires k < |store| && store[k].url == url
    requires forall m :: 0 <= m < k ==> store[m].url != url
    ensures FindByUrl(store, url) == Some(k)
  {
  }

  /** The id the datastore allocates on the first `put` of a new article:
      one no stored article has. */
  function NextKey(store: seq<Article>): (k: Key)
    ensures forall i :: 0 <= i < |store| ==> store[i].key < k
  {
    if |store| == 0 then 1
    else
      var k := NextKey(store[1..]);
      if store[0].key < k then k else store[0].key + 1
  }

  function AddIfAbsent(keys: seq<Key>, k: Key): seq<Key> {
    if k in keys then keys else keys + [k]
  }

  /** A freshly constructed `Article()` about to be filled in. */
  function Blank(key: Key): Article {
    Article(key, "", "", None, "", 0, [], [])
  }

  /** The unconditional assignments of a match: URL, title, summary,
      potential readers and updated time. */
  function SetFields(a: Article, feed: Feed, e: Entry): Article {
    a.(url := e.id, title := e.title, summary := e.summary,
       potentialReaders := feed.monthlyVisitors, updated := e.updated)
  }

  predicate NoDups<T(==)>(s: seq<T>) {
    forall i, j :: 0 <= i < j < |s| ==> s[i] != s[j]
  }

  predicate UniqueUrls(store: seq<Article>) {
    forall i, j :: 0 <= i < j < |store| ==> store[i].url != store[j].url
  }

  predicate UniqueKeys(store: seq<Article>) {
    forall i, j :: 0 <= i < j < |store| ==> store[i].key != store[j].key
  }

  predicate DupFreeLists(store: seq<Article>) {
    forall i :: 0 <= i < |store| ==> NoDups(store[i].feeds) && NoDups(store[i].topics)
  }

  /** At most one article per URL and per id, and association lists
      without repeated keys. */
  predicate WellFormed(store: seq<Article>) {
    UniqueUrls(store) && UniqueKeys(store) && DupFreeLists(store)
  }

  /** The article of the step's URL carries the feed and the topic. */
  predicate Absorbs(store: seq<Article>, feedKey: Key, step: Step) {
    var f := FindByUrl(store, step.entry.id);
    f.Some? && feedKey in store[f.value].feeds && step.topic in store[f.value].topics
  }

  /** The article of the step's URL holds the step's field values. */
  predicate FieldsWritten(store: seq<Article>, feed: Feed, step: Step) {
    var f := FindByUrl(store, step.entry.id);
    f.Some? && store[f.value] == SetFields(store[f.value], feed, step.entry)
  }

  /** One iteration of the download loop body for a matching pair: look the
      article up by URL (creating it when absent), add the feed and topic
      keys when absent, overwrite the scalar fields and `put` it. */
  function Upsert(store: seq<Article>, feed: Feed, step: Step): (r: seq<Article>)
    ensures FindByUrl(store, step.entry.id).Some? ==>
      |r| == |store| && FindByUrl(r, step.entry.id) == FindByUrl(store, step.entry.id)
    ensures FindByUrl(store, step.entry.id).None? ==>
      |r| == |store| + 1 && FindByUrl(r, step.entry.id) == Some(|store|)
    ensures forall k :: 0 <= k < |store| ==> r[k].url == store[k].url && r[k].key == store[k].key
    ensures forall k :: 0 <= k < |store| && FindByUrl(store, step.entry.id) != Some(k) ==> r[k] == store[k]
    ensures forall k, x :: 0 <= k < |store| && x in store[k].feeds ==> x in r[k].feeds
    ensures forall k, x :: 0 <= k < |store| && x in store[k].topics ==> x in r[k].topics
    ensures Absorbs(r, feed.key, step) && FieldsWritten(r, feed, step)
  {
    var e := step.entry;
    var found := FindByUrl(store, e.id);
    var base := if found.Some? then store[found.value] else Blank(NextKey(store));
    var a := SetFields(base.(feeds := AddIfAbsent(base.feeds, feed.key),
                             topics := AddIfAbsent(base.topics, step.topic)), feed, e);
    var r := if found.Some? then store[found.value := a] else store + [a];
    var idx := if found.Some? then found.value else |store|;
    FindByUrlFirst(r, e.id, idx);
    r
  }

  /** The download loop over the matching pairs, in order. */
  function Apply(store: seq<Article>, feed: Feed, steps: seq<Step>): (r: seq<Article>)
    ensures |r| >= |store|
    decreases |steps|
  {
    if |steps| == 0 then store
    else Upsert(Apply(store, feed, steps[..|steps| - 1]), feed, steps[|steps| - 1])
  }

  /** `Download`: fails before any write when the feed cannot be fetched;
      otherwise runs the topic-by-entry loop over the parsed entries. */
  function Download(store: seq<Article>, feed: Feed, topics: seq<Topic>, content: FeedContent)
    : (r: Result<seq<Article>, RssError>)
    ensures r.Failure? <==> content.FetchFailed?
    ensures r.Failure? ==> r.error == FeedUnavailable(feed.name, feed.url)
  {
    match content
    case FetchFailed => Failure(FeedUnavailable(feed.name, feed.url))
    case Entries(entries) => Success(Apply(store, feed, MatchedSteps(topics, entries)))
  }

  // ------------------------------------------------- download: properties

  /** A URL the shorter store holds is found at the same index in a store
      that agrees with it on the URLs of the shared prefix. */
  lemma FindByUrlStable(t: seq<Article>, u: seq<Article>, url: string)
    requires |u| <= |t|
    requires forall k :: 0 <= k < |u| ==> t[k].url == u[k].url
    requires FindByUrl(u, url).Some?
    ensures FindByUrl(t, url) == FindByUrl(u, url)
  {
    FindByUrlFirst(t, url, FindByUrl(u, url).value);
  }

  lemma FindByUrlSameUrls(t: seq<Article>, u: seq<Article>, url: string)
    requires |u| == |t|
    requires forall k :: 0 <= k < |u| ==> t[k].url == u[k].url
    ensures FindByUrl(t, url) == FindByUrl(u, url)
  {
    if FindByUrl(u, url).Some? {
      FindByUrlStable(t, u, url);
    } else if FindByUrl(t, url).Some? {
      FindByUrlStable(u, t, url);
    }
  }

  /** Two articles agree on everything the scalar assignments leave alone. */
  predicate SameShape(a: Article, b: Article) {
    a.key == b.key && a.url == b.url && a.topics == b.topics && a.feeds == b.feeds
  }

  predicate SameShapes(s: seq<Article>, t: seq<Article>) {
    |s| == |t| && forall k :: 0 <= k < |s| ==> SameShape(s[k], t[k])
  }

  predicate AbsorbsAll(store: seq<Article>, feedKey: Key, steps: seq<Step>) {
    forall i :: 0 <= i < |steps| ==> Absorbs(store, feedKey, steps[i])
  }

  lemma AbsorbsAllPrefix(store: seq<Article>, feedKey: Key, steps: seq<Step>)
    requires |steps| > 0 && AbsorbsAll(store, feedKey, steps)
    ensures AbsorbsAll(store, feedKey, steps[..|steps| - 1])
    ensures Absorbs(store, feedKey, steps[|steps| - 1])
  {
    var p := steps[..|steps| - 1];
    forall i | 0 <= i < |p| ensures Absorbs(store, feedKey, p[i]) {
      assert p[i] == steps[i];
    }
  }

  lemma UpsertKeepsAbsorbs(store: seq<Article>, feed: Feed, x: Step, feedKey: Key, y: Step)
    requires Absorbs(store, feedKey, y)
    ensures Absorbs(Upsert(store, feed, x), feedKey, y)
  {
    FindByUrlStable(Upsert(store, feed, x), store, y.entry.id);
  }

  lemma UpsertKeepsAbsorbsAll(store: seq<Article>, feed: Feed, x: Step, steps: seq<Step>)
    requires AbsorbsAll(store, feed.key, steps)
    ensures AbsorbsAll(Upsert(store, feed, x), feed.key, steps)
  {
    forall i | 0 <= i < |steps| ensures Absorbs(Upsert(store, feed, x), feed.key, steps[i]) {
      UpsertKeepsAbsorbs(store, feed, x, feed.key, steps[i]);
    }
  }

  lemma AbsorbsAllAppend(store: seq<Article>, feedKey: Key, steps: seq<Step>)
    requires |steps| > 0 && AbsorbsAll(store, feedKey, steps[..|steps| - 1])
    requires Absorbs(store, feedKey, steps[|steps| - 1])
    ensures AbsorbsAll(store, feedKey, steps)
  {
    var p := steps[..|steps| - 1];
    forall i | 0 <= i < |steps| ensures Absorbs(store, feedKey, steps[i]) {
      if i < |p| {
        assert steps[i] == p[i];
      }
    }
  }

  /** After the loop, every processed pair is recorded: the article of its
      URL carries both the feed and the topic. */
  lemma {:induction false} ApplyAbsorbsAll(store: seq<Article>, feed: Feed, steps: seq<Step>)
    ensures AbsorbsAll(Apply(store, feed, steps), feed.key, steps)
  {
    if |steps| > 0 {
      var p := steps[..|steps| - 1];
      var x := steps[|steps| - 1];
      ApplyAbsorbsAll(store, feed, p);
      var prev := Apply(store, feed, p);
      UpsertKeepsAbsorbsAll(prev, feed, x, p);
      ApplyLast(store, feed, steps);
      AbsorbsAllAppend(Upsert(prev, feed, x), feed.key, steps);
    }
  }

  /** Upserting a pair the store already records only rewrites the scalar
      fields of its article. */
  lemma UpsertAbsorbed(store: seq<Article>, feed: Feed, x: Step)
    requires Absorbs(store, feed.key, x)
    ensures var j := FindByUrl(store, x.entry.id).value;
      Upsert(store, feed, x) == store[j := SetFields(store[j], feed, x.entry)]
  {
  }

  lemma AbsorbsSameShapes(s: seq<Article>, t: seq<Article>, feedKey: Key, x: Step)
    requires SameShapes(s, t)
    ensures Absorbs(s, feedKey, x) <==> Absorbs(t, feedKey, x)
  {
    FindByUrlSameUrls(s, t, x.entry.id);
  }

  /** Replaying pairs a store already records changes no key, URL or
      association list. */
  lemma {:induction false} ApplyAbsorbedShape(store: seq<Article>, feed: Feed, steps: seq<Step>)
    requires AbsorbsAll(store, feed.key, steps)
    ensures SameShapes(Apply(store, feed, steps), store)
  {
    if |steps| > 0 {
      var p := steps[..|steps| - 1];
      var x := steps[|steps| - 1];
      AbsorbsAllPrefix(store, feed.key, steps);
      ApplyAbsorbedShape(store, feed, p);
      var prev := Apply(store, feed, p);
      AbsorbsSameShapes(prev, store, feed.key, x);
      UpsertAbsorbed(prev, feed, x);
    }
  }

  /** One recorded pair upserted into two stores that agree on the URLs of
      the shorter one's indices and on article `k` gives the same article `k`. */
  lemma UpsertLocal(t: seq<Article>, u: seq<Article>, feed: Feed, x: Step, k: nat)
    requires Absorbs(t, feed.key, x) && Absorbs(u, feed.key, x)
    requires |u| <= |t|
    requires forall m :: 0 <= m < |u| ==> t[m].url == u[m].url
    requires k < |u| && t[k] == u[k]
    ensures |Upsert(u, feed, x)| == |u| && |Upsert(t, feed, x)| == |t|
    ensures Upsert(t, feed, x)[k] == Upsert(u, feed, x)[k]
  {
    FindByUrlStable(t, u, x.entry.id);
    UpsertAbsorbed(t, feed, x);
    UpsertAbsorbed(u, feed, x);
  }

  /** Replaying recorded pairs on two stores that agree on the URLs of the
      shorter one's indices and on article `k` gives the same article `k`. */
  lemma {:induction false} ApplyLocal(t: seq<Article>, u: seq<Article>, feed: Feed, steps: seq<Step>, k: nat)
    requires AbsorbsAll(t, feed.key, steps) && AbsorbsAll(u, feed.key, steps)
    requires |u| <= |t|
    requires forall m :: 0 <= m < |u| ==> t[m].url == u[m].url
    requires k < |u| && t[k] == u[k]
    ensures |Apply(u, feed, steps)| == |u| && |Apply(t, feed, steps)| == |t|
    ensures Apply(t, feed, steps)[k] == Apply(u, feed, steps)[k]
  {
    ApplyAbsorbedShape(t, feed, steps);
    ApplyAbsorbedShape(u, feed, steps);
    if |steps| > 0 {
      var p := steps[..|steps| - 1];
      var x := steps[|steps| - 1];
      AbsorbsAllPrefix(t, feed.key, steps);
      AbsorbsAllPrefix(u, feed.key, steps);
      ApplyLocal(t, u, feed, p, k);
      var pt := Apply(t, feed, p);
      var pu := Apply(u, feed, p);
      ApplyAbsorbedShape(t, feed, p);
      ApplyAbsorbedShape(u, feed, p);
      AbsorbsSameShapes(pt, t, feed.key, x);
      AbsorbsSameShapes(pu, u, feed.key, x);
      assert forall m :: 0 <= m < |pu| ==> pt[m].url == pu[m].url by {
        forall m | 0 <= m < |pu| ensures pt[m].url == pu[m].url {
          assert SameShape(pt[m], t[m]) && SameShape(pu[m], u[m]);
        }
      }
      UpsertLocal(pt, pu, feed, x, k);
      ApplyLast(t, feed, steps);
      ApplyLast(u, feed, steps);
    }
  }

  /** Replaying the earlier pairs on the store after pair `x` keeps every
      article other than `x`'s. */
  lemma ReplayKeepsOthers(prev: seq<Article>, feed: Feed, p: seq<Step>, x: Step, k: nat)
    requires AbsorbsAll(prev, feed.key, p) && Apply(prev, feed, p) == prev
    requires AbsorbsAll(Upsert(prev, feed, x), feed.key, p)
    requires k < |Upsert(prev, feed, x)| && Some(k) != FindByUrl(Upsert(prev, feed, x), x.entry.id)
    ensures |Apply(Upsert(prev, feed, x), feed, p)| == |Upsert(prev, feed, x)|
    ensures Apply(Upsert(prev, feed, x), feed, p)[k] == Upsert(prev, feed, x)[k]
  {
    var cur := Upsert(prev, feed, x);
    ApplyLocal(cur, prev, feed, p, k);
  }

  /** The inductive step of idempotence: replaying all pairs on the store
      after `p` then `x` changes nothing. */
  lemma ReplayStep(prev: seq<Article>, feed: Feed, p: seq<Step>, x: Step)
    requires AbsorbsAll(prev, feed.key, p) && Apply(prev, feed, p) == prev
    requires AbsorbsAll(Upsert(prev, feed, x), feed.key, p)
    ensures Upsert(Apply(Upsert(prev, feed, x), feed, p), feed, x) == Upsert(prev, feed, x)
  {
    var url := x.entry.id;
    var cur := Upsert(prev, feed, x);
    var again := Apply(cur, feed, p);
    ApplyAbsorbedShape(cur, feed, p);
    AbsorbsSameShapes(again, cur, feed.key, x);
    FindByUrlSameUrls(again, cur, url);
    UpsertAbsorbed(again, feed, x);
    var j := FindByUrl(cur, url).value;
    var result := Upsert(again, feed, x);
    assert |result| == |cur|;
    forall k | 0 <= k < |cur| ensures result[k] == cur[k] {
      if k != j {
        ReplayKeepsOthers(prev, feed, p, x, k);
      }
    }
  }

  /** Running the loop a second time over the same pairs leaves the store
      as the first run left it. */
  lemma {:induction false} ApplyIdempotent(store: seq<Article>, feed: Feed, steps: seq<Step>)
    ensures Apply(Apply(store, feed, steps), feed, steps) == Apply(store, feed, steps)
  {
    if |steps| > 0 {
      var p := steps[..|steps| - 1];
      var x := steps[|steps| - 1];
      var prev := Apply(store, feed, p);
      ApplyLast(store, feed, steps);
      var cur := Apply(store, feed, steps);
      ApplyIdempotent(store, feed, p);
      ApplyAbsorbsAll(store, feed, p);
      ApplyAbsorbsAll(store, feed, steps);
      AbsorbsAllPrefix(cur, feed.key, steps);
      ApplyLast(cur, feed, steps);
      ReplayStep(prev, feed, p, x);
    }
  }

  /** One upsert keeps URLs and ids unique and association lists free of
      repeats. */
  lemma UpsertWellFormed(store: seq<Article>, feed: Feed, step: Step)
    requires WellFormed(store)
    ensures WellFormed(Upsert(store, feed, step))
  {
    var r := Upsert(store, feed, step);
    var found := FindByUrl(store, step.entry.id);
    var idx := if found.Some? then found.value else |store|;
    assert NoDups(r[idx].feeds) && NoDups(r[idx].topics);
    assert DupFreeLists(r) by {
      forall k | 0 <= k < |r| && k != idx
        ensures NoDups(r[k].feeds) && NoDups(r[k].topics)
      {
        assert r[k] == store[k];
      }
    }
  }

  lemma {:induction false} ApplyWellFormed(store: seq<Article>, feed: Feed, steps: seq<Step>)
    requires WellFormed(store)
    ensures WellFormed(Apply(store, feed, steps))
  {
    if |steps| > 0 {
      ApplyWellFormed(store, feed, steps[..|steps| - 1]);
      UpsertWellFormed(Apply(store, feed, steps[..|steps| - 1]), feed, steps[|steps| - 1]);
    }
  }

  /** An article the loop did not reach is unchanged. */
  lemma {:induction false} ApplyUntouched(store: seq<Article>, feed: Feed, steps: seq<Step>, k: nat)
    requires k < |store|
    requires forall n :: 0 <= n < |steps| ==> steps[n].entry.id != store[k].url
    ensures Apply(store, feed, steps)[k] == store[k]
  {
    if |steps| > 0 {
      var p := steps[..|steps| - 1];
      assert forall n :: 0 <= n < |p| ==> p[n] == steps[n];
      ApplyUntouched(store, feed, p, k);
    }
  }

  /** Where a topic key on an article after one upsert comes from. */
  lemma UpsertTopicsOrigin(store: seq<Article>, feed: Feed, x: Step, k: nat, key: Key)
    requires k < |Upsert(store, feed, x)| && key in Upsert(store, feed, x)[k].topics
    ensures (k < |store| && key in store[k].topics)
      || (key == x.topic && Upsert(store, feed, x)[k].url == x.entry.id)
  {
  }

  /** A topic key on an article after the loop was there before, or came
      from a processed pair for the article's URL. */
  lemma {:induction false} ApplyTopicsOrigin(store: seq<Article>, feed: Feed, steps: seq<Step>, k: nat, key: Key)
    requires k < |Apply(store, feed, steps)| && key in Apply(store, feed, steps)[k].topics
    ensures (k < |store| && key in store[k].topics)
      || exists n :: 0 <= n < |steps| && steps[n].topic == key && steps[n].entry.id == Apply(store, feed, steps)[k].url
  {
    if |steps| > 0 {
      var p := steps[..|steps| - 1];
      var x := steps[|steps| - 1];
      var prev := Apply(store, feed, p);
      ApplyLast(store, feed, steps);
      var r := Apply(store, feed, steps);
      UpsertTopicsOrigin(prev, feed, x, k, key);
      if k < |prev| && key in prev[k].topics {
        ApplyTopicsOrigin(store, feed, p, k, key);
        if !(k < |store| && key in store[k].topics) {
          var n :| 0 <= n < |p| && p[n].topic == key && p[n].entry.id == prev[k].url;
          assert steps[n] == p[n];
        }
      } else {
        assert steps[|steps| - 1] == x;
      }
    }
  }

  /** Where a feed key on an article after one upsert comes from. */
  lemma UpsertFeedsOrigin(store: seq<Article>, feed: Feed, x: Step, k: nat, key: Key)
    requires k < |Upsert(store, feed, x)| && key in Upsert(store, feed, x)[k].feeds
    ensures (k < |store| && key in store[k].feeds)
      || (key == feed.key && Upsert(store, feed, x)[k].url == x.entry.id)
  {
  }

  /** A feed key on an article after the loop was there before, or is the
      downloaded feed's key on an article whose URL a processed pair has. */
  lemma {:induction false} ApplyFeedsOrigin(store: seq<Article>, feed: Feed, steps: seq<Step>, k: nat, key: Key)
    requires k < |Apply(store, feed, steps)| && key in Apply(store, feed, steps)[k].feeds
    ensures (k < |store| && key in store[k].feeds)
      || (key == feed.key && exists n :: 0 <= n < |steps| && steps[n].entry.id == Apply(store, feed, steps)[k].url)
  {
    if |steps| > 0 {
      var p := steps[..|steps| - 1];
      var x := steps[|steps| - 1];
      var prev := Apply(store, feed, p);
      ApplyLast(store, feed, steps);
      UpsertFeedsOrigin(prev, feed, x, k, key);
      if k < |prev| && key in prev[k].feeds {
        ApplyFeedsOrigin(store, feed, p, k, key);
        if !(k < |store| && key in store[k].feeds) {
          var n :| 0 <= n < |p| && p[n].entry.id == prev[k].url;
          assert steps[n] == p[n];
        }
      } else {
        assert steps[|steps| - 1] == x;
      }
    }
  }

  /** The articles the loop appends all have the URL of a processed pair. */
  lemma {:induction false} ApplyNewArticles(store: seq<Article>, feed: Feed, steps: seq<Step>, k: nat)
    requires |store| <= k < |Apply(store, feed, steps)|
    ensures exists n :: 0 <= n < |steps| && steps[n].entry.id == Apply(store, feed, steps)[k].url
  {
    var p := steps[..|steps| - 1];
    var x := steps[|steps| - 1];
    var prev := Apply(store, feed, p);
    if k < |prev| {
      ApplyNewArticles(store, feed, p, k);
      var n :| 0 <= n < |p| && p[n].entry.id == prev[k].url;
      assert steps[n] == p[n];
    } else {
      assert steps[|steps| - 1] == x;
    }
  }

  /** The last processed pair for a URL decides the article's title,
      summary, updated time and potential readers. */
  lemma {:induction false} ApplyLastWrite(store: seq<Article>, feed: Feed, steps: seq<Step>, n: nat)
    requires n < |steps|
    requires forall m :: n < m < |steps| ==> steps[m].entry.id != steps[n].entry.id
    ensures FieldsWritten(Apply(store, feed, steps), feed, steps[n])
  {
    var p := steps[..|steps| - 1];
    var x := steps[|steps| - 1];
    var prev := Apply(store, feed, p);
    if n < |p| {
      var url := steps[n].entry.id;
      assert forall m :: n < m < |p| ==> p[m] == steps[m];
      assert p[n] == steps[n];
      ApplyLastWrite(store, feed, p, n);
      var r := Apply(store, feed, steps);
      assert r == Upsert(prev, feed, x);
      var i := FindByUrl(prev, url).value;
      FindByUrlStable(r, prev, url);
      assert x.entry.id != url;
      assert r[i] == prev[i];
    } else {
      assert steps[n] == x;
    }
  }

  predicate OnlyFeed(store: seq<Article>, feedKey: Key) {
    forall k :: 0 <= k < |store| ==> store[k].feeds == [feedKey]
  }

  /** When one feed is ever downloaded, every article lists exactly that
      feed. */
  lemma {:induction false} ApplyOnlyFeed(store: seq<Article>, feed: Feed, steps: seq<Step>)
    requires OnlyFeed(store, feed.key)
    ensures OnlyFeed(Apply(store, feed, steps), feed.key)
  {
    if |steps| > 0 {
      ApplyOnlyFeed(store, feed, steps[..|steps| - 1]);
    }
  }

  /** Downloading the same content again changes nothing. */
  lemma DownloadIdempotent(store: seq<Article>, feed: Feed, topics: seq<Topic>, content: FeedContent)
    requires Download(store, feed, topics, content).Success?
    ensures Download(Download(store, feed, topics, content).value, feed, topics, content)
      == Download(store, feed, topics, content)
  {
    ApplyIdempotent(store, feed, MatchedSteps(topics, content.entries));
  }

  /** Unique URLs, unique ids and repeat-free association lists survive a
      download. */
  lemma DownloadWellFormed(store: seq<Article>, feed: Feed, topics: seq<Topic>, content: FeedContent)
    requires WellFormed(store) && Download(store, feed, topics, content).Success?
    ensures WellFormed(Download(store, feed, topics, content).value)
  {
    ApplyWellFormed(store, feed, MatchedSteps(topics, content.entries));
  }

  /** Every entry that matches a topic ends up as an article with the
      entry's URL tagged with that topic and the downloaded feed. */
  lemma DownloadTagsMatches(store: seq<Article>, feed: Feed, topics: seq<Topic>, entries: seq<Entry>, i: nat, j: nat)
    requires i < |topics| && j < |entries| && EntryMatches(entries[j], topics[i])
    ensures var r := Download(store, feed, topics, Entries(entries)).value;
      exists k :: 0 <= k < |r| && r[k].url == entries[j].id
        && topics[i].key in r[k].topics && feed.key in r[k].feeds
  {
    var steps := MatchedSteps(topics, entries);
    assert Download(store, feed, topics, Entries(entries)) == Success(Apply(store, feed, steps));
    var s := Step(topics[i].key, entries[j]);
    assert PairStep(topics, entries, i, j, s);
    MatchedStepsMembership(topics, entries, s);
    var n :| 0 <= n < |steps| && steps[n] == s;
    ApplyAbsorbsAll(store, feed, steps);
    assert Absorbs(Apply(store, feed, steps), feed.key, steps[n]);
  }

  /** Conversely, a topic key a download adds to an article comes from a
      topic that matches an entry with the article's URL. */
  lemma DownloadTopicsOrigin(store: seq<Article>, feed: Feed, topics: seq<Topic>, entries: seq<Entry>, k: nat, key: Key)
    requires var r := Download(store, feed, topics, Entries(entries)).value;
      k < |r| && key in r[k].topics && !(k < |store| && key in store[k].topics)
    ensures var r := Download(store, feed, topics, Entries(entries)).value;
      exists i, j :: 0 <= j < |entries| && PairStep(topics, entries, i, j, Step(key, entries[j])) && entries[j].id == r[k].url
  {
    var steps := MatchedSteps(topics, entries);
    ApplyTopicsOrigin(store, feed, steps, k, key);
    var n :| 0 <= n < |steps| && steps[n].topic == key && steps[n].entry.id == Apply(store, feed, steps)[k].url;
    MatchedStepsMembership(topics, entries, steps[n]);
    var i, j :| PairStep(topics, entries, i, j, steps[n]);
    assert PairStep(topics, entries, i, j, Step(key, entries[j]));
  }

  lemma ApplyLast(store: seq<Article>, feed: Feed, steps: seq<Step>)
    requires |steps| > 0
    ensures Apply(store, feed, steps) == Upsert(Apply(store, feed, steps[..|steps| - 1]), feed, steps[|steps| - 1])
  {
  }

  /** The article a first pair creates on an empty store. */
  lemma UpsertIntoEmpty(feed: Feed, x: Step)
    ensures var r := Upsert([], feed, x);
      |r| == 1 && r[0].url == x.entry.id && r[0].topics == [x.topic] && r[0].feeds == [feed.key]
  {
  }

  /** A download with one entry matching two topics, run twice on an empty
      store, leaves one article tagged with both topics and the one feed. */
  lemma DownloadTwoTopicsTwice(feed: Feed, t1: Topic, t2: Topic, e: Entry)
    requires t1.key != t2.key && EntryMatches(e, t1) && EntryMatches(e, t2)
    ensures var once := Download([], feed, [t1, t2], Entries([e])).value;
      var twice := Download(once, feed, [t1, t2], Entries([e])).value;
      |twice| == 1 && twice[0].url == e.id
      && twice[0].topics == [t1.key, t2.key] && twice[0].feeds == [feed.key]
  {
    var x1 := Step(t1.key, e);
    var x2 := Step(t2.key, e);
    var steps := MatchedSteps([t1, t2], [e]);
    assert [e][1..] == [] && [t1, t2][1..] == [t2] && [t2][1..] == [];
    assert TopicSteps(t1, [e]) == [x1];
    assert TopicSteps(t2, [e]) == [x2];
    assert MatchedSteps([t2], [e]) == [x2];
    assert steps == [x1, x2];
    assert steps[..1] == [x1] && [x1][..0] == [];
    ApplyLast([], feed, [x1]);
    var a1 := Apply([], feed, [x1]);
    UpsertIntoEmpty(feed, x1);
    ApplyLast([], feed, steps);
    var a2 := Apply([], feed, steps);
    FindByUrlFirst(a1, e.id, 0);
    assert a1[0].topics + [t2.key] == [t1.key, t2.key];
    assert |a2| == 1 && a2[0].topics == [t1.key, t2.key] && a2[0].feeds == [feed.key];
    DownloadIdempotent([], feed, [t1, t2], Entries([e]));
  }

  /** A pair whose URL the store lacks appends a fresh article carrying
      only that pair's topic and the feed. */
  lemma UpsertNewUrl(store: seq<Article>, feed: Feed, x: Step)
    requires FindByUrl(store, x.entry.id).None?
    ensures var r := Upsert(store, feed, x);
      |r| == |store| + 1 && r[..|store|] == store
      && r[|store|].url == x.entry.id && r[|store|].topics == [x.topic] && r[|store|].feeds == [feed.key]
  {
  }

  /** Two entries, each matching just one of two topics, give one pair each. */
  lemma TwoEntriesSteps(t1: Topic, t2: Topic, e1: Entry, e2: Entry)
    requires EntryMatches(e1, t1) && !EntryMatches(e2, t1)
    requires !EntryMatches(e1, t2) && EntryMatches(e2, t2)
    ensures MatchedSteps([t1, t2], [e1, e2]) == [Step(t1.key, e1), Step(t2.key, e2)]
  {
    var es := [e1, e2];
    assert es[1..] == [e2] && [e2][1..] == [] && [t1, t2][1..] == [t2] && [t2][1..] == [];
    assert TopicSteps(t1, [e2]) == [];
    assert TopicSteps(t1, es) == [Step(t1.key, e1)];
    assert TopicSteps(t2, [e2]) == [Step(t2.key, e2)];
    assert TopicSteps(t2, es) == [Step(t2.key, e2)];
    assert MatchedSteps([t2], es) == [Step(t2.key, e2)];
  }

  /** Two pairs with different URLs on an empty store make two articles,
      each listing the feed once. */
  lemma ApplyTwoUrls(feed: Feed, x1: Step, x2: Step)
    requires x1.entry.id != x2.entry.id
    ensures var r := Apply([], feed, [x1, x2]);
      && |r| == 2 && r[0].url == x1.entry.id && r[1].url == x2.entry.id
      && r[0].feeds == [feed.key] && r[1].feeds == [feed.key]
  {
    var steps := [x1, x2];
    assert steps[..1] == [x1] && [x1][..0] == [];
    ApplyLast([], feed, [x1]);
    var a1 := Apply([], feed, [x1]);
    UpsertIntoEmpty(feed, x1);
    assert FindByUrl(a1, x2.entry.id).None?;
    UpsertNewUrl(a1, feed, x2);
    ApplyLast([], feed, steps);
  }

  /** Two entries, each matching one of two topics, downloaded twice into
      an empty store: two articles, each listing the feed once. */
  lemma DownloadTwoEntriesTwice(feed: Feed, t1: Topic, t2: Topic, e1: Entry, e2: Entry)
    requires e1.id != e2.id
    requires EntryMatches(e1, t1) && !EntryMatches(e2, t1)
    requires !EntryMatches(e1, t2) && EntryMatches(e2, t2)
    ensures var once := Download([], feed, [t1, t2], Entries([e1, e2])).value;
      var twice := Download(once, feed, [t1, t2], Entries([e1, e2])).value;
      && |twice| == 2 && twice[0].url == e1.id && twice[1].url == e2.id
      && twice[0].feeds == [feed.key] && twice[1].feeds == [feed.key]
  {
    TwoEntriesSteps(t1, t2, e1, e2);
    ApplyTwoUrls(feed, Step(t1.key, e1), Step(t2.key, e2));
    DownloadIdempotent([], feed, [t1, t2], Entries([e1, e2]));
  }

  // ---------------------------------------------------------------- dispatch

  /** `Dispatch`: one queued download task per stored feed, in store order. */
  method Dispatch(feeds: seq<Feed>) returns (queued: seq<Key>)
    ensures |queued| == |feeds|
    ensures forall i :: 0 <= i < |feeds| ==> queued[i] == feeds[i].key
  {
    queued := [];
    for i := 0 to |feeds|
      invariant |queued| == i
      invariant forall k :: 0 <= k < i ==> queued[k] == feeds[k].key
    {
      queued := queued + [feeds[i].key];
    }
  }

  // ------------------------------------------------------------ topic stats

  /** Relative change from last week's count to this week's: zero when both
      are zero, undefined when only last week's is zero. */
  function WeekOnWeekChange(thisWeek: nat, lastWeek: nat): (r: Option<real>)
    ensures lastWeek == 0 ==> (r == Some(0.0) <==> thisWeek == 0) && (r == None <==> thisWeek > 0)
    ensures lastWeek > 0 ==> r.Some? && r.value * lastWeek as real == (thisWeek - lastWeek) as real
  {
    if lastWeek == 0 then
      if thisWeek == 0 then Some(0.0) else None
    else Some((thisWeek - lastWeek) as real / lastWeek as real)
  }

  /** One topic's recomputed statistics at `now`: the counts of its
      articles over the last seven days, the last day, and the seven days
      before that (all windows closed at both ends). */
  function TopicStats(store: seq<Article>, t: Topic, now: Instant): (r: Topic)
    requires now >= 2 * SecondsPerWeek
    ensures r.key == t.key && r.name == t.name
    ensures r.countPastSevenDays.Some? && r.countPastTwentyFourHours.Some?
    ensures r.countPastTwentyFourHours.value <= r.countPastSevenDays.value
  {
    var thisWeek := |SelectInWindow(store, t.key, now - SecondsPerWeek, now)|;
    var lastDay := |SelectInWindow(store, t.key, now - SecondsPerDay, now)|;
    var lastWeek := |SelectInWindow(store, t.key, now - 2 * SecondsPerWeek, now - SecondsPerWeek)|;
    SelectInWindowNested(store, t.key, now - SecondsPerWeek, now, now - SecondsPerDay, now);
    t.(countPastSevenDays := Some(thisWeek), countPastTwentyFourHours := Some(lastDay),
       weekOnWeekChange := WeekOnWeekChange(thisWeek, lastWeek))
  }

  /** `ComputeTopicStats`: every topic gets its statistics; a clock less
      than two weeks after the earliest representable time makes the window
      arithmetic overflow. */
  function ComputeTopicStats(store: seq<Article>, topics: seq<Topic>, now: Instant)
    : (r: Result<seq<Topic>, RssError>)
    ensures r.Failure? <==> now < 2 * SecondsPerWeek
    ensures r.Failure? ==> r.error == DateOverflow
    ensures r.Success? ==> |r.value| == |topics|
    ensures r.Success? ==>
      forall i :: 0 <= i < |topics| ==> r.value[i].key == topics[i].key && r.value[i].name == topics[i].name
  {
    if now < 2 * SecondsPerWeek then Failure(DateOverflow)
    else Success(seq(|topics|, i requires 0 <= i < |topics| => TopicStats(store, topics[i], now)))
  }

  /** The stored statistics are the window counts, and the change is
      relative to the previous week's count. */
  lemma ComputeTopicStatsCounts(store: seq<Article>, topics: seq<Topic>, now: Instant, i: nat)
    requires now >= 2 * SecondsPerWeek && i < |topics|
    ensures var t := ComputeTopicStats(store, topics, now).value[i];
      var thisWeek := |SelectInWindow(store, topics[i].key, now - SecondsPerWeek, now)|;
      var lastWeek := |SelectInWindow(store, topics[i].key, now - 2 * SecondsPerWeek, now - SecondsPerWeek)|;
      && t.countPastSevenDays == Some(thisWeek)
      && t.countPastTwentyFourHours == Some(|SelectInWindow(store, topics[i].key, now - SecondsPerDay, now)|)
      && t.weekOnWeekChange == WeekOnWeekChange(thisWeek, lastWeek)
  {
    var r := ComputeTopicStats(store, topics, now).value;
    assert r[i] == TopicStats(store, topics[i], now);
  }
}

=== FILE: text.dfy ===
/** Decimal digits, zero-padded numerals and Python's ordering of strings. */
module Text {

  predicate IsDigit(c: char) {
    '0' <= c <= '9'
  }

  predicate AllDigits(s: string) {
    forall i :: 0 <= i < |s| ==> IsDigit(s[i])
  }

  function DigitChar(d: int): (c: char)
    requires 0 <= d <= 9
    ensures IsDigit(c)
  {
    (d + '0' as int) as char
  }

  function DigitValue(c: char): (d: int)
    requires IsDigit(c)
    ensures 0 <= d <= 9 && DigitChar(d) == c
  {
    c as int - '0' as int
  }

  function Pow10(n: nat): (p: nat)
    ensures p >= 1
  {
    if n == 0 then 1 else 10 * Pow10(n - 1)
  }

  /** The number a string of decimal digits spells (Python's `int` on digits). */
  function DigitsValue(s: string): (v: nat)
    requires AllDigits(s)
    ensures v < Pow10(|s|)
  {
    if |s| == 0 then 0
    else DigitsValue(s[..|s| - 1]) * 10 + DigitValue(s[|s| - 1])
  }

  /** `n` written with exactly `width` digits, zero-padded on the left
      (the `%04d` / `%02d` fields of `strftime`). */
  function Pad(n: nat, width: nat): (s: string)
    requires n < Pow10(width)
    ensures |s| == width && AllDigits(s)
    ensures DigitsValue(s) == n
  {
    if width == 0 then ""
    else
      var s := Pad(n / 10, width - 1) + [DigitChar(n % 10)];
      assert s[..|s| - 1] == Pad(n / 10, width - 1);
      s
  }

  /** Reading a digit string and padding the value back to the same width
      gives the original string. */
  lemma {:induction false} PadDigitsValue(s: string)
    requires AllDigits(s)
    ensures Pad(DigitsValue(s), |s|) == s
  {
    if |s| > 0 {
      var init := s[..|s| - 1];
      assert AllDigits(init);
      PadDigitsValue(init);
      var v := DigitsValue(s);
      assert v / 10 == DigitsValue(init);
      assert v % 10 == DigitValue(s[|s| - 1]);
      assert s == init + [s[|s| - 1]];
    }
  }

  lemma PadInjective(x: nat, y: nat, width: nat)
    requires x < Pow10(width) && y < Pow10(width)
    ensures Pad(x, width) == Pad(y, width) <==> x == y
  {
  }

  /** The decimal numeral of a natural number, without padding (`str(n)`). */
  function NatToString(n: nat): (s: string)
    ensures |s| >= 1 && AllDigits(s)
    ensures DigitsValue(s) == n
    ensures |s| > 1 ==> s[0] != '0'
  {
    if n < 10 then [DigitChar(n)]
    else
      var s := NatToString(n / 10) + [DigitChar(n % 10)];
      assert s[..|s| - 1] == NatToString(n / 10);
      s
  }

  /** Python's `<` on strings: code point by code point, a proper prefix
      ranking first. */
  predicate LexLess(a: string, b: string)
    decreases |a|
  {
    |b| > 0 && (|a| == 0 || a[0] < b[0] || (a[0] == b[0] && LexLess(a[1..], b[1..])))
  }

  lemma {:induction false} LexLessIrreflexive(a: string)
    ensures !LexLess(a, a)
    decreases |a|
  {
    if |a| > 0 {
      LexLessIrreflexive(a[1..]);
    }
  }

  /** Comparing two concatenations whose first parts have equal length
      compares the first parts, then the second parts. */
  lemma {:induction false} LexLessConcat(a: string, b: string, c: string, d: string)
    requires |a| == |c|
    ensures LexLess(a + b, c + d) <==> LexLess(a, c) || (a == c && LexLess(b, d))
    decreases |a|
  {
    if |a| == 0 {
      assert a + b == b && c + d == d;
    } else {
      assert (a + b)[0] == a[0] && (c + d)[0] == c[0];
      assert (a + b)[1..] == a[1..] + b && (c + d)[1..] == c[1..] + d;
      LexLessConcat(a[1..], b, c[1..], d);
      if a[0] == c[0] && a[1..] == c[1..] {
        assert a == c;
      }
      if a == c {
        assert a[1..] == c[1..];
      }
    }
  }

  /** On zero-padded numerals of one width, string order is numeric order. */
  lemma {:induction false} PadOrder(x: nat, y: nat, width: nat)
    requires x < Pow10(width) && y < Pow10(width)
    ensures LexLess(Pad(x, width), Pad(y, width)) <==> x < y
  {
    if width == 0 {
    } else {
      assert Pow10(width) == 10 * Pow10(width - 1);
      DivTenBound(x, Pow10(width - 1));
      DivTenBound(y, Pow10(width - 1));
      var hx, hy := Pad(x / 10, width - 1), Pad(y / 10, width - 1);
      var cx, cy := DigitChar(x % 10), DigitChar(y % 10);
      PadOrder(x / 10, y / 10, width - 1);
      PadInjective(x / 10, y / 10, width - 1);
      LexLessConcat(hx, [cx], hy, [cy]);
      assert LexLess([cx], [cy]) <==> x % 10 < y % 10 by {
        assert [cx][1..] == [] && [cy][1..] == [];
      }
      DecimalOrder(x, y);
      assert Pad(x, width) == hx + [cx] && Pad(y, width) == hy + [cy];
    }
  }

  lemma DivTenBound(x: nat, p: nat)
    requires x < 10 * p
    ensures x / 10 < p
  {
  }

  lemma DecimalOrder(x: nat, y: nat)
    ensures x < y <==> x / 10 < y / 10 || (x / 10 == y / 10 && x % 10 < y % 10)
  {
  }
}

=== FILE: topic_stats.dfy ===
/** `WeeklyTopicStatsAggregator` and `DailyTopicStatsAggregator`: articles
    are tallied per period (the Monday of their week, or the midnight of
    their day), then the tally is walked from the oldest period up to the
    period holding `now`, zero-filling the gaps, and reported newest first.
    The two classes differ only in the period length, so one model takes
    the period as a parameter. */
module TopicStats {
  import opened Wrappers
  import opened Text
  import opened Calendar
  import opened DateText
  import opened Model

  datatype Period = Weekly | Daily

  function Length(p: Period): (n: int)
    ensures n == SecondsPerWeek || n == SecondsPerDay
  {
    if p.Weekly? then SecondsPerWeek else SecondsPerDay
  }

  // ---------------------------------------------------------- period starts

  lemma DaysToWeeks(t: nat)
    ensures (t / SecondsPerDay) / 7 == t / SecondsPerWeek
    ensures t % SecondsPerWeek == (t / SecondsPerDay) % 7 * SecondsPerDay + t % SecondsPerDay
  {
    var d := t / SecondsPerDay;
    var s := t % SecondsPerDay;
    var w := d / 7;
    var r := d % 7;
    assert t == w * SecondsPerWeek + (r * SecondsPerDay + s);
    assert 0 <= r * SecondsPerDay + s < SecondsPerWeek;
  }

  /** `_GetMonday`: step back `weekday()` days, then truncate to midnight.
      The result is the Monday starting the week of `t`; since 0001-01-01
      is a Monday, weeks are aligned on multiples of seven days. */
  function MondayOf(t: Instant): (r: Instant)
    ensures r <= t < r + SecondsPerWeek
    ensures r % SecondsPerWeek == 0 && Weekday(r) == 0
  {
    DaysToWeeks(t);
    var back := t - Weekday(t) * SecondsPerDay;
    var r := StartOfDay(back);
    assert r == t - t % SecondsPerWeek;
    assert r / SecondsPerDay == (t / SecondsPerWeek) * 7;
    r
  }

  /** The key of the period holding `t`: its Monday, or its midnight
      (`_BeginningOfDay`). */
  function PeriodStart(p: Period, t: Instant): (r: Instant)
    ensures r <= t < r + Length(p) && r % Length(p) == 0
  {
    if p.Weekly? then MondayOf(t) else StartOfDay(t)
  }

  /** Distinct period-aligned instants are at least a period apart. */
  lemma AlignedGap(a: int, b: int, n: int)
    requires n > 0 && a % n == 0 && b % n == 0 && a < b
    ensures a + n <= b
  {
    var qa, qb := a / n, b / n;
    assert a == qa * n && b == qb * n;
    assert (qa + 1) * n == qa * n + n;
    MulMonotone(qa + 1, qb, n);
  }

  lemma AlignedEqual(a: int, b: int, n: int)
    requires n > 0 && a % n == 0 && b % n == 0 && a <= b < a + n
    ensures a == b
  {
    if a < b {
      AlignedGap(a, b, n);
    }
  }

  lemma AlignedStep(p: Period, a: int)
    ensures a % Length(p) == 0 ==> (a + Length(p)) % Length(p) == 0
  {
    if p.Weekly? {
      assert (a + SecondsPerWeek) % SecondsPerWeek == a % SecondsPerWeek;
    } else {
      assert (a + SecondsPerDay) % SecondsPerDay == a % SecondsPerDay;
    }
  }

  lemma MulMonotone(x: int, y: int, n: int)
    requires x <= y && n > 0
    ensures x * n <= y * n
  {
  }

  /** Exactly the instants in `[k, k + Length(p))` fall in the period `k`. */
  lemma PeriodStartIs(p: Period, t: Instant, k: int)
    requires k % Length(p) == 0
    ensures PeriodStart(p, t) == k <==> k <= t < k + Length(p)
  {
    var s := PeriodStart(p, t);
    if k <= t < k + Length(p) {
      if s <= k {
        AlignedEqual(s, k, Length(p));
      } else {
        AlignedEqual(k, s, Length(p));
      }
    }
  }

  /** An aligned instant not after `t` is not after `t`'s period start. */
  lemma AlignedBelow(p: Period, k: int, t: Instant)
    requires k % Length(p) == 0 && k <= t
    ensures k <= PeriodStart(p, t)
  {
    var s := PeriodStart(p, t);
    if s < k {
      AlignedEqual(s, k, Length(p));
    }
  }

  // ------------------------------------------------------ labels and errors

  /** 1900-01-01T00:00:00, the earliest time `strftime` formats. */
  const NewYear1900: Instant := 693595 * SecondsPerDay

  /** The instants before `NewYear1900` are exactly those of years before 1900. */
  lemma Before1900(t: Instant)
    ensures t < NewYear1900 <==> FromInstant(t).date.year < 1900
  {
    var ny := DateTime(Date(1900, 1, 1), 0, 0, 0);
    assert ValidDateTime(ny) && ToInstant(ny) == NewYear1900;
    var dt := FromInstant(t);
    if dt.date.year < 1900 {
      ToInstantMonotone(dt, ny);
    } else if dt != ny {
      assert DateTimeBefore(ny, dt);
      ToInstantMonotone(ny, dt);
    }
  }

  datatype StatsError = TopicNotFound(id: Key) | NoArticles | YearBefore1900 | DateOverflow

  /** Building the `from` and `to` strings of the period starting at `k`:
      `strftime` refuses years before 1900, and the end of the period
      (start plus one period, minus a second) overflows past 9999. */
  function LabelError(p: Period, k: Instant): Option<StatsError> {
    if k < NewYear1900 then Some(YearBefore1900)
    else if k + Length(p) > MaxInstant then Some(DateOverflow)
    else None
  }

  predicate Labelable(p: Period, k: Instant) {
    LabelError(p, k).None?
  }

  // ---------------------------------------------------------------- tallying

  /** The aggregator's state: article count per period key (the dictionary
      of buckets) and the oldest key seen. */
  datatype Tally = Tally(counts: map<Instant, nat>, oldest: Option<Instant>)

  const EmptyTally: Tally := Tally(map[], None)

  function Count(m: map<Instant, nat>, k: Instant): nat {
    if k in m then m[k] else 0
  }

  /** The keys are labelled period starts, and `oldest` is the least key
      (absent exactly when there are none). */
  predicate Consistent(p: Period, t: Tally) {
    && (forall k :: k in t.counts ==> Labelable(p, k) && k % Length(p) == 0)
    && (t.oldest.None? <==> t.counts == map[])
    && (t.oldest.Some? ==> t.oldest.value in t.counts)
    && (t.oldest.Some? ==> forall k :: k in t.counts ==> t.oldest.value <= k)
  }

  /** `AddArticle`: count the article in its period, creating the bucket
      (and its labels) on the period's first article. */
  function AddArticle(p: Period, tally: Tally, t: Instant): (r: Result<Tally, StatsError>)
    ensures r.Failure? <==> PeriodStart(p, t) !in tally.counts && !Labelable(p, PeriodStart(p, t))
    ensures r.Failure? ==> r.error == LabelError(p, PeriodStart(p, t)).value
    ensures r.Success? ==> Count(r.value.counts, PeriodStart(p, t)) == Count(tally.counts, PeriodStart(p, t)) + 1
    ensures r.Success? ==> forall k :: k != PeriodStart(p, t) ==> Count(r.value.counts, k) == Count(tally.counts, k)
    ensures r.Success? ==> forall k :: k in r.value.counts <==> k in tally.counts || k == PeriodStart(p, t)
    ensures r.Success? ==> r.value.oldest.Some? && r.value.oldest.value <= PeriodStart(p, t)
    ensures r.Success? && tally.oldest.Some? ==> r.value.oldest.value <= tally.oldest.value
    ensures r.Success? ==> r.value.oldest == tally.oldest || r.value.oldest == Some(PeriodStart(p, t))
    ensures r.Success? && Consistent(p, tally) ==> Consistent(p, r.value)
  {
    var k := PeriodStart(p, t);
    var oldest := if tally.oldest.None? || k < tally.oldest.value then Some(k) else tally.oldest;
    if k in tally.counts then Success(Tally(tally.counts[k := tally.counts[k] + 1], oldest))
    else match LabelError(p, k)
      case Some(e) => Failure(e)
      case None => Success(Tally(tally.counts[k := 1], oldest))
  }

  /** The `for article in articles: s.AddArticle(article)` loop. */
  function AddAll(p: Period, tally: Tally, articles: seq<Article>): (r: Result<Tally, StatsError>)
    ensures r.Failure? ==> r.error == YearBefore1900 || r.error == DateOverflow
    decreases |articles|
  {
    if |articles| == 0 then Success(tally)
    else match AddArticle(p, tally, articles[0].updated)
      case Failure(e) => Failure(e)
      case Success(next) => AddAll(p, next, articles[1..])
  }

  /** The number of articles whose period starts at `k`. */
  function CountKey(p: Period, articles: seq<Article>, k: Instant): nat {
    if |articles| == 0 then 0
    else (if PeriodStart(p, articles[0].updated) == k then 1 else 0) + CountKey(p, articles[1..], k)
  }

  /** The number of articles updated in `[lo, hi)`. */
  function CountIn(articles: seq<Article>, lo: int, hi: int): nat {
    if |articles| == 0 then 0
    else (if lo <= articles[0].updated < hi then 1 else 0) + CountIn(articles[1..], lo, hi)
  }

  /** The tally fails exactly when some article's period is new and cannot
      be labelled. */
  lemma {:induction false} AddAllSucceeds(p: Period, tally: Tally, articles: seq<Article>)
    ensures AddAll(p, tally, articles).Success? <==>
      forall i :: 0 <= i < |articles| ==>
        PeriodStart(p, articles[i].updated) in tally.counts || Labelable(p, PeriodStart(p, articles[i].updated))
    decreases |articles|
  {
    if |articles| > 0 {
      var k0 := PeriodStart(p, articles[0].updated);
      var step := AddArticle(p, tally, articles[0].updated);
      if step.Success? {
        var rest := articles[1..];
        AddAllSucceeds(p, step.value, rest);
        assert forall i :: 1 <= i < |articles| ==> articles[i] == rest[i - 1];
        if forall i :: 0 <= i < |rest| ==>
             PeriodStart(p, rest[i].updated) in step.value.counts || Labelable(p, PeriodStart(p, rest[i].updated)) {
          forall i | 0 <= i < |articles|
            ensures PeriodStart(p, articles[i].updated) in tally.counts || Labelable(p, PeriodStart(p, articles[i].updated))
          {
            if i > 0 {
              assert articles[i] == rest[i - 1];
            }
          }
        }
      }
    }
  }

  /** Each key ends up counting the articles of its period. */
  lemma {:induction false} AddAllCounts(p: Period, tally: Tally, articles: seq<Article>, k: Instant)
    requires AddAll(p, tally, articles).Success?
    ensures Count(AddAll(p, tally, articles).value.counts, k) == Count(tally.counts, k) + CountKey(p, articles, k)
    decreases |articles|
  {
    if |articles| > 0 {
      AddAllCounts(p, AddArticle(p, tally, articles[0].updated).value, articles[1..], k);
    }
  }

  /** The oldest key is the least period start among the articles (and
      the previous oldest), and is one of them. */
  lemma {:induction false} AddAllOldest(p: Period, tally: Tally, articles: seq<Article>)
    requires AddAll(p, tally, articles).Success?
    ensures var r := AddAll(p, tally, articles).value;
      && (r.oldest.Some? <==> tally.oldest.Some? || |articles| > 0)
      && (r.oldest.Some? ==> forall i :: 0 <= i < |articles| ==> r.oldest.value <= PeriodStart(p, articles[i].updated))
      && (r.oldest.Some? && tally.oldest.Some? ==> r.oldest.value <= tally.oldest.value)
      && (r.oldest == tally.oldest
          || exists i :: 0 <= i < |articles| && r.oldest == Some(PeriodStart(p, articles[i].updated)))
    decreases |articles|
  {
    if |articles| > 0 {
      var next := AddArticle(p, tally, articles[0].updated).value;
      var rest := articles[1..];
      AddAllOldest(p, next, rest);
      var r := AddAll(p, tally, articles).value;
      assert r == AddAll(p, next, rest).value;
      forall i | 0 <= i < |articles| ensures r.oldest.value <= PeriodStart(p, articles[i].updated) {
        if i > 0 {
          assert articles[i] == rest[i - 1];
        }
      }
      if r.oldest != next.oldest {
        var i :| 0 <= i < |rest| && r.oldest == Some(PeriodStart(p, rest[i].updated));
        assert rest[i] == articles[i + 1];
      } else if next.oldest != tally.oldest {
        assert next.oldest == Some(PeriodStart(p, articles[0].updated));
      }
    }
  }

  lemma {:induction false} AddAllConsistent(p: Period, tally: Tally, articles: seq<Article>)
    requires Consistent(p, tally) && AddAll(p, tally, articles).Success?
    ensures Consistent(p, AddAll(p, tally, articles).value)
    decreases |articles|
  {
    if |articles| > 0 {
      AddAllConsistent(p, AddArticle(p, tally, articles[0].updated).value, articles[1..]);
    }
  }

  /** A key counts the articles updated inside its period. */
  lemma {:induction false} CountKeyIsCountIn(p: Period, articles: seq<Article>, k: Instant)
    requires k % Length(p) == 0
    ensures CountKey(p, articles, k) == CountIn(articles, k, k + Length(p))
  {
    if |articles| > 0 {
      PeriodStartIs(p, articles[0].updated, k);
      CountKeyIsCountIn(p, articles[1..], k);
    }
  }

  // ------------------------------------------------------------ reporting

  /** One bucket of the report before formatting: its article count and
      the first and last second of its period. */
  datatype Bucket = Bucket(count: nat, first: Instant, last: Instant)

  /** One reported bucket as `ToDict` returns it: the count and the two
      period bounds formatted `%Y-%m-%dT%H:%M:%S`. */
  datatype BucketView = BucketView(count: nat, from: string, to: string)

  /** The `while True` loop of `ToDict`: the period keys from `current` on,
      one period at a time, stopping after the period holding `now` (at
      least one key). A missing bucket is labelled afresh, and stepping
      past the last representable instant overflows. */
  function Walk(p: Period, counts: map<Instant, nat>, current: Instant, now: Instant)
    : (r: Result<seq<Instant>, StatsError>)
    ensures r.Failure? ==> r.error == YearBefore1900 || r.error == DateOverflow
    ensures r.Success? ==> |r.value| >= 1 && r.value[0] == current
    ensures r.Success? ==> forall i :: 0 <= i < |r.value| ==> r.value[i] + Length(p) <= MaxInstant
    decreases MaxInstant - current
  {
    if current !in counts && LabelError(p, current).Some? then Failure(LabelError(p, current).value)
    else if current + Length(p) > MaxInstant then Failure(DateOverflow)
    else if current + Length(p) > now then Success([current])
    else match Walk(p, counts, current + Length(p), now)
      case Failure(e) => Failure(e)
      case Success(rest) => Success([current] + rest)
  }

  /** The walk steps one period at a time, ends on the period holding
      `now` (or on its start when that is already later), and stays
      aligned when it starts aligned. */
  lemma {:induction false} WalkShape(p: Period, counts: map<Instant, nat>, current: Instant, now: Instant)
    requires Walk(p, counts, current, now).Success?
    ensures var w := Walk(p, counts, current, now).value;
      && (forall i :: 0 <= i < |w| - 1 ==> w[i + 1] == w[i] + Length(p))
      && now < w[|w| - 1] + Length(p)
      && (forall i :: 1 <= i < |w| ==> w[i] <= now)
      && (current % Length(p) == 0 ==> forall i :: 0 <= i < |w| ==> w[i] % Length(p) == 0)
    decreases MaxInstant - current
  {
    var w := Walk(p, counts, current, now).value;
    if current + Length(p) <= now {
      var next := current + Length(p);
      WalkShape(p, counts, next, now);
      var rest := Walk(p, counts, next, now).value;
      assert w == [current] + rest;
      AlignedStep(p, current);
      forall i | 1 <= i < |w| ensures w[i] == rest[i - 1] {
      }
    }
  }

  /** `_EndOfWeek` / `_EndOfDay`: the last second of the period `k`. */
  function PeriodEnd(p: Period, k: Instant): (e: Instant)
    requires k + Length(p) <= MaxInstant
    ensures k < e && e + 1 == k + Length(p)
  {
    k + Length(p) - 1
  }

  /** The walked keys, latest first. */
  function Reverse(keys: seq<Instant>): (r: seq<Instant>)
    ensures |r| == |keys|
    ensures forall i :: 0 <= i < |keys| ==> r[i] == keys[|keys| - 1 - i]
  {
    seq(|keys|, i requires 0 <= i < |keys| => keys[|keys| - 1 - i])
  }

  /** The buckets of `keys`, in the same order. */
  function Labels(p: Period, counts: map<Instant, nat>, keys: seq<Instant>): (r: seq<Bucket>)
    requires forall i :: 0 <= i < |keys| ==> keys[i] + Length(p) <= MaxInstant
    ensures |r| == |keys|
    ensures forall i :: 0 <= i < |keys| ==> r[i].first == keys[i] && r[i].count == Count(counts, keys[i])
    ensures forall i :: 0 <= i < |keys| ==> r[i].last + 1 == keys[i] + Length(p)
  {
    seq(|keys|, i requires 0 <= i < |keys| => Bucket(Count(counts, keys[i]), keys[i], PeriodEnd(p, keys[i])))
  }

  /** The buckets of the walked keys, newest first; `NewestFirstOrder`
      shows this is the order `sorted(..., key='to', reverse=True)` gives. */
  function NewestFirst(p: Period, counts: map<Instant, nat>, keys: seq<Instant>): (r: seq<Bucket>)
    requires forall i :: 0 <= i < |keys| ==> keys[i] + Length(p) <= MaxInstant
    ensures |r| == |keys|
  {
    var latest := Reverse(keys);
    assert forall i :: 0 <= i < |latest| ==> latest[i] + Length(p) <= MaxInstant by {
      forall i | 0 <= i < |latest| ensures latest[i] + Length(p) <= MaxInstant {
        assert latest[i] == keys[|keys| - 1 - i];
      }
    }
    Labels(p, counts, latest)
  }

  /** The report `ToDict` promises, newest first: whole periods, one
      period apart with no gap, the last one starting at `oldest`, and the
      first one holding `now` (or, alone, starting after it). */
  predicate Spans(p: Period, oldest: Instant, now: Instant, bs: seq<Bucket>) {
    && |bs| >= 1
    && bs[|bs| - 1].first == oldest
    && (forall i :: 0 <= i < |bs| - 1 ==> bs[i].first == bs[i + 1].first + Length(p))
    && (forall i :: 0 <= i < |bs| ==> bs[i].last + 1 == bs[i].first + Length(p))
    && now <= bs[0].last
    && (|bs| > 1 ==> bs[0].first <= now)
  }

  /** Every bucket carries its period's tallied count, zero when the
      period has no bucket yet. */
  predicate Counted(counts: map<Instant, nat>, bs: seq<Bucket>) {
    forall i :: 0 <= i < |bs| ==> bs[i].count == Count(counts, bs[i].first)
  }

  /** The walk from `oldest`, reported newest first, has the promised shape. */
  lemma NewestFirstSpans(p: Period, counts: map<Instant, nat>, oldest: Instant, now: Instant)
    ensures Walk(p, counts, oldest, now).Success? ==>
      var bs := NewestFirst(p, counts, Walk(p, counts, oldest, now).value);
      Spans(p, oldest, now, bs) && Counted(counts, bs)
  {
    if Walk(p, counts, oldest, now).Success? {
      WalkShape(p, counts, oldest, now);
      KeysSpans(p, counts, oldest, now, Walk(p, counts, oldest, now).value);
    }
  }

  /** Keys shaped like a walk give buckets shaped like a report. */
  lemma KeysSpans(p: Period, counts: map<Instant, nat>, oldest: Instant, now: Instant, keys: seq<Instant>)
    requires |keys| >= 1 && keys[0] == oldest
    requires forall i :: 0 <= i < |keys| ==> keys[i] + Length(p) <= MaxInstant
    requires forall i :: 0 <= i < |keys| - 1 ==> keys[i + 1] == keys[i] + Length(p)
    requires now < keys[|keys| - 1] + Length(p)
    requires forall i :: 1 <= i < |keys| ==> keys[i] <= now
    ensures Spans(p, oldest, now, NewestFirst(p, counts, keys)) && Counted(counts, NewestFirst(p, counts, keys))
  {
    var bs := NewestFirst(p, counts, keys);
    var latest := Reverse(keys);
    var n := |keys|;
    assert bs == Labels(p, counts, latest);
    assert latest[n - 1] == keys[0] && latest[0] == keys[n - 1];
    forall i | 0 <= i < n - 1 ensures bs[i].first == bs[i + 1].first + Length(p) {
      assert latest[i] == keys[n - 1 - i] && latest[i + 1] == keys[n - 2 - i];
    }
  }

  /** With a tally, the report `ToDict` formats has the promised shape
      and the tallied counts. */
  lemma PeriodsSpans(p: Period, tally: Tally, now: Instant)
    ensures Periods(p, tally, now).Success? ==>
      tally.oldest.Some? && Spans(p, tally.oldest.value, now, Periods(p, tally, now).value)
      && Counted(tally.counts, Periods(p, tally, now).value)
  {
    if tally.oldest.Some? {
      NewestFirstSpans(p, tally.counts, tally.oldest.value, now);
    }
  }

  /** `ToDict` up to formatting: with no article there is no oldest key
      and the source fails on it; otherwise the buckets of the walk,
      newest first. */
  function Periods(p: Period, tally: Tally, now: Instant): (r: Result<seq<Bucket>, StatsError>)
    ensures tally.oldest.None? ==> r == Failure(NoArticles)
    ensures r.Success? ==> |r.value| >= 1
  {
    match tally.oldest
    case None => Failure(NoArticles)
    case Some(o) =>
      match Walk(p, tally.counts, o, now)
      case Failure(e) => Failure(e)
      case Success(keys) => Success(NewestFirst(p, tally.counts, keys))
  }

  /** The bucket `k` places from the oldest starts `k` periods after it. */
  lemma {:induction false} SpansFrom(p: Period, oldest: Instant, now: Instant, bs: seq<Bucket>, k: nat)
    requires Spans(p, oldest, now, bs) && k < |bs|
    ensures bs[|bs| - 1 - k].first == oldest + k * Length(p)
  {
    if k > 0 {
      SpansFrom(p, oldest, now, bs, k - 1);
      assert (k - 1) * Length(p) + Length(p) == k * Length(p);
    }
  }

  /** The shape pins the report down: two reports of it from the same
      oldest period and `now` have the same periods. */
  lemma SpansUnique(p: Period, oldest: Instant, now: Instant, a: seq<Bucket>, b: seq<Bucket>)
    requires Spans(p, oldest, now, a) && Spans(p, oldest, now, b)
    ensures |a| == |b|
    ensures forall i :: 0 <= i < |a| ==> a[i].first == b[i].first && a[i].last == b[i].last
  {
    SpansNotShorter(p, oldest, now, a, b);
    SpansNotShorter(p, oldest, now, b, a);
    forall i | 0 <= i < |a| ensures a[i].first == b[i].first {
      SpansFrom(p, oldest, now, a, |a| - 1 - i);
      SpansFrom(p, oldest, now, b, |a| - 1 - i);
    }
  }

  /** A longer report would start its newest period after `now`. */
  lemma SpansNotShorter(p: Period, oldest: Instant, now: Instant, a: seq<Bucket>, b: seq<Bucket>)
    requires Spans(p, oldest, now, a) && Spans(p, oldest, now, b)
    ensures |b| <= |a|
  {
    SpansFrom(p, oldest, now, a, |a| - 1);
    SpansFrom(p, oldest, now, b, |b| - 1);
    if |a| < |b| {
      MulMonotone(|a|, |b| - 1, Length(p));
    }
  }

  /** The dictionary `ToDict` builds for one bucket. */
  function Render(b: Bucket): BucketView {
    BucketView(b.count, Format(b.first), Format(b.last))
  }

  function RenderAll(bs: seq<Bucket>): (r: seq<BucketView>)
    ensures |r| == |bs| && forall i :: 0 <= i < |bs| ==> r[i] == Render(bs[i])
  {
    seq(|bs|, i requires 0 <= i < |bs| => Render(bs[i]))
  }

  /** `ToDict`. */
  function ToDict(p: Period, tally: Tally, now: Instant): (r: Result<seq<BucketView>, StatsError>)
    ensures r.Success? <==> Periods(p, tally, now).Success?
    ensures r.Success? ==> r.value == RenderAll(Periods(p, tally, now).value)
    ensures tally.oldest.None? ==> r == Failure(NoArticles)
    ensures r.Success? ==> tally.oldest.Some?
    ensures r.Success? ==> exists bs :: Spans(p, tally.oldest.value, now, bs) && Counted(tally.counts, bs) && r.value == RenderAll(bs)
  {
    PeriodsSpans(p, tally, now);
    match Periods(p, tally, now)
    case Failure(e) => Failure(e)
    case Success(bs) => Success(RenderAll(bs))
  }

  /** A fresh aggregator fed every article, with its buckets before
      formatting. */
  function Buckets(p: Period, articles: seq<Article>, now: Instant): (r: Result<seq<Bucket>, StatsError>)
    ensures |articles| == 0 ==> r == Failure(NoArticles)
    ensures r.Failure? ==> !r.error.TopicNotFound?
  {
    match AddAll(p, EmptyTally, articles)
    case Failure(e) => Failure(e)
    case Success(t) => Periods(p, t, now)
  }

  /** `o` is the period of the oldest article. */
  predicate OldestPeriod(p: Period, articles: seq<Article>, o: Instant) {
    && (exists i :: 0 <= i < |articles| && o == PeriodStart(p, articles[i].updated))
    && (forall i :: 0 <= i < |articles| ==> o <= PeriodStart(p, articles[i].updated))
  }

  /** Every bucket counts the articles updated inside its period. */
  predicate CountsArticles(articles: seq<Article>, bs: seq<Bucket>) {
    forall i :: 0 <= i < |bs| ==> bs[i].count == CountIn(articles, bs[i].first, bs[i].last + 1)
  }

  /** A successful report, before formatting, runs from the oldest
      article's period to the period holding `now` and counts the
      articles of each period. */
  lemma BucketsReport(p: Period, articles: seq<Article>, now: Instant)
    ensures Buckets(p, articles, now).Success? ==>
      var bs := Buckets(p, articles, now).value;
      && |bs| >= 1
      && OldestPeriod(p, articles, bs[|bs| - 1].first)
      && Spans(p, bs[|bs| - 1].first, now, bs)
      && CountsArticles(articles, bs)
  {
    if Buckets(p, articles, now).Success? {
      var t := AddAll(p, EmptyTally, articles).value;
      PeriodsSpans(p, t, now);
      BucketsSpan(p, articles, now);
      BucketsArePeriods(p, articles, now);
    }
  }

  /** A fresh aggregator fed every article, then asked for `ToDict`. */
  function Aggregate(p: Period, articles: seq<Article>, now: Instant): (r: Result<seq<BucketView>, StatsError>)
    ensures r.Success? <==> Buckets(p, articles, now).Success?
    ensures r.Success? ==> r.value == RenderAll(Buckets(p, articles, now).value)
    ensures r.Failure? ==> r.error == Buckets(p, articles, now).error
    ensures r.Success? ==> exists o, bs ::
      OldestPeriod(p, articles, o) && Spans(p, o, now, bs) && CountsArticles(articles, bs) && r.value == RenderAll(bs)
  {
    BucketsReport(p, articles, now);
    match AddAll(p, EmptyTally, articles)
    case Failure(e) => Failure(e)
    case Success(t) => ToDict(p, t, now)
  }

  /** `GetWeeklyTopicStats` (`Weekly`) and `GetDailyTopicStats` (`Daily`):
      an unknown topic fails; otherwise the aggregate of the topic's
      articles. */
  function GetTopicStats(p: Period, topics: seq<Topic>, store: seq<Article>, id: Key, now: Instant)
    : (r: Result<seq<BucketView>, StatsError>)
    ensures (forall t :: t in topics ==> t.key != id) <==> r == Failure(TopicNotFound(id))
    ensures r.Success? ==> r == Aggregate(p, SelectByTopic(store, id), now)
  {
    match TopicById(topics, id)
    case None => Failure(TopicNotFound(id))
    case Some(_) => Aggregate(p, SelectByTopic(store, id), now)
  }

  // ------------------------------------------------------- report properties

  lemma {:induction false} WalkIncreasing(keys: seq<Instant>, n: int, i: int, j: int)
    requires n > 0 && forall m :: 0 <= m < |keys| - 1 ==> keys[m + 1] == keys[m] + n
    requires 0 <= i < j < |keys|
    ensures keys[i] < keys[j]
    decreases j - i
  {
    if j > i + 1 {
      WalkIncreasing(keys, n, i, j - 1);
    }
  }

  /** The walk gets through when it starts on a printable period and the
      period holding `now` still has a representable end. */
  lemma WalkSucceeds(p: Period, counts: map<Instant, nat>, current: Instant, now: Instant)
    requires NewYear1900 <= current && current % Length(p) == 0 && current + Length(p) <= MaxInstant
    requires PeriodStart(p, now) + Length(p) <= MaxInstant
    ensures Walk(p, counts, current, now).Success?
    decreases MaxInstant - current
  {
    if current + Length(p) <= now {
      AlignedStep(p, current);
      AlignedBelow(p, current + Length(p), now);
      WalkSucceeds(p, counts, current + Length(p), now);
    }
  }

  /** A report exists exactly when there are articles, every article's
      period is printable, and the period holding `now` (unless every
      article is later than `now`) has a representable end. */
  lemma AggregateSucceeds(p: Period, articles: seq<Article>, now: Instant)
    ensures Aggregate(p, articles, now).Success? <==>
      && |articles| > 0
      && (forall i :: 0 <= i < |articles| ==> Labelable(p, PeriodStart(p, articles[i].updated)))
      && (PeriodStart(p, now) + Length(p) <= MaxInstant
          || forall i :: 0 <= i < |articles| ==> now < PeriodStart(p, articles[i].updated))
  {
    BucketsSucceed(p, articles, now);
  }

  lemma BucketsSucceed(p: Period, articles: seq<Article>, now: Instant)
    ensures Buckets(p, articles, now).Success? <==>
      && |articles| > 0
      && (forall i :: 0 <= i < |articles| ==> Labelable(p, PeriodStart(p, articles[i].updated)))
      && (PeriodStart(p, now) + Length(p) <= MaxInstant
          || forall i :: 0 <= i < |articles| ==> now < PeriodStart(p, articles[i].updated))
  {
    AddAllSucceeds(p, EmptyTally, articles);
    var tallied := AddAll(p, EmptyTally, articles);
    if tallied.Success? {
      var t := tallied.value;
      AddAllOldest(p, EmptyTally, articles);
      AddAllConsistent(p, EmptyTally, articles);
      if |articles| > 0 {
        var o := t.oldest.value;
        assert Labelable(p, o) && o % Length(p) == 0;
        if PeriodStart(p, now) + Length(p) <= MaxInstant {
          WalkSucceeds(p, t.counts, o, now);
        }
        var w := Walk(p, t.counts, o, now);
        if w.Success? && o <= now {
          WalkShape(p, t.counts, o, now);
          var last := w.value[|w.value| - 1];
          var s := PeriodStart(p, now);
          if last < s {
            AlignedGap(last, s, Length(p));
          }
        }
        if o <= now {
          var i :| 0 <= i < |articles| && t.oldest == Some(PeriodStart(p, articles[i].updated));
        }
      }
    }
  }

  /** The tally and the walk behind a successful report. */
  lemma ReportParts(p: Period, articles: seq<Article>, now: Instant)
    returns (t: Tally, keys: seq<Instant>)
    requires Buckets(p, articles, now).Success?
    ensures AddAll(p, EmptyTally, articles) == Success(t) && Consistent(p, t) && t.oldest.Some?
    ensures Walk(p, t.counts, t.oldest.value, now) == Success(keys)
    ensures Buckets(p, articles, now).value == Labels(p, t.counts, Reverse(keys))
    ensures forall i :: 0 <= i < |keys| ==> keys[i] % Length(p) == 0
    ensures forall i :: 0 <= i < |keys| - 1 ==> keys[i + 1] == keys[i] + Length(p)
    ensures now < keys[|keys| - 1] + Length(p)
    ensures forall i :: 1 <= i < |keys| ==> keys[i] <= now
  {
    t := AddAll(p, EmptyTally, articles).value;
    AddAllConsistent(p, EmptyTally, articles);
    keys := Walk(p, t.counts, t.oldest.value, now).value;
    WalkShape(p, t.counts, t.oldest.value, now);
  }

  /** A tallied aligned key counts the articles of its period. */
  lemma BucketCount(p: Period, articles: seq<Article>, t: Tally, k: Instant)
    requires AddAll(p, EmptyTally, articles) == Success(t) && k % Length(p) == 0
    ensures Count(t.counts, k) == CountIn(articles, k, k + Length(p))
  {
    AddAllCounts(p, EmptyTally, articles, k);
    CountKeyIsCountIn(p, articles, k);
  }

  /** Every bucket is one whole period, aligned on a Monday or a midnight,
      and counts exactly the articles updated inside it. */
  lemma BucketsArePeriods(p: Period, articles: seq<Article>, now: Instant)
    requires Buckets(p, articles, now).Success?
    ensures var r := Buckets(p, articles, now).value;
      forall i :: 0 <= i < |r| ==>
        && r[i].first % Length(p) == 0
        && r[i].last == r[i].first + Length(p) - 1
        && r[i].count == CountIn(articles, r[i].first, r[i].last + 1)
  {
    var t, keys := ReportParts(p, articles, now);
    LabelsArePeriods(p, articles, t, keys);
  }

  lemma LabelsArePeriods(p: Period, articles: seq<Article>, t: Tally, keys: seq<Instant>)
    requires AddAll(p, EmptyTally, articles) == Success(t)
    requires forall m :: 0 <= m < |keys| ==> keys[m] % Length(p) == 0 && keys[m] + Length(p) <= MaxInstant
    ensures forall m :: 0 <= m < |Reverse(keys)| ==> Reverse(keys)[m] + Length(p) <= MaxInstant
    ensures var r := Labels(p, t.counts, Reverse(keys));
      forall i :: 0 <= i < |r| ==>
        && r[i].first % Length(p) == 0
        && r[i].last == r[i].first + Length(p) - 1
        && r[i].count == CountIn(articles, r[i].first, r[i].last + 1)
  {
    var latest := Reverse(keys);
    forall i | 0 <= i < |latest|
      ensures latest[i] % Length(p) == 0 && latest[i] + Length(p) <= MaxInstant
      ensures Count(t.counts, latest[i]) == CountIn(articles, latest[i], latest[i] + Length(p))
    {
      assert latest[i] == keys[|keys| - 1 - i];
      BucketCount(p, articles, t, latest[i]);
    }
  }

  /** Consecutive buckets are consecutive periods, newest first: no gap,
      no overlap. */
  lemma BucketsContiguous(p: Period, articles: seq<Article>, now: Instant)
    requires Buckets(p, articles, now).Success?
    ensures var r := Buckets(p, articles, now).value;
      forall i :: 0 <= i < |r| - 1 ==> r[i].first == r[i + 1].last + 1
  {
    var t, keys := ReportParts(p, articles, now);
    var r := Buckets(p, articles, now).value;
    forall i | 0 <= i < |r| - 1 ensures r[i].first == r[i + 1].last + 1 {
      assert r[i].first == keys[|keys| - 1 - i] && r[i + 1].first == keys[|keys| - 2 - i];
    }
  }

  /** The oldest bucket is the period of the oldest article; the newest
      bucket holds `now`, or starts after it when it is the only one. */
  lemma BucketsSpan(p: Period, articles: seq<Article>, now: Instant)
    requires Buckets(p, articles, now).Success?
    ensures var r := Buckets(p, articles, now).value;
      && (exists i :: 0 <= i < |articles| && r[|r| - 1].first == PeriodStart(p, articles[i].updated))
      && (forall i :: 0 <= i < |articles| ==> r[|r| - 1].first <= PeriodStart(p, articles[i].updated))
      && now <= r[0].last
      && (|r| > 1 ==> r[0].first <= now)
  {
    var t, keys := ReportParts(p, articles, now);
    AddAllOldest(p, EmptyTally, articles);
    var r := Buckets(p, articles, now).value;
    assert r[|r| - 1].first == keys[0] && r[0].first == keys[|keys| - 1];
  }

  /** With every article at or before `now`, the bucket counts add up to
      the number of articles. */
  lemma BucketsTotal(p: Period, articles: seq<Article>, now: Instant)
    requires Buckets(p, articles, now).Success?
    requires forall i :: 0 <= i < |articles| ==> articles[i].updated <= now
    ensures TotalCount(Buckets(p, articles, now).value) == |articles|
  {
    var t, keys := ReportParts(p, articles, now);
    KeysHoldArticles(p, articles, now, t, keys);
    KeysCount(p, articles, t, keys);
    KeysCoverAll(articles, t.counts, keys, Length(p));
  }

  lemma KeysHoldArticles(p: Period, articles: seq<Article>, now: Instant, t: Tally, keys: seq<Instant>)
    requires forall i :: 0 <= i < |articles| ==> articles[i].updated <= now
    requires AddAll(p, EmptyTally, articles) == Success(t) && t.oldest.Some?
    requires |keys| >= 1 && keys[0] == t.oldest.value && now < keys[|keys| - 1] + Length(p)
    ensures forall i :: 0 <= i < |articles| ==> keys[0] <= articles[i].updated < keys[|keys| - 1] + Length(p)
  {
    AddAllOldest(p, EmptyTally, articles);
    forall i | 0 <= i < |articles| ensures keys[0] <= articles[i].updated {
      assert keys[0] <= PeriodStart(p, articles[i].updated);
    }
  }

  lemma KeysCount(p: Period, articles: seq<Article>, t: Tally, keys: seq<Instant>)
    requires AddAll(p, EmptyTally, articles) == Success(t)
    requires forall m :: 0 <= m < |keys| ==> keys[m] % Length(p) == 0
    ensures forall m :: 0 <= m < |keys| ==> Count(t.counts, keys[m]) == CountIn(articles, keys[m], keys[m] + Length(p))
  {
    forall m | 0 <= m < |keys| ensures Count(t.counts, keys[m]) == CountIn(articles, keys[m], keys[m] + Length(p)) {
      BucketCount(p, articles, t, keys[m]);
    }
  }

  /** The sum of the bucket counts. */
  function TotalCount(r: seq<Bucket>): nat {
    if |r| == 0 then 0 else r[0].count + TotalCount(r[1..])
  }

  /** The sum of the counts of `keys`. */
  function KeySum(counts: map<Instant, nat>, keys: seq<Instant>): nat {
    if |keys| == 0 then 0 else Count(counts, keys[0]) + KeySum(counts, keys[1..])
  }

  /** The counts over a run of consecutive periods that holds every article
      add up to the number of articles. */
  lemma KeysCoverAll(articles: seq<Article>, counts: map<Instant, nat>, keys: seq<Instant>, n: int)
    requires |keys| >= 1 && n > 0
    requires forall m :: 0 <= m < |keys| - 1 ==> keys[m + 1] == keys[m] + n
    requires forall m :: 0 <= m < |keys| ==> keys[m] + n <= MaxInstant
    requires forall m :: 0 <= m < |keys| ==> Count(counts, keys[m]) == CountIn(articles, keys[m], keys[m] + n)
    requires forall i :: 0 <= i < |articles| ==> keys[0] <= articles[i].updated < keys[|keys| - 1] + n
    ensures forall p: Period :: Length(p) == n ==> TotalCount(Labels(p, counts, Reverse(keys))) == |articles|
  {
    forall p: Period | Length(p) == n ensures TotalCount(Labels(p, counts, Reverse(keys))) == |articles| {
      var latest := Reverse(keys);
      forall i | 0 <= i < |latest| ensures latest[i] + n <= MaxInstant {
        assert latest[i] == keys[|keys| - 1 - i];
      }
      TotalCounts(Labels(p, counts, latest), counts, latest);
      KeySumReverse(counts, keys);
      KeySumWindows(articles, counts, keys, n);
      CountInAll(articles, keys[0], keys[|keys| - 1] + n);
    }
  }

  lemma {:induction false} TotalCounts(r: seq<Bucket>, counts: map<Instant, nat>, keys: seq<Instant>)
    requires |r| == |keys| && forall i :: 0 <= i < |r| ==> r[i].count == Count(counts, keys[i])
    ensures TotalCount(r) == KeySum(counts, keys)
  {
    if |r| > 0 {
      TotalCounts(r[1..], counts, keys[1..]);
    }
  }

  lemma {:induction false} KeySumAppend(counts: map<Instant, nat>, a: seq<Instant>, b: seq<Instant>)
    ensures KeySum(counts, a + b) == KeySum(counts, a) + KeySum(counts, b)
  {
    if |a| > 0 {
      KeySumAppend(counts, a[1..], b);
      assert (a + b)[1..] == a[1..] + b;
    } else {
      assert a + b == b;
    }
  }

  lemma {:induction false} KeySumReverse(counts: map<Instant, nat>, keys: seq<Instant>)
    ensures KeySum(counts, Reverse(keys)) == KeySum(counts, keys)
  {
    if |keys| > 0 {
      KeySumReverse(counts, keys[1..]);
      assert Reverse(keys) == Reverse(keys[1..]) + [keys[0]];
      KeySumAppend(counts, Reverse(keys[1..]), [keys[0]]);
    }
  }

  /** Over consecutive periods, the counts add up to the articles updated
      from the first period's start to the last period's end. */
  lemma {:induction false} KeySumWindows(articles: seq<Article>, counts: map<Instant, nat>, keys: seq<Instant>, n: int)
    requires |keys| >= 1 && n > 0
    requires forall m :: 0 <= m < |keys| - 1 ==> keys[m + 1] == keys[m] + n
    requires forall m :: 0 <= m < |keys| ==> Count(counts, keys[m]) == CountIn(articles, keys[m], keys[m] + n)
    ensures KeySum(counts, keys) == CountIn(articles, keys[0], keys[|keys| - 1] + n)
  {
    if |keys| > 1 {
      KeySumWindows(articles, counts, keys[1..], n);
      if |keys| > 2 {
        WalkIncreasing(keys, n, 1, |keys| - 1);
      }
      CountInSplit(articles, keys[0], keys[1], keys[|keys| - 1] + n);
    }
  }

  lemma {:induction false} CountInSplit(articles: seq<Article>, lo: int, mid: int, hi: int)
    requires lo <= mid <= hi
    ensures CountIn(articles, lo, mid) + CountIn(articles, mid, hi) == CountIn(articles, lo, hi)
  {
    if |articles| > 0 {
      CountInSplit(articles[1..], lo, mid, hi);
    }
  }

  lemma {:induction false} CountInAll(articles: seq<Article>, lo: int, hi: int)
    requires forall i :: 0 <= i < |articles| ==> lo <= articles[i].updated < hi
    ensures CountIn(articles, lo, hi) == |articles|
  {
    if |articles| > 0 {
      CountInAll(articles[1..], lo, hi);
    }
  }

  // ------------------------------------------------------------ formatting

  /** A reported bucket's labels parse back to the bounds of its period. */
  lemma RenderParses(b: Bucket)
    ensures StringToDatetime(Render(b).from) == Some(b.first)
    ensures StringToDatetime(Render(b).to) == Some(b.last)
  {
    StringToDatetimeFormat(b.first);
    StringToDatetimeFormat(b.last);
  }

  /** Under string order, `to` labels compare as the period ends do. */
  lemma RenderOrder(a: Bucket, b: Bucket)
    ensures LexLess(Render(a).to, Render(b).to) <==> a.last < b.last
  {
    FormatOrder(a.last, b.last);
  }

  /** The walked keys, latest first, are strictly decreasing. */
  lemma ReverseDescending(keys: seq<Instant>, n: int)
    requires n > 0 && forall m :: 0 <= m < |keys| - 1 ==> keys[m + 1] == keys[m] + n
    ensures var latest := Reverse(keys);
      forall i, j :: 0 <= i < j < |latest| ==> latest[j] < latest[i]
  {
    var latest := Reverse(keys);
    forall i, j | 0 <= i < j < |latest| ensures latest[j] < latest[i] {
      WalkIncreasing(keys, n, |keys| - 1 - j, |keys| - 1 - i);
    }
  }

  /** The buckets run from the newest period to the oldest. */
  lemma BucketsDescending(p: Period, articles: seq<Article>, now: Instant)
    requires Buckets(p, articles, now).Success?
    ensures var bs := Buckets(p, articles, now).value;
      forall i, j :: 0 <= i < j < |bs| ==> bs[j].last < bs[i].last
  {
    var t, keys := ReportParts(p, articles, now);
    ReverseDescending(keys, Length(p));
  }

  /** The reported buckets are strictly descending by their `to` label
      under string order, so sorting by `to` in reverse yields exactly
      this order. */
  lemma NewestFirstOrder(p: Period, articles: seq<Article>, now: Instant)
    requires Aggregate(p, articles, now).Success?
    ensures var r := Aggregate(p, articles, now).value;
      forall i, j :: 0 <= i < j < |r| ==> LexLess(r[j].to, r[i].to)
  {
    var bs := Buckets(p, articles, now).value;
    var r := Aggregate(p, articles, now).value;
    BucketsDescending(p, articles, now);
    forall i, j | 0 <= i < j < |r| ensures LexLess(r[j].to, r[i].to) {
      RenderOrder(bs[j], bs[i]);
    }
  }

  /** Each reported bucket's labels parse back to the first and the last
      second of its period. */
  lemma AggregateLabels(p: Period, articles: seq<Article>, now: Instant)
    requires Aggregate(p, articles, now).Success?
    ensures var r := Aggregate(p, articles, now).value;
      var bs := Buckets(p, articles, now).value;
      forall i :: 0 <= i < |r| ==>
        && StringToDatetime(r[i].from) == Some(bs[i].first)
        && StringToDatetime(r[i].to) == Some(bs[i].last)
        && r[i].count == bs[i].count
  {
    RenderAllParses(Buckets(p, articles, now).value);
  }

  /** Every rendered bucket's labels parse back to its bounds. */
  lemma RenderAllParses(bs: seq<Bucket>)
    ensures var r := RenderAll(bs);
      forall i :: 0 <= i < |r| ==>
        && StringToDatetime(r[i].from) == Some(bs[i].first)
        && StringToDatetime(r[i].to) == Some(bs[i].last)
        && r[i].count == bs[i].count
  {
    var r := RenderAll(bs);
    forall i | 0 <= i < |r|
      ensures StringToDatetime(r[i].from) == Some(bs[i].first) && StringToDatetime(r[i].to) == Some(bs[i].last)
    {
      RenderParses(bs[i]);
    }
  }

  // -------------------------------------------------------------- scenario

  /** Midnight starting 2011-12-01. */
  const December1: Instant := 734471 * SecondsPerDay

  function Updated(t: Instant): Article {
    Article(0, "", "", None, "", t, [], [])
  }

  /** The tally of two articles at noon on 2011-12-01 and two at noon on
      2011-12-02. */
  lemma TwoDaysTally()
    ensures var a1, a2 := Updated(December1 + 43200), Updated(December1 + 129600);
      AddAll(Daily, EmptyTally, [a1, a1, a2, a2])
      == Success(Tally(map[December1 := 2, December1 + SecondsPerDay := 2], Some(December1)))
  {
    var d := December1;
    var e := d + SecondsPerDay;
    var a1, a2 := Updated(d + 43200), Updated(d + 129600);
    var articles := [a1, a1, a2, a2];
    assert PeriodStart(Daily, d + 43200) == d;
    assert PeriodStart(Daily, d + 129600) == e;
    var t1 := Tally(map[d := 1], Some(d));
    var t2 := Tally(map[d := 2], Some(d));
    var t3 := Tally(map[d := 2, e := 1], Some(d));
    var t4 := Tally(map[d := 2, e := 2], Some(d));
    assert AddArticle(Daily, EmptyTally, a1.updated) == Success(t1);
    assert t1.counts[d := 2] == t2.counts;
    assert AddArticle(Daily, t1, a1.updated) == Success(t2);
    assert AddArticle(Daily, t2, a2.updated) == Success(t3);
    assert t3.counts[e := 2] == t4.counts;
    assert AddArticle(Daily, t3, a2.updated) == Success(t4);
    assert articles[3..] == [a2] && articles[2..] == [a2, a2] && articles[1..] == [a1, a2, a2];
    assert AddAll(Daily, t3, [a2]) == Success(t4);
    assert AddAll(Daily, t2, [a2, a2]) == Success(t4);
    assert AddAll(Daily, t1, [a1, a2, a2]) == Success(t4);
  }

  /** Reported daily at midnight starting 2011-12-02, those four articles
      make two buckets of two, the newer first. */
  lemma DailyTwoDays()
    ensures var a1, a2 := Updated(December1 + 43200), Updated(December1 + 129600);
      Buckets(Daily, [a1, a1, a2, a2], December1 + SecondsPerDay)
      == Success([Bucket(2, December1 + SecondsPerDay, December1 + 2 * SecondsPerDay - 1),
                  Bucket(2, December1, December1 + SecondsPerDay - 1)])
  {
    var d := December1;
    var e := d + SecondsPerDay;
    TwoDaysTally();
    var counts := map[d := 2, e := 2];
    assert Walk(Daily, counts, e, e) == Success([e]);
    assert [d] + [e] == [d, e];
    assert Walk(Daily, counts, d, e) == Success([d, e]);
    var latest := Reverse([d, e]);
    assert latest[0] == e && latest[1] == d;
    assert latest == [e, d];
    var bs := Labels(Daily, counts, latest);
    assert bs[0] == Bucket(2, e, e + SecondsPerDay - 1) && bs[1] == Bucket(2, d, e - 1);
    assert bs == [Bucket(2, e, e + SecondsPerDay - 1), Bucket(2, d, e - 1)];
  }
}

=== FILE: wrappers.dfy ===
/** Failure-compatible wrappers shared by every module of the model: an
    optional value (Python's `None`) and a value-or-exception result. */
module Wrappers {

  datatype Option<+T> = None | Some(value: T)

  /** The outcome of a Python call that either returns a value or raises. */
  datatype Result<+R, +E> = Success(value: R) | Failure(error: E) {

    predicate IsFailure() {
      Failure?
    }

    function PropagateFailure<U>(): Result<U, E>
      requires Failure?
    {
      Failure(error)
    }

    function Extract(): R
      requires Success?
    {
      value
    }
  }
}
